=== FILE: README.md ===
# 0BullshitIntelligence core in Dafny

A model of the deterministic core of 0BullshitIntelligence, a chat
assistant for startup founders. The model covers the chat pipeline and the
search and bookkeeping code around it:

- **Librarian** (`librarian.dfy`). It cleans the fields a language model
  extracted from one conversation turn, merges them into the founder's
  cumulative project profile, and scores the profile's completeness and the
  extraction's relevance.
- **Profile** (`profile.dfy`). The profile records, the second completeness
  formula of the user models (fifteen fields), the score clamp, and the
  search-readiness validator.
- **Investor ranking** (`investor_ranking.dfy`). The assistant's investor
  search: the 50% eligibility gate, the stage-band split between business
  angels and funds, the fund score with its employee bonus, the blended
  top-15 ranking, and the keyword clean-up.
- **Investor engine** (`investor_engine.dfy`). The search engine variant: the
  stage-keyword vote for the angel/fund split, per-pool limits, the merge
  ordered by (relevance, score), the fund keyword-string parser, the angel
  tag pooling, and the location line.
- **Company engine and company ranking** (`company_engine.dfy`,
  `company_ranking.dfy`). Keyword expansion by service type, the 0–100
  service-match score, the keyword and service lists of a company, the
  first-match-wins relevance score with its filter, sort and cap, and the
  unranked fallback when ranking raises.
- **Judge** (`judge.dfy`). Cleaning and checking the language model's JSON
  verdict, probability normalisation, the keyword fallback classifier, the
  context section of the prompt, and the catch-all that turns every failure
  into the fallback.
- **Chat service** (`chat_service.dfy`). The pipeline of one message:
  language detection, the spam short-circuit, routing the judge's decision to
  an action, service-keyword extraction, the upsell check and the error path.
- **Anti-spam, language detection, upselling** (`anti_spam.dfy`,
  `language_detection.dfy`, `upselling.dfy`). The indicator score and its
  thresholds, the marker-count language vote, and the upsell decision table.
- **WebSocket fan-out** (`fanout.dfy`). Conversation rooms, socket metadata,
  the offline queue capped at 100 with replay on connect, and eviction of
  sockets whose send failed.
- **Rate limiter** (`rate_limit.dfy`). Per-client sliding minute and hour
  windows, recording of accepted requests, the remaining-count headers, one
  pruning pass, and the client id and IP rules.
- **Validators** (`chat_models.dfy`, `base_models.dfy`). Message trimming and
  length checks, the recent-message view, the email check, and language
  normalisation.

Shared helpers model the Python built-ins the code leans on:

- `Text`: `str.lower`, `strip`, `split`, `title`, `replace` and `in`.
- `Seqs`: order-preserving de-duplication and `list(set(...))` over strings.
- `Ranking`: the stable `sort(reverse=True)` and its top-k and filtered forms.
- `Json`: dicts decoded from JSON, as association lists in insertion order.
- `Wrappers`: `Result` and `Option`, and a loop that stops at its first
  exception.
- `Numbers`: `int()` of a float.

Everything that leaves the process is a parameter of the model: the language
model's replies, the JSON decoder, database rows, the clock, socket sends and
the JWT decoder. An operation that can raise returns a `Result`; the error
path is modelled wherever the source catches it. Python floats are `real`,
and `int()` of a float truncates toward zero explicitly (`Numbers.Trunc`).

## Model

| member | source | states |
|---|---|---|
| AntiSpam.Detect | app/ai_systems/anti_spam.py:26-49 | each indicator fires exactly under its condition: over 100 characters with fewer than ten distinct lower-cased words; over 2000 characters; more than twenty words with spaces under a tenth of the length; over 50 characters with no business keyword in the lower-cased text |
| AntiSpam.CountChar | app/ai_systems/anti_spam.py:37 | `text.count(' ')` is the number of occurrences of the character in the text, at most its length |
| AntiSpam.RatioBelowTenth | app/ai_systems/anti_spam.py:37 | for a non-empty text the real-valued space ratio is below 0.1 exactly when ten times the space count is below the length |
| AntiSpam.Score | app/ai_systems/anti_spam.py:24-49 | the score adds the weights 20, 15, 25 and 10 of the indicators that fire, so it lies in [0, 70] |
| AntiSpam.CheckMessage | app/ai_systems/anti_spam.py:19-71 | the result carries the detected indicators and their score; spam exactly when the score is at least 30; confidence is score/100, within [0, 0.7]; not spam gives allow/normal, 30 to 49 gives warn/warning, 50 or more gives block/strict |
| AntiSpam.SpamNeedsTwoIndicators | app/ai_systems/anti_spam.py:27-51 | no single indicator reaches the threshold: spam means at least two indicators fired |
| AntiSpam.ShortMessagesPass | app/ai_systems/anti_spam.py:27-51 | a message of at most 50 characters is never spam |
| AntiSpam.BusinessIsOnTopic | app/ai_systems/anti_spam.py:42-49 | a message whose lower-cased text holds a business keyword is never off topic |
| AntiSpam.SpamReply | app/ai_systems/anti_spam.py:73-85 | the reply is one of the four fixed texts; it is a Spanish text exactly for Spanish, and a warning text exactly for the warning tone |
| AntiSpam.SpamReplyDependsOnToneAndLanguage | app/ai_systems/anti_spam.py:73-85 | two results with the same warning-or-not tone, in languages that agree on being Spanish, get the same reply |
| LanguageDetection.MajorityConfidence | app/ai_systems/language_detection.py:42-45 | `min(0.7 + 0.1 * count, 1.0)` is within [0.8, 1.0] for a count of at least one and is 1.0 from three on |
| LanguageDetection.DetectLanguage | app/ai_systems/language_detection.py:19-56 | with the marker counts over the lower-cased text: more Spanish markers give Spanish, more English markers give English, each with the majority confidence; a tie gives Spanish at 0.5; mixed exactly when both counts are positive; the response language is the detected one; confidence within [0.5, 1.0] |
| LanguageDetection.DetectionIgnoresCase | app/ai_systems/language_detection.py:35-38 | detecting the lower-cased text gives the same result as detecting the text |
| LanguageDetection.EnglishNeedsEvidence | app/ai_systems/language_detection.py:40-45 | English is only detected when some English marker occurs, and then with confidence at least 0.8 |
| LanguageDetection.SharedMarkers | app/ai_systems/language_detection.py:25-55 | a text holding "no" or "startup" counts on both sides and is always reported as mixed |
| Upselling.AnalyzeOpportunity | app/ai_systems/upselling_system.py:19-72 | no user context gives the error outcome; free plus an investor search gives free_to_pro at 0.8 with the language's Pro message; pro plus an investor search with extracted data gives pro_to_outreach at 0.7 with the Outreach message; every other case gives no upsell, type "none", confidence 0 and target "outreach" |
| Upselling.UpsellShape | app/ai_systems/upselling_system.py:57-63 | an upsell carries a message exactly when it is made; the target is "pro" exactly for free_to_pro; outside the error case the target is "pro" or "outreach" |
| Upselling.NoUpsellBeyondTable | app/ai_systems/upselling_system.py:33-55 | an outreach plan, or any decision other than an investor search, is never upsold |
| BaseModels.ValidateEmail | app/models/base.py:166-170 | rejected without an `@`; otherwise accepted exactly when the text after the last `@` holds a dot, and then the result is the lower-cased input; the error message names the input |
| BaseModels.LowerKeepsLastAt | app/models/base.py:168-170 | lower-casing keeps the position of the last `@` |
| BaseModels.ValidateEmailIdempotent | app/models/base.py:166-170 | an accepted address validates again to itself |
| BaseModels.ValidateLanguage | app/models/base.py:173-178 | a value whose lower case is some language's value gives that language; anything else gives OTHER; it never fails |
| BaseModels.ValidateLanguageRoundTrip | app/models/base.py:173-178 | every language's own value validates to that language, and validating the lower-cased value gives the same result as the value |
| ChatModels.ValidateMessageContent | app/models/chat.py:260-267 | accepted exactly when the stripped content is non-empty and at most 10000 characters long, and then the result is the stripped content; the two errors carry their messages |
| ChatModels.ValidateMessageContentIdempotent | app/models/chat.py:260-267 | validating validated content returns it unchanged |
| ChatModels.CreateChatMessage | app/models/chat.py:270-284 | a message is built exactly when the content validates; it stores the stripped content and the given ids and role; otherwise the validation error is raised |
| ChatModels.RecentMessages | app/models/chat.py:181-186 | with the messages present the view is their last min(n, 10) messages, otherwise the given value |
| ChatModels.RecentMessagesSlide | app/models/chat.py:181-186 | one more message joins the end of the view and, when ten were already there, pushes out the oldest |
| ChatService.FoundIn | app/services/chat_service.py:297-301 | the result holds only patterns that occur in the text, holds every pattern that does, and is empty exactly when none occurs |
| ChatService.FoundInIsFilter | app/services/chat_service.py:299-301 | collecting the patterns one by one is filtering the pattern list by occurrence, so the matches keep the pattern-list order |
| ChatService.Matching | app/services/chat_service.py:297-305 | the keywords are never empty: every occurring pattern is among them; a result other than the fallback holds only occurring patterns; with no occurring pattern the result is the fallback |
| ChatService.CollectMatching | app/services/chat_service.py:285-307 | the loop over the patterns followed by the fallback computes the matching keywords |
| ChatService.ExtractServiceKeywords | app/services/chat_service.py:277-307 | the service keywords of a message are the service patterns occurring in its lower-cased text, or exactly ["business services", "consulting"] when none does |
| ChatService.StageKeywords | app/services/chat_service.py:186-188 | the stage keywords are the one-element list of the extracted stage exactly when data was extracted and its stage is non-empty, otherwise empty |
| ChatService.Route | app/services/chat_service.py:182-273 | an investor search gets the extracted categories (or none), the stage keywords and limit 15; a company search gets the message's service keywords and limit 10; welcome and mentor_response keep their actions; any other decision becomes a mentor reply without extracted data |
| ChatService.ExecuteDecision | app/services/chat_service.py:170-275 | fails exactly when running the routed action fails; the reply is the action's reply; search type "investors" or "companies" exactly for the two searches, with search results exactly when there is a search type; message type "welcome" exactly for welcome, "mentor" exactly for every other non-search decision, and a message type exactly when there is no search |
| ChatService.UnknownDecisionGetsMentor | app/services/chat_service.py:262-273 | a decision outside the four named ones is routed to the mentor and answered with message type "mentor" |
| ChatService.CheckUpselling | app/services/chat_service.py:309-331 | a message is returned exactly when the analysis recommends an upsell, which needs a free or pro plan and an investor search |
| ChatService.ProcessMessage | app/services/chat_service.py:43-168 | a missing user context gives the failure response, since the first log line reads its user id; otherwise spam is answered successfully with the anti-spam reply in the detected language, without data or upsell; a failing judge gives the failure response; otherwise success exactly when executing the decision succeeds, and then the response carries the executed decision's data, that data's reply, and the upsell `_check_upselling` gives for the plan, the decision and the detected language; every failure is the fixed failure response; a successful reply with data repeats the data's reply |
| ChatService.SpamSkipsJudge | app/services/chat_service.py:83-97 | for spam the response does not depend on the judge's outcome or on what the actions would do |
| Judge.Cleaned | app/ai_systems/judge_system.py:321-327 | a reply that does not open with a code fence once stripped is only stripped |
| Judge.CleanedUnwrapsFence | app/ai_systems/judge_system.py:321-327 | a fenced reply, with any info string on the fence line, cleans back to exactly the block's body: the first and last lines are dropped |
| Judge.Normalize | app/ai_systems/judge_system.py:343-344 | every probability is divided by the sum, keys and order kept |
| Judge.NormalizeTotal | app/ai_systems/judge_system.py:339-344 | the divided probabilities total the old total divided by the divisor, so dividing by their own sum makes them total one |
| Judge.MissingField | app/ai_systems/judge_system.py:332-336 | no field is reported exactly when all four required fields are present; a reported field is absent from the reply and is the first absent one in the order checked |
| Judge.CheckedProbabilities | app/ai_systems/judge_system.py:338-346 | probabilities whose sum is within 0.1 of one (or that are empty) are kept; otherwise each is divided by the sum and they then total one; keys and order never change; a zero sum is the only numeric failure |
| Judge.CheckReply | app/ai_systems/judge_system.py:330-346 | an accepted reply is an object with the four required fields and the same keys, carrying the checked probabilities; a missing field gives "Invalid Gemini response format: Missing required field: " with the first missing name |
| Judge.ParseReply | app/ai_systems/judge_system.py:318-351 | text that does not decode after cleaning is rejected; decoded text is accepted exactly as the reply checks say |
| Judge.FallbackProbabilities | app/ai_systems/judge_system.py:378-385 | welcome, upsell and completeness are fixed at 0.05, 0.05 and 0.1 whatever the decision |
| Judge.FallbackDecision | app/ai_systems/judge_system.py:353-388 | investor words in the lower-cased message give search_investors at 0.6; failing those, company words give search_companies at 0.6; otherwise chat at 0.8; probabilities follow the decision; fixed reasoning, empty extracted data and urgency 3 |
| Judge.FallbackFavoursItsDecision | app/ai_systems/judge_system.py:362-385 | the fallback's decision is the action it gives the highest probability, and that probability is its confidence |
| Judge.FallbackIgnoresCase | app/ai_systems/judge_system.py:362-372 | the fallback for the lower-cased message is the fallback for the message |
| Judge.Sections | app/ai_systems/judge_system.py:271-311 | at most four sections, and none exactly when no entry of the analysis is present and truthy |
| Judge.RecentLine | app/ai_systems/judge_system.py:313 | a recent message renders exactly when it is an object whose content (default "") can be sliced |
| Judge.RecentLines | app/ai_systems/judge_system.py:309-314 | only the last three recent messages are rendered, oldest first, one line each; the list renders whenever each of those three does |
| Judge.RecentIgnoresOlder | app/ai_systems/judge_system.py:313 | messages before the last three never change the rendered lines |
| Judge.ContextSection | app/ai_systems/judge_system.py:271-316 | no applicable section gives "Sin contexto disponible"; otherwise the rendered sections joined by newlines, failing exactly when one of them fails |
| Judge.AnalyzeUserIntent | app/ai_systems/judge_system.py:87-140 | a failing context section, a failing model call, a reply that does not parse or a failing decision engine each give the keyword fallback; when every step succeeds the outcome is the engine's decision; with schema validation set aside, it never fails |
| Judge.MissingFieldFallsBack | app/ai_systems/judge_system.py:330-340 | a decoded reply missing a required field ends in the keyword fallback |
| Fanout.InitialValid | app/api/websockets/manager.py:21-32 | the empty manager keeps no empty room and no queue over the cap |
| Fanout.Disconnect | app/api/websockets/manager.py:74-103 | the socket leaves the named room, which is deleted once empty; its metadata is dropped; queues and every other conversation are unchanged; validity is kept |
| Fanout.DisconnectUnknown | app/api/websockets/manager.py:78-86 | disconnecting a socket that is neither in the room nor in the metadata changes nothing |
| Fanout.Stamped | app/api/websockets/manager.py:242 | the queued message gains "queued_at" and keeps every other entry |
| Fanout.QueueMessage | app/api/websockets/manager.py:236-249 | the queue becomes the newest 100 of the old queue plus the stamped message, which is last; below the cap it is simply appended; rooms, metadata and other conversations are unchanged |
| Fanout.QueueOverflowDropsOldest | app/api/websockets/manager.py:247-249 | queueing onto a full queue drops the oldest message and keeps the length at 100 |
| Fanout.Replayed | app/api/websockets/manager.py:266 | a replayed message gains "replayed": true and keeps every other entry |
| Fanout.ReplayTo | app/api/websockets/manager.py:264-267 | the replay sends every queued message to the socket, marked replayed, in queue order |
| Fanout.Connect | app/api/websockets/manager.py:34-72 | an accepted socket joins its room and gets its metadata; the queue is replayed in order, then emptied, then the confirmation is sent; a socket that fails to accept is disconnected and nothing is sent; other conversations are unchanged and validity is kept |
| Fanout.QueuedThenReplayed | app/api/websockets/manager.py:113-126 | a message broadcast to an empty conversation reaches the next socket to connect, after the messages queued before it |
| Fanout.DisconnectFailed | app/api/websockets/manager.py:135-137 | disconnecting a set of sockets one by one removes exactly them from the room and the metadata and leaves queues and other conversations alone |
| Fanout.Broadcast | app/api/websockets/manager.py:113-144 | with nobody in the room the message is queued and nothing is attempted; otherwise every socket of the room is attempted, exactly the failed ones are disconnected, the successful ones stay, queues and other conversations are unchanged, and validity is kept |
| RateLimit.CountAfter | app/api/middleware/rate_limit.py:166 | the count of times after the cutoff is at most the number of times; it is zero exactly when no time is after the cutoff, and all of them exactly when every time is |
| RateLimit.CountAfterAppend | app/api/middleware/rate_limit.py:107 | recording one more time adds one to a window exactly when the time falls inside it |
| RateLimit.CountAfterAntitone | app/api/middleware/rate_limit.py:165-176 | a window with an earlier cutoff never holds fewer requests |
| RateLimit.CheckLimits | app/api/middleware/rate_limit.py:159-182 | the request passes exactly when the last minute holds fewer than the minute limit and the last hour fewer than the hour limit; a full minute gives the minute detail, otherwise a full hour gives the hour detail |
| RateLimit.AcceptedStaysWithinLimits | app/api/middleware/rate_limit.py:95-107 | after an accepted request is recorded, the minute window holds at most the minute limit and the hour window at most the hour limit |
| RateLimit.MinuteBelowHour | app/api/middleware/rate_limit.py:165-176 | the minute window never holds more requests than the hour window |
| RateLimit.Remaining | app/api/middleware/rate_limit.py:192-196 | `max(0, limit - used)`: never negative, and the difference whenever that is positive |
| RateLimit.RateHeaders | app/api/middleware/rate_limit.py:184-206 | the headers report both limits, what is left of each window after the recorded request, and a reset one minute after the truncated current time |
| RateLimit.FirstPiece | app/api/middleware/rate_limit.py:148 | the text before the first separator: a prefix of the input holding no separator, followed in the input by the separator when shorter |
| RateLimit.FirstPieceIsSplitHead | app/api/middleware/rate_limit.py:148 | that prefix is the first piece of splitting on the separator |
| RateLimit.Header | app/api/middleware/rate_limit.py:121-151 | a header counts exactly when it is present and non-empty |
| RateLimit.ClientIp | app/api/middleware/rate_limit.py:142-157 | the first comma-separated entry of X-Forwarded-For, stripped; else X-Real-IP; else the client host; else "unknown" |
| RateLimit.BearerToken | app/api/middleware/rate_limit.py:122-125 | a token exists exactly for a header starting with "Bearer "; it is the second space-separated piece, that is the text after the prefix up to the next space or the end, and holds no space |
| RateLimit.SplitAtLeastTwo | app/api/middleware/rate_limit.py:125 | a text holding the separator splits into at least two pieces, so taking the second piece never fails |
| RateLimit.ClientId | app/api/middleware/rate_limit.py:117-140 | the id is a "user:" id exactly when a bearer token decodes to a user id, and then it is "user:" followed by that id; otherwise it is the "ip:" id of the client address; the two kinds never coincide |
| RateLimit.Dispatch | app/api/middleware/rate_limit.py:82-115 | exempt paths pass with nothing recorded; otherwise the request is refused exactly when the limit is exceeded, with its detail and nothing recorded, or served with the time recorded and the headers of the recorded times; other clients are untouched |
| RateLimit.ServedHeadersExact | app/api/middleware/rate_limit.py:184-202 | a served request's remaining counts are exactly the limits minus the recorded window counts, never clipped |
| RateLimit.DropOlder | app/api/middleware/rate_limit.py:68-69 | the pruned times are a suffix of the times; every dropped time is older than the cutoff and the first kept one is not |
| RateLimit.Prune | app/api/middleware/rate_limit.py:59-73 | a client stays exactly when some time survives the one-hour cutoff, and keeps exactly the surviving times |
| RateLimit.DropOlderKeepsCounts | app/api/middleware/rate_limit.py:62-69 | dropping times older than a cutoff leaves every window starting at or after the cutoff with the same count |
| RateLimit.PrunedCounts | app/api/middleware/rate_limit.py:62-73 | pruning leaves every client's count for such a window unchanged, including clients it deletes |
| RateLimit.PruneKeepsDecisions | app/api/middleware/rate_limit.py:54-73 | pruning at one time never changes a decision taken at that time or later, for any client |
| Profile.DefaultMetrics | app/models/user.py:83-101 | a fresh metrics record holds exactly the twelve declared metric attributes |
| Profile.DefaultTeam | app/models/user.py:104-116 | a fresh team record holds exactly the nine declared team attributes |
| Profile.DefaultFunding | app/models/user.py:119-132 | a fresh funding record holds exactly the eight declared funding attributes |
| Profile.NumFilled | app/models/user.py:316-317 | the number of truthy values is at most the number of values |
| Profile.NumFilledAppend | app/models/user.py:312-351 | counting over two groups adds the counts of each group |
| Profile.NumFilledMono | app/models/user.py:312-351 | making more values truthy never lowers the count |
| Profile.CountFields | app/models/user.py:313-317 | one field loop adds one to the total per field and one to the completed count per truthy field |
| Profile.Probes | app/models/user.py:312-351 | the score inspects exactly fifteen values |
| Profile.ScoreTallyIsProbes | app/models/user.py:307-351 | the five loops of the score always count fifteen fields in total, and the completed count is the number of truthy inspected values, an absent team or metrics record counting three unfilled values |
| Profile.CalculateCompletenessScore | app/models/user.py:307-353 | the score is the truthy share of the fifteen inspected fields, as a percentage within [0, 100] |
| Profile.FifteenthsPercent | app/models/user.py:353 | with fifteen fields the percentage is the completed count times 100 over 15 and lies within [0, 100] |
| Profile.AbsentRecordsCountAsEmpty | app/models/user.py:327-344 | an absent team or metrics record scores exactly like a fresh default one |
| Profile.DefaultProbesEmpty | app/models/user.py:104-116 | none of the inspected attributes of a fresh team or metrics record is filled |
| Profile.SameFilledSameScore | app/models/user.py:307-353 | two profiles whose inspected fields are filled alike score alike |
| Profile.CompletenessScoreMonotone | app/models/user.py:307-353 | filling more inspected fields never lowers the score |
| Profile.ValidateCompletenessScore | app/models/user.py:204-210 | `None` becomes 0; a value within [0, 100] is kept; a lower one becomes 0 and a higher one 100 |
| Profile.ValidateCompletenessScoreIdempotent | app/models/user.py:204-210 | a validated score validates to itself |
| Profile.BasicIssues | app/models/user.py:360-368 | the categories, stage and problem issues are reported exactly when the field is falsy, and no search-specific issue is |
| Profile.SearchTypeIssues | app/models/user.py:370-380 | investors: the completeness issue exactly below 50 and the funding issue exactly without funding information; companies: the solution issue exactly without a solution; any other type: nothing |
| Profile.ValidateProjectForSearch | app/models/user.py:356-382 | ready exactly when there is no issue; each of the six issues is reported exactly under its condition, and nothing else is reported |
| InvestorEngine.CountMentioning | app/search/investor_search.py:241-242 | counts at most one per stage keyword, and is zero exactly when no keyword mentions any of the terms case-insensitively |
| InvestorEngine.SearchDistribution | app/search/investor_search.py:221-249 | the two shares always add up to 1; no stage keywords gives 50/50; more early than later mentions gives 70/30, more later gives 30/70, a tie gives 50/50 |
| InvestorEngine.DistributionSymmetric | app/search/investor_search.py:241-249 | angels get the larger share exactly when early mentions outnumber later ones, and funds exactly in the opposite case |
| Numbers.Trunc | app/search/investor_search.py:119-120 | Python's int() of a real lies within one of it, on the side of zero |
| InvestorEngine.PoolLimit | app/search/investor_search.py:119-120 | a pool limit is at least 1; when limit times share reaches 1 it is that product truncated, otherwise it is 1 |
| InvestorEngine.PoolLimitsWithinLimit | app/search/investor_search.py:115-120 | for a limit of at least 2, the angel and fund pools together never ask for more rows than the limit, whichever split the stage vote chose |
| InvestorEngine.NextQuote | app/search/investor_search.py:338 | finds the first single quote of a string, or reports that there is none |
| InvestorEngine.QuotedRuns | app/search/investor_search.py:338 | every run the quote scan returns is non-empty and holds no quote |
| InvestorEngine.FundTags | app/search/investor_search.py:330-348 | no value or "[]" gives no tags; a string gives at most ten quote-free, non-empty tags taken in scan order; a truthy non-string makes the parser raise |
| InvestorEngine.QuotedRunsOfQuoted | app/search/investor_search.py:338 | scanning a list rendered as 'a', 'b', ... followed by quote-free text gives back exactly that list |
| InvestorEngine.FundTagsRoundTrip | app/search/investor_search.py:330-339 | the stored form ['a', 'b', ...] of one to ten quote-free non-empty tags parses back to those same tags |
| InvestorEngine.FormatLocation | app/search/investor_search.py:350-361 | an absent or empty location reads "Unknown"; a list shows its first three entries joined by ", "; a dict shows its "value" entry or "Unknown"; a string shows itself |
| InvestorEngine.LocationShowsThree | app/search/investor_search.py:356-357 | a list of three or more places is shown as exactly its first three, comma separated |
| InvestorEngine.Pooled | app/search/investor_search.py:314-316 | pooling succeeds exactly when every truthy field is iterable, and then holds exactly the elements the truthy fields contribute |
| InvestorEngine.AngelTags | app/search/investor_search.py:310-328 | every tag is a pooled element; the tags cover the same classes of Python-equal values as the pooled elements, one tag per class, and every pooled element that is not a boolean or a number is itself a tag; a non-iterable field or an unhashable element makes the extraction raise |
| InvestorEngine.AngelEntry | app/search/investor_search.py:264-280 | an angel becomes an entry exactly when both tag extractions succeed; it is typed angel, named by fullname or "Unknown Angel", scored by angel_score and ranked by relevance_score, each defaulting to 0 |
| InvestorEngine.FundEntry | app/search/investor_search.py:283-300 | a fund becomes an entry exactly when both keyword columns parse; it is typed fund, named by name or "Unknown Fund", and its score equals its relevance |
| InvestorEngine.Entries | app/search/investor_search.py:261-300 | all angels then all funds become entries, one per row, or the first failure is reported |
| InvestorEngine.CombineSearchResults | app/search/investor_search.py:251-308 | the merge keeps every row exactly once (a permutation of the entries), orders by relevance then score highest first, and keeps rows with equal keys in input order |
| InvestorEngine.EngineSearchInvestors | app/search/investor_search.py:83-182 | a search with no keywords, stages or categories is refused; otherwise it fails exactly when merging fails, records the stage split, pool limits of at least 1 and the row counts, and returns the first limit merged entries, still sorted |
| InvestorRanking.MissingInfo | app/ai_systems/search_investors.py:44-51 | the refusal names the stage exactly when the stage is falsy and the categories exactly when they are falsy, stage first |
| InvestorRanking.CanSearchInvestors | app/ai_systems/search_investors.py:32-59 | allowed exactly when the completeness score (0 when absent) is at least 50; a low score is refused with the list of missing pieces; a score or categories value that makes the comparison or len() raise gives the error answer |
| InvestorRanking.EligibilityIgnoresProfile | app/ai_systems/search_investors.py:42-55 | whether a project may search depends on its score only: setting any stage and categories does not change the verdict |
| InvestorRanking.StageWeights | app/ai_systems/search_investors.py:182-205 | the two weights add up to 1 with angels strictly between 0 and 1; the first matching band of the lower-cased stage decides (0.8, 0.6, 0.3, 0.1 for angels), no stage or no band gives 0.6/0.4, and a truthy non-string stage raises |
| InvestorRanking.StageWeightsIgnoreCase | app/ai_systems/search_investors.py:187 | stage matching does not depend on letter case |
| InvestorRanking.EmployeesOf | app/ai_systems/search_investors.py:309 | a fund's employees are exactly the employee rows whose fund name equals the fund's name |
| InvestorRanking.FundScore | app/ai_systems/search_investors.py:313-315 | a fund scores 50 plus 5 per employee, capped at 100: between 50 and 100, and 100 from ten employees on |
| InvestorRanking.ScoreAngel | app/ai_systems/search_investors.py:302-304 | an angel keeps its row and its final score is its own score times the angels' weight |
| InvestorRanking.ScoreFund | app/ai_systems/search_investors.py:308-316 | a fund shows at most its first five employees, all of whom work there, but is scored on all of them, and its final score is that score times the funds' weight |
| InvestorRanking.Scored | app/ai_systems/search_investors.py:302-318 | every angel, then every fund, appears once with its weighted final score |
| InvestorRanking.CombineResults | app/ai_systems/search_investors.py:297-324 | the result is the 15 best (or all, when fewer) scored investors, drawn from the scored list without duplication, best first, no investor left out beats one kept, and investors with equal final scores keep their angels-then-funds order |
| InvestorRanking.CombinedFundsBounded | app/ai_systems/search_investors.py:313-316 | every fund in the combined list scores between 50 and 100, carries at most five employees, and its final score is its score times the funds' weight |
| InvestorRanking.NoEmployeesFlatFundScore | app/ai_systems/search_investors.py:286-291 | with the employee lookup returning no rows, every fund scores exactly 50 and shows no employees |
| InvestorRanking.CandidateKeywords | app/ai_systems/search_investors.py:152-159 | the candidates start with the model's trimmed comma-separated keywords in order, continue with exactly the iterated categories when they are truthy, and end with the stage when it is truthy; categories that cannot be iterated raise |
| InvestorRanking.UniqueKeywords | app/ai_systems/search_investors.py:161-170 | the kept keywords are the first 25 of the first spellings of every lower-cased form, in candidate order; they come from the candidates, have pairwise distinct lower-cased forms, and cover every lower-cased form when there are at most 25 of them |
| InvestorRanking.SearchKeywords | app/ai_systems/search_investors.py:120-180 | the clean-up fails only when the categories cannot be iterated; all-string candidates give the de-duplicated list; a non-string candidate sends it to the fallback of categories then stage |
| InvestorRanking.FirstByKeyTakeStable | app/ai_systems/search_investors.py:161-170 | de-duplicating an already de-duplicated list of at most 25 keywords returns it unchanged |
| InvestorRanking.SearchInvestors | app/ai_systems/search_investors.py:61-118 | the search fails exactly when the keyword clean-up or the stage weights raise; otherwise it returns at most 15 investors sorted by final score, with the counts of rows found, the keywords and the weights |
| InvestorRanking.SearchFundsScoreFifty | app/ai_systems/search_investors.py:86-90 | in a search result every fund scores exactly 50 before weighting and shows no employees |
| CompanyEngine.Expansion | app/search/company_search.py:187-198 | a known service type, matched in small letters, selects its table entry; no type or an unknown type adds nothing |
| CompanyEngine.Enhance | app/search/company_search.py:177-208 | the enhanced list is the keywords followed by the expansion, lower-cased, keeping the first occurrence of each form; it covers exactly those forms, each once, starts with the de-duplicated keywords, and holds nothing else |
| CompanyEngine.EnhanceKeepsInputs | app/search/company_search.py:184-208 | keywords already distinct ignoring case come first in the enhanced list, unchanged |
| CompanyEngine.EnhanceIgnoresTypeCase | app/search/company_search.py:197-198 | the service type's case does not matter |
| CompanyEngine.EnhanceIdempotent | app/search/company_search.py:177-208 | enhancing an enhanced list again with the same type changes nothing |
| CompanyEngine.LowerField | app/search/company_search.py:258-260 | a missing column reads as empty text and a string column in small letters; any other value raises |
| CompanyEngine.KeywordWeight | app/search/company_search.py:268-277 | a keyword earns 3 exactly when it occurs in the specific keywords, 2 exactly when it occurs in the general keywords but not the specific ones, 1 exactly when it occurs only in the sector, and 0 exactly when it occurs in none of the three columns |
| CompanyEngine.MatchSum | app/search/company_search.py:262-277 | the sum is the total of the keywords' weights; it lies between 0 and 3 per keyword; the maximum is reached exactly when every keyword occurs in the specific keywords, and 0 exactly when none earns anything |
| CompanyEngine.WeightSum | app/search/company_search.py:268-277 | the sum is the left-to-right total of the weights; for weights in [0, 3] it is the maximum exactly when every weight is 3 and 0 exactly when every weight is 0 |
| CompanyEngine.MatchPercent | app/search/company_search.py:279-283 | the percentage is the sum as a share of the 3 points per keyword times 100; it lies in [0, 100], is 100 exactly at the maximum sum and 0 exactly at a zero sum |
| CompanyEngine.ServiceMatch | app/search/company_search.py:250-283 | the match fails exactly when one of the three columns is not text; it is the keywords' total weight as a percentage of 3 points per keyword, lies in [0, 100], is 0 for no keywords, 100 exactly when every keyword occurs in the specific keywords, and 0 exactly when no keyword occurs anywhere |
| CompanyEngine.ServiceMatchIgnoresKeywordCase | app/search/company_search.py:269 | lower-casing the requested keywords does not change the match |
| CompanyEngine.WeightSumPointwise | app/search/company_search.py:268-277 | two keyword lists weighed alike position by position have the same sum |
| CompanyEngine.CommaField | app/search/company_search.py:291-299 | an empty or missing column gives nothing; a string column gives its trimmed non-empty comma pieces; any other truthy value raises |
| CompanyEngine.CompanyKeywords | app/search/company_search.py:285-304 | fails exactly when one of the two columns raises; otherwise at most twenty pairwise different keywords, all from the two columns, and all of them when there are at most twenty distinct ones |
| CompanyEngine.PatternsIn | app/search/company_search.py:325-327 | the result is exactly the title-cased patterns that occur in the text |
| CompanyEngine.NamedServices | app/search/company_search.py:317-327 | a non-text truthy specific-keywords column raises; a missing or non-text falsy one names nothing; otherwise a service is named exactly when it is the title-cased form of a service pattern occurring in the lower-cased column |
| CompanyEngine.CompanyServices | app/search/company_search.py:306-332 | fails exactly when the sector or specific-keywords column raises; otherwise at most ten pairwise different services, each a sector piece or a named service, and all of them when there are at most ten distinct ones |
| CompanyEngine.ProcessCompany | app/search/company_search.py:220-238 | a row becomes a record exactly when its match, keywords and services succeed; the record keeps the row, its match against the requested keywords, its relevance (0 when absent), its name or "Unknown Company" and its location or "Unknown" |
| CompanyEngine.ProcessAll | app/search/company_search.py:220-240 | every row becomes one record in row order, or the first failure is reported |
| CompanyEngine.ProcessSearchResults | app/search/company_search.py:210-248 | every record is kept exactly once (a permutation), ordered by relevance then service match highest first, with rows of equal keys in row order |
| CompanyEngine.ProcessedMatchesOwnRow | app/search/company_search.py:235-246 | every ranked record comes from one of the rows and carries that row's own match score |
| CompanyEngine.SearchCompanies | app/search/company_search.py:76-162 | an empty keyword list is refused; otherwise the search fails exactly when processing fails, reports the enhanced keywords and the number of rows, and returns the first limit ranked records, still sorted |
| CompanyRanking.ExtractSearchKeywords | app/ai_systems/search_companies.py:76-130 | a failed extraction gives the six fixed keywords; otherwise at most thirty trimmed comma pieces of the reply, each longer than two characters, distinct ignoring case, first spelling kept in reply order |
| CompanyRanking.RecordColumns | app/ai_systems/search_companies.py:151-160 | each of the eight columns is stored under its record name, holding the row's value or None when absent |
| CompanyRanking.BuildRecord | app/ai_systems/search_companies.py:149-164 | a record is typed company, carries every renamed column with the row's value, empty keyword columns and a zero relevance score |
| CompanyRanking.RecordLookups | app/ai_systems/search_companies.py:151-164 | every key of a built record finds the value written for it, since the record's keys are pairwise distinct |
| CompanyRanking.LowerColumn | app/ai_systems/search_companies.py:199-208 | a column reads in small letters when it is text or missing, and raises otherwise |
| CompanyRanking.FirstHit | app/ai_systems/search_companies.py:195-208 | a keyword earns the weight of the first column that contains it, scanning every earlier column as readable and not containing it, at most 3; it earns 0 exactly when every column is readable and none contains it; it raises exactly when the scan reaches an unreadable column before any hit |
| CompanyRanking.KeywordScore | app/ai_systems/search_companies.py:194-210 | the score is the sum of every keyword's first-hit weight, between 0 and 3 per keyword; it fails exactly when some keyword's scan raises and is 0 exactly when every keyword earns 0 |
| CompanyRanking.SumHits | app/ai_systems/search_companies.py:194-210 | the sum is the left-to-right total of the hits; for hits in [0, 3] it is bounded by 3 per keyword, fails exactly when some hit fails, and is 0 exactly when every hit is 0 |
| CompanyRanking.CompanyScore | app/ai_systems/search_companies.py:176-210 | a company's score is the sum of every keyword's first-hit weight over the four columns; it fails exactly when a truthy text column is not a string or a keyword scan raises; it is 0 exactly when every column is readable and no keyword hits |
| CompanyRanking.WithScore | app/ai_systems/search_companies.py:210 | writing the score sets relevance_score and leaves every other key as it was |
| CompanyRanking.RankScored | app/ai_systems/search_companies.py:212-217 | the ranked list is the twenty best positive records (all of them when fewer), drawn from the scored records without duplication, best first, no positive record left out beats one kept, and records with equal scores keep their input order |
| CompanyRanking.Aborted | app/ai_systems/search_companies.py:219-221 | when scoring record k raises, the first twenty records are returned in input order; those before k carry their score and the rest are unchanged |
| CompanyRanking.RankResults | app/ai_systems/search_companies.py:173-221 | when every record scores, the twenty best positive records (all when fewer), best first, none left out outranking one kept, ties in input order; when one raises, the first twenty records as they stand, scored up to the failure |
| CompanyRanking.UnmatchedNeverRanked | app/ai_systems/search_companies.py:215-217 | a record that no keyword hits never reaches the ranked list |
| CompanyRanking.Records | app/ai_systems/search_companies.py:132-171 | one record per returned row, in row order; a failed query gives no records |
| CompanyRanking.SearchCompanies | app/ai_systems/search_companies.py:30-74 | the search reports the keywords it used (the fixed list when extraction failed, otherwise the first thirty distinct-ignoring-case trimmed pieces longer than two characters), the number of records found, and at most twenty ranked records |
| Librarian.StripFences | app/ai_systems/librarian.py:191-195 | a reply not opening with a json fence is only stripped; a fenced reply loses at least the opening marker, and a stripped reply that is a backtick-free body between the json fence and a closing fence becomes exactly that body; the text is never longer than the reply |
| Librarian.BasicValue | app/ai_systems/librarian.py:220-225 | a basic field survives cleaning exactly when it is a non-blank string (stored stripped) or a non-empty list (stored as is); every other value is dropped, and whatever survives is truthy |
| Librarian.DropEmpty | app/ai_systems/librarian.py:229-232 | a cleaned sub-record keeps exactly the entries whose value is neither None nor the empty string |
| Librarian.NestedValue | app/ai_systems/librarian.py:228-244 | an absent or falsy nested value is dropped, a dict keeps its non-empty entries, and any other truthy value raises |
| Librarian.CleanBasicFields | app/ai_systems/librarian.py:215-225 | the cleaned basic record holds, under each listed name, exactly what cleaning that field keeps, and nothing under any other key |
| Librarian.CleanNestedFields | app/ai_systems/librarian.py:227-244 | cleaning the nested records fails exactly when one of them raises, and otherwise holds exactly each one's cleaned value |
| Librarian.CleanWith | app/ai_systems/librarian.py:209-246 | for disjoint basic and nested name lists, cleaning fails exactly when a nested value raises, and every key then holds exactly its cleaned value |
| Librarian.CleanExtractedData | app/ai_systems/librarian.py:209-246 | cleaning fails exactly when metrics, team_info or funding_info is truthy but not a dict; otherwise every key holds exactly what the field rules keep |
| Librarian.FencedBody | app/ai_systems/librarian.py:194-195 | a backtick-free body wrapped in the json fence and a closing fence comes out of the two replacements bare |
| Librarian.ExtractProjectInfo | app/ai_systems/librarian.py:189-207 | a reply that decodes to a dict which cleans gives the cleaned fields; a reply that does not decode to a dict, or that decodes to a dict whose cleaning raises, gives no fields |
| Librarian.MergeCategories | app/ai_systems/librarian.py:264-268 | every merged category comes from the current (or empty) list or the new one; the merge covers the same classes of Python-equal values as the two lists together, one element per class, and keeps every element that is not a boolean or a number; a non-list side or an unhashable element raises |
| Librarian.MergeCategoriesTrueAndOne | app/ai_systems/librarian.py:267 | `set` treats `True` and `1.0` as one element, so merging `[True, 1.0]` into no categories gives `[True]` |
| Librarian.LastWrite | app/ai_systems/librarian.py:279-281 | no value is found exactly when no entry writes the key; otherwise the value is that of an entry for the key after which no entry writes it, so the last write wins |
| Librarian.WriteAttrs | app/ai_systems/librarian.py:279-299 | writing entries keeps the record's attribute names and leaves each attribute at the last value the entries give it, or as it was when none does |
| Librarian.WriteAttrsIdempotent | app/ai_systems/librarian.py:279-299 | writing the same entries a second time changes nothing |
| Librarian.MergeNested | app/ai_systems/librarian.py:274-299 | an absent extraction leaves the sub-record alone; otherwise the current record (or the default when there is none) receives the extracted entries, and the step fails exactly when the extracted value is not a dict |
| Librarian.ModelDefaults | app/ai_systems/librarian.py:277 | the fresh sub-records have exactly the attribute names of the metrics, team and funding models |
| Librarian.MergeTextFields | app/ai_systems/librarian.py:258-261 | each of problem_solved, solution, target_market and business_model takes the extracted value when the extraction names it and is kept otherwise; no other field changes |
| Librarian.Merge | app/ai_systems/librarian.py:248-301 | the four text fields take the extracted value when present; when the merge goes through, the stage is replaced, categories are unioned and each nested record receives its entries; the merge fails exactly when the categories raise or a nested value is not a dict; a well-formed profile stays well-formed |
| Librarian.MergeCategoriesAbsorbs | app/ai_systems/librarian.py:264-268 | merging the same categories into an already merged list changes nothing |
| Librarian.MergeIdempotent | app/ai_systems/librarian.py:248-301 | merging the same extraction a second time into the merged profile changes nothing |
| Librarian.MergeNeverEmpties | app/ai_systems/librarian.py:258-299 | merging a cleaned extraction never empties a filled top-level field nor removes a nested record |
| Librarian.WeighFields | app/ai_systems/librarian.py:317-333 | a loop over fields worth 10 each adds 10 per field to the total and 10 per truthy field to the earned weight |
| Librarian.LibrarianTallyTotal | app/ai_systems/librarian.py:306-364 | the weights of the completeness loop always total 100 and the earned weight stays between 0 and 100 |
| Librarian.CalculateCompleteness | app/ai_systems/librarian.py:303-366 | the completeness percentage equals the earned weight, between 0 and 100 |
| Librarian.FundingEarnsTen | app/ai_systems/librarian.py:359-364 | any funding record, whatever it holds, adds exactly 10 points |
| Librarian.TallyParts | app/ai_systems/librarian.py:309-364 | the earned weight is 10 per filled basic and business field, a third of 20 per filled metric, half of 10 per filled team field, and 10 for a funding record |
| Librarian.CompletenessMonotone | app/ai_systems/librarian.py:303-366 | a profile that has filled everything another has filled scores at least as much |
| Librarian.MergeDominates | app/ai_systems/librarian.py:248-301 | merging an extraction whose values are all truthy keeps everything that was filled filled |
| Librarian.MergeKeepsCompleteness | app/ai_systems/librarian.py:61-66 | merging an extraction whose values are all truthy never lowers the completeness score |
| Librarian.NestedFalsyLowersCompleteness | app/ai_systems/librarian.py:229-232 | cleaning keeps a nested 0, and merging it over a filled metric lowers the score, so the truthiness condition above cannot be dropped |
| Librarian.MergeOnlyMetrics | app/ai_systems/librarian.py:275-281 | an extraction holding only a metrics dict changes only the metrics record |
| Librarian.RelevanceWeightsSum | app/ai_systems/librarian.py:375-385 | every relevance weight is positive and together they make exactly 1 |
| Librarian.PresentWeightBounds | app/ai_systems/librarian.py:387-390 | the weight of the present keys lies between 0 and the total, and is at least the weight of any single present key |
| Librarian.CalculateRelevance | app/ai_systems/librarian.py:368-392 | no extracted fields score 0; otherwise the score is the summed weight of the extracted keys, always within [0, 1], so the cap never applies |
| Librarian.CleanExtractionIsRelevant | app/ai_systems/librarian.py:209-246 | a non-empty cleaned extraction always has positive relevance |
| Librarian.Completed | app/ai_systems/librarian.py:66-89 | a turn that goes through returns the merged profile with its completeness in [0, 100], the extracted keys, and a successful record holding the extraction, its relevance score and both messages cut to their first 500 characters |
| Librarian.TurnFails | app/ai_systems/librarian.py:61-102 | a turn raises exactly when the conversation id does not validate, the categories cannot be merged, or a nested value is present but not a dict |
| Librarian.ProcessConversationUpdateAsWritten | app/ai_systems/librarian.py:36-102 | as the code stands, a failing turn reports score 0, no record and no fields, but hands back the caller's profile already holding the partial merge; a turn that goes through is completed normally |
| Librarian.ProcessConversationUpdate | app/ai_systems/librarian.py:36-102 | a record is produced exactly when the turn does not raise; a failing turn hands back the given profile untouched with score 0; a turn that goes through returns the merged profile, its score, the extracted keys and a record with both messages cut to their first 500 characters and the extraction's relevance score |
| Librarian.ProcessAgreesUnlessPartial | app/ai_systems/librarian.py:91-102 | the code as written and the intended fallback agree on every turn that goes through and on every failing turn without a starting profile |
| Librarian.ProcessIdempotent | app/ai_systems/librarian.py:36-102 | processing the same reply again on the profile a successful turn produced returns the same result |
| Librarian.FallbackLeaksPartialMerge | app/ai_systems/librarian.py:91-102 | on a profile whose problem is "A" and a reply naming problem "B" with categories given as a string, the code as written hands back problem "B", while the intended fallback hands back the untouched profile |
| Librarian.LeakyTurn | app/ai_systems/librarian.py:61-102 | whenever the merge of an existing profile fails, the code as written hands back the partially merged profile and the intended fallback hands back the original |
| Text.Lower | app/ai_systems/language_detection.py:35 | lower-casing keeps the length and maps every character on its own |
| Text.LowerIdempotent | app/ai_systems/language_detection.py:35 | lower-casing twice is lower-casing once |
| Text.Strip | app/ai_systems/librarian.py:222-223 | the stripped text is a slice of the input that neither starts nor ends with whitespace, with only whitespace cut on either side, and is empty exactly when the input is all whitespace |
| Text.StripIdempotent | app/ai_systems/librarian.py:222-223 | stripping twice is stripping once |
| Text.SplitOn | app/search/company_search.py:294 | splitting on one character gives at least one piece, no piece holds the separator, and joining the pieces with it gives the input back |
| Text.SplitTrimmed | app/search/company_search.py:294 | every piece kept is non-empty and already stripped |
| Text.SplitWords | app/ai_systems/anti_spam.py:37 | every word is non-empty and holds no whitespace |
| Text.Title | app/search/company_search.py:327 | title case capitalises a character exactly when it does not follow a cased one, and makes every other character small |
| Text.TitleLower | app/search/company_search.py:327 | title case changes only the case of letters |
| Text.CountContained | app/ai_systems/language_detection.py:37-38 | the count of markers present is at most the number of markers and is positive exactly when one of them occurs |
| Seqs.FirstByKey | app/search/company_search.py:200-206 | de-duplication by key keeps one element for every key present, no two with the same key, and nothing that was not there |
| Seqs.FirstByKeyIdempotent | app/search/company_search.py:200-206 | de-duplicating twice is de-duplicating once |
| Seqs.KeepFirstByKey | app/search/company_search.py:201-206 | the seen-set loop computes exactly the first element of every key, in input order |
| Seqs.Distinct | app/search/company_search.py:302 | each element of the input appears exactly once and nothing else does |
| Seqs.DistinctAbsorbs | app/search/company_search.py:302 | re-adding elements that are already present leaves the de-duplicated list unchanged |
| Ranking.SortDesc | app/search/company_search.py:243-246 | the stable descending sort is a permutation of its input, sorted highest key first, and keeps the input order among elements with equal keys |
| Ranking.TopK | app/ai_systems/search_investors.py:320-324 | the n best elements (all of them when fewer) taken from the input without duplication, best first, nothing left out beats anything kept, and elements with equal keys keep their input order |
| Ranking.RankFiltered | app/ai_systems/search_companies.py:212-217 | exactly the n best of the elements passing the filter (all of them when fewer), taken from the input without duplication, best first, no passing element left out beats one kept, and elements with equal keys keep their input order |
| Json.Get | app/search/company_search.py:226 | a lookup finds a value exactly when the key is present, and the value found is one stored under that key |
| Json.Set | app/ai_systems/search_companies.py:210 | setting a key adds it to the keys, makes it hold the new value, and leaves every other key as it was |
| Json.SetList | app/ai_systems/librarian.py:267 | `list(set(xs))` on hashable values: every element comes from `xs`, the result covers the same classes of Python-equal values (`True == 1 == 1.0`, `False == 0 == 0.0`) with one element per class, and every element that is not a boolean or a number is kept |
| Json.SetListFirstOfClass | app/ai_systems/librarian.py:267 | the element kept for a class is its first occurrence: it appears no later than any other member of the class, as a set keeps the element inserted first |
| Seqs.FirstByKeyKeepsFirst | app/search/company_search.py:200-206 | every element de-duplication keeps is the first of its key in the input |
| Json.Iterate | app/search/investor_search.py:316 | extending a list by a value fails exactly for None, numbers and booleans; a list gives its items, a string one one-character string per character, and a dict its keys, in order |
| Wrappers.MapAll | app/search/company_search.py:220-240 | mapping succeeds exactly when every element succeeds, giving one output per input in order; otherwise the error is some element's error |
| Wrappers.FirstErr | app/ai_systems/search_companies.py:176-210 | the index found is the first whose step fails, and there is none exactly when every step succeeds |

## Left out

- Language-model calls (judge, librarian, both keyword extractors, the mentor) are not modelled. Their reply text is a parameter, because its content cannot be reasoned about.
- Database access is not modelled. Query results are input sequences of rows. The employee lookup of the investor search returns no rows in the source, so the model passes an empty list.
- Concurrency is not modelled:
  - `asyncio.gather` becomes two independent inputs.
  - The background clean-up loop of the rate limiter is modelled as one pruning pass.
  - Socket accept and close become inputs, since they are I/O.
- Framework wiring is not modelled: routers, the logging and auth middleware, the webhook HMAC check, configuration, logging, entry points and the testing app. They hold no decision logic, or depend on libraries outside this model.
- `judge_system.py` is covered only in part:
  - The prompt templates (`_create_judge_prompt`, `_get_spanish_prompt`, `_get_english_prompt`) are fixed text.
  - `ContextAnalyzer` and `DecisionEngine` are not part of this model. They are inputs.
  - The text inside each context block is rendered by a parameter. It is Python `str()`/f-string formatting of arbitrary values.
- Python's `str()` of a non-string value is also a parameter (`show`) in the fund-location line. Its exact text depends on Python's repr rules.
- `manager.py`: `disconnect_all`, `send_to_user`, `handle_message` and its two handlers, `send_search_progress`, `send_search_results`, `send_ai_response` and `get_connection_stats` are left out. They are thin wrappers over the modelled broadcast and disconnect, or logging.
- `chat_service.py`: `regenerate_response`, `stream_response`, `get_stats` and the processing-time helper are left out. They are placeholders, or timing and statistics only.
- Pydantic validation is not modelled:
  - `validate_assignment` re-validation when the merge writes into a record;
  - enum coercion of stage and language on assignment;
  - the result and response schemas that the anti-spam, language and upsell results and `ChatResponse` do not match;
  - the `JudgeDecision` schema (app/models/ai_systems.py:17-32), which the judge's decisions do not match: `_create_fallback_decision` (judge_system.py:374-388) passes `decision`, `confidence`, `probabilities`, `extracted_data` and `urgency_level`, none of which the schema declares, and omits its required `conversation_id`, `user_input`, `detected_intent` and `confidence_score`, so as written building the record raises and the fallback itself fails.
  The model keeps the values the code computes as plain datatypes.
- The judge call in `process_message` passes a `user_context` keyword that `analyze_user_intent` does not accept. The model leaves the judge's outcome as an input, `Err` or `Ok`. With the call as written, the outcome is always `Err`, so every non-spam message takes the error path.
- `JudgeProbabilities` and `ExtractedData`, imported at judge_system.py:13-16, are defined nowhere in app/models. The model reads them as plain records of the values passed to them.
- `log_ai_performance`, the decorator on `analyze_user_intent`, and `ai_decision_logger` are imported from app/core/logging.py (judge_system.py:12), which defines neither. The model assumes the decorator is the identity and the decision log has no effect on the result.
- A JSON object with duplicate keys is not modelled. The decoder is a parameter, and objects are association lists whose first entry wins a lookup.
- IEEE floating point is not modelled. Scores and weights are exact `real`s, so rounding in comparisons such as the 0.1 tolerance of the judge's probability sum is not captured.
- uuid and timestamp generation are left out. They are nondeterministic and appear only as identifiers.
- Librarian.WeighFields: models the per-field loop for fields of weight 10 only, because every weight in both loops of `_calculate_completeness` is 10.
- Text.Lower: maps only ASCII and Latin-1 capital letters. Python's full Unicode case mapping is not modelled.
- Seqs.Distinct and Json.SetList: keep first occurrences, one order that `list(set(...))` may produce. Python leaves that order unspecified, so no contract that uses them states anything about order. `Seqs.Distinct` compares structurally and is used only on strings, where that is Python's equality.
- InvestorEngine.AngelTags and Librarian.MergeCategories: state which elements and classes survive, not their order, because Python does not fix the order of `list(set(...))`. Numbers are reals, so the model does not tell the integer `1` from the float `1.0`, as Python's set does not either.
- CompanyEngine.CompanyKeywords and CompanyEngine.CompanyServices: state membership, no duplicates and the caps only, for the same reason.

## Findings

| source | as written | input that shows it | evidently intended | confidence | as-written member | corrected member |
|---|---|---|---|---|---|---|
| app/ai_systems/librarian.py:91-102 | the fallback returns the caller's `current_project_data`, but `_merge_project_data` has already mutated that same object in place before the exception | a profile with problem "A"; the reply extracts problem "B" and categories as the string "fintech"; the merge writes "B", then `list + str` raises | a failing turn hands back the profile unchanged, with completeness 0 | not executed | Librarian.ProcessConversationUpdateAsWritten, Librarian.FallbackLeaksPartialMerge | Librarian.ProcessConversationUpdate |

=== FILE: anti_spam.dfy ===
/** The anti-spam check (app/ai_systems/anti_spam.py): four indicators with
    fixed weights add up to a score; thirty or more is spam. */
module AntiSpam {
  import opened Text
  import opened BaseModels

  const RepeatedWeight: int := 20
  const LengthWeight: int := 15
  const NonsenseWeight: int := 25
  const OffTopicWeight: int := 10
  const SpamThreshold: int := 30
  const StrictThreshold: int := 50

  const BusinessKeywords: seq<string> := [
    "startup", "business", "investor", "funding", "company", "revenue",
    "empresa", "negocio", "inversor", "financiación", "ingresos"]

  datatype Indicators = Indicators(repeatedContent: bool, excessiveLength: bool, nonsensicalText: bool, offTopic: bool)

  datatype Tone = Normal | Warning | Strict

  datatype SpamResult = SpamResult(
    isSpam: bool, score: int, confidence: real, reason: string,
    indicators: Indicators, suggestedAction: string, tone: Tone)

  /** `s.count(c)`. */
  function CountChar(s: string, c: char): (n: nat)
    ensures n <= |s|
    ensures n == multiset(s)[c]
  {
    if |s| == 0 then 0
    else
      assert s == [s[0]] + s[1..];
      (if s[0] == c then 1 else 0) + CountChar(s[1..], c)
  }

  /** `len(set(words))`. */
  function DistinctCount(words: seq<string>): nat {
    |set i | 0 <= i < |words| :: words[i]|
  }

  /** The four indicators. The space ratio is only taken of a text with more
      than twenty words, which is therefore not empty. */
  function Detect(text: string): (ind: Indicators)
    ensures ind.repeatedContent <==> |text| > 100 && DistinctCount(SplitWords(Lower(text))) < 10
    ensures ind.excessiveLength <==> |text| > 2000
    ensures ind.nonsensicalText <==> |SplitWords(text)| > 20 && 10 * CountChar(text, ' ') < |text|
    ensures ind.offTopic <==> !AnyContained(Lower(text), BusinessKeywords) && |text| > 50
  {
    var words := SplitWords(text);
    RatioBelowTenth(CountChar(text, ' '), |text|);
    Indicators(
      |text| > 100 && DistinctCount(SplitWords(Lower(text))) < 10,
      |text| > 2000,
      |words| > 20 && |text| > 0 && (CountChar(text, ' ') as real) / (|text| as real) < 0.1,
      !AnyContained(Lower(text), BusinessKeywords) && |text| > 50)
  }

  /** The space ratio is under a tenth exactly when ten times the spaces fall short of the length. */
  lemma RatioBelowTenth(c: nat, n: nat)
    ensures n > 0 ==> ((c as real) / (n as real) < 0.1 <==> 10 * c < n)
  {
    if n > 0 {
      var N := n as real;
      var q := (c as real) / N;
      assert q * N == c as real;
      if q >= 0.1 {
        assert (q - 0.1) * N >= 0.0;
        assert q * N - 0.1 * N >= 0.0;
      } else {
        assert (0.1 - q) * N > 0.0;
        assert 0.1 * N - q * N > 0.0;
      }
    }
  }

  function Weight(on: bool, w: int): int {
    if on then w else 0
  }

  function Score(ind: Indicators): (s: int)
    ensures 0 <= s <= RepeatedWeight + LengthWeight + NonsenseWeight + OffTopicWeight
  {
    Weight(ind.repeatedContent, RepeatedWeight) + Weight(ind.excessiveLength, LengthWeight)
    + Weight(ind.nonsensicalText, NonsenseWeight) + Weight(ind.offTopic, OffTopicWeight)
  }

  /** `check_message`. */
  function CheckMessage(text: string): (r: SpamResult)
    ensures r.indicators == Detect(text) && r.score == Score(r.indicators)
    ensures 0 <= r.score <= 70
    ensures r.isSpam <==> r.score >= SpamThreshold
    ensures r.confidence == r.score as real / 100.0 && 0.0 <= r.confidence <= 0.7
    ensures !r.isSpam ==> r.tone == Normal && r.suggestedAction == "allow"
    ensures r.isSpam && r.score < StrictThreshold ==> r.tone == Warning && r.suggestedAction == "warn"
    ensures r.score >= StrictThreshold ==> r.tone == Strict && r.suggestedAction == "block"
  {
    var ind := Detect(text);
    var score := Score(ind);
    var confidence := if score as real / 100.0 < 1.0 then score as real / 100.0 else 1.0;
    if score >= SpamThreshold then
      SpamResult(true, score, confidence, "Contenido detectado como spam", ind,
                 if score < StrictThreshold then "warn" else "block",
                 if score < StrictThreshold then Warning else Strict)
    else
      SpamResult(false, score, confidence, "Contenido válido", ind, "allow", Normal)
  }

  /** No single indicator is enough: spam takes at least two. */
  lemma SpamNeedsTwoIndicators(text: string)
    requires CheckMessage(text).isSpam
    ensures var ind := CheckMessage(text).indicators;
      var n := (if ind.repeatedContent then 1 else 0) + (if ind.excessiveLength then 1 else 0)
             + (if ind.nonsensicalText then 1 else 0) + (if ind.offTopic then 1 else 0);
      n >= 2
  {
  }

  /** A message of at most fifty characters can only look nonsensical, which
      alone stays below the threshold. */
  lemma ShortMessagesPass(text: string)
    requires |text| <= 50
    ensures !CheckMessage(text).isSpam
  {
  }

  /** A message naming a business keyword is never off topic. */
  lemma BusinessIsOnTopic(text: string, i: nat)
    requires i < |BusinessKeywords| && Contains(Lower(text), BusinessKeywords[i])
    ensures !CheckMessage(text).indicators.offTopic
  {
  }

  const SpanishWarning: string := "Por favor, mantén tus mensajes relacionados con startups y emprendimiento. Estoy aquí para ayudarte con tu negocio."
  const SpanishRefusal: string := "No puedo ayudarte con ese tipo de contenido. Enfoquémonos en tu startup."
  const EnglishWarning: string := "Please keep your messages related to startups and entrepreneurship. I'm here to help you with your business."
  const EnglishRefusal: string := "I can't help you with that type of content. Let's focus on your startup."

  /** `generate_response`: Spanish or not, warning or not. */
  function SpamReply(result: SpamResult, language: Language): (r: string)
    ensures r in {SpanishWarning, SpanishRefusal, EnglishWarning, EnglishRefusal}
    ensures (r == SpanishWarning || r == SpanishRefusal) <==> language == Spanish
    ensures (r == SpanishWarning || r == EnglishWarning) <==> result.tone == Warning
  {
    if language == Spanish then
      if result.tone == Warning then SpanishWarning else SpanishRefusal
    else
      if result.tone == Warning then EnglishWarning else EnglishRefusal
  }

  /** The reply depends on the language and on the tone being a warning, nothing else. */
  lemma SpamReplyDependsOnToneAndLanguage(a: SpamResult, b: SpamResult, language: Language, other: Language)
    requires (a.tone == Warning) == (b.tone == Warning)
    requires (language == Spanish) == (other == Spanish)
    ensures SpamReply(a, language) == SpamReply(b, other)
  {
  }
}

=== FILE: base_models.dfy ===
/** The shared enumerations and the two validation helpers of the model layer
    (app/models/base.py). */
module BaseModels {
  import opened Wrappers
  import opened Text

  datatype PlanType = Free | Pro | Outreach
  datatype ProjectStage = Idea | Prototype | Mvp | EarlyRevenue | Growth | Scale
  datatype MessageRole = User | Assistant | System
  datatype Language = Spanish | English | OtherLanguage

  /** The string each enum member stands for (`use_enum_values`). */
  function PlanValue(p: PlanType): string {
    match p
    case Free => "free"
    case Pro => "pro"
    case Outreach => "outreach"
  }

  function StageValue(s: ProjectStage): string {
    match s
    case Idea => "idea"
    case Prototype => "prototype"
    case Mvp => "mvp"
    case EarlyRevenue => "early_revenue"
    case Growth => "growth"
    case Scale => "scale"
  }

  function LanguageValue(l: Language): string {
    match l
    case Spanish => "spanish"
    case English => "english"
    case OtherLanguage => "other"
  }

  /** `i` is the position of the last `@` of `s`. */
  predicate LastAt(s: string, i: int) {
    0 <= i < |s| && s[i] == '@' && forall j :: i < j < |s| ==> s[j] != '@'
  }

  /** Accepts an address with an `@` whose final domain part holds a dot, and
      returns it lower-cased; everything else is a `ValueError`. */
  function ValidateEmail(value: string): (r: Result<string>)
    ensures '@' !in value ==> r.Err?
    ensures forall i :: LastAt(value, i) ==> (r.Ok? <==> '.' in value[i + 1..])
    ensures r.Ok? ==> r.value == Lower(value)
    ensures r.Err? ==> r.message == "Invalid email format: " + value
  {
    var domain := LastPiece(value, '@');
    if '@' !in value || '.' !in domain then Err("Invalid email format: " + value)
    else
      var k := |value| - |domain| - 1;
      assert forall j :: k < j < |value| ==> value[j] == domain[j - k - 1];
      assert LastAt(value, k);
      assert value[k + 1..] == domain;
      Ok(Lower(value))
  }

  /** Lower-casing keeps the position of the last `@`. */
  lemma LowerKeepsLastAt(s: string, i: int)
    requires LastAt(s, i)
    ensures LastAt(Lower(s), i)
  {
  }

  /** An accepted address is accepted again, unchanged. */
  lemma ValidateEmailIdempotent(value: string)
    requires ValidateEmail(value).Ok?
    ensures ValidateEmail(ValidateEmail(value).value) == ValidateEmail(value)
  {
    var low := Lower(value);
    LowerIdempotent(value);
    var k :| 0 <= k < |value| && value[k] == '@';
    var last := LastAtOf(value, k);
    assert '.' in value[last + 1..];
    var d :| last + 1 <= d < |value| && value[d] == '.';
    LowerKeepsLastAt(value, last);
    assert low[d] == '.';
    assert low[d] in low[last + 1..];
    assert ValidateEmail(low).Ok?;
  }

  /** The position of the last `@` at or after position `k`. */
  function LastAtOf(s: string, k: nat): (i: nat)
    requires k < |s| && s[k] == '@'
    ensures LastAt(s, i)
    decreases |s| - k
  {
    if exists j :: k < j < |s| && s[j] == '@' then
      var j :| k < j < |s| && s[j] == '@';
      LastAtOf(s, j)
    else k
  }

  /** `Language(value.lower())`, with every unknown value mapped to OTHER. */
  function ValidateLanguage(value: string): (r: Language)
    ensures forall l :: LanguageValue(l) == Lower(value) ==> r == l
    ensures r != OtherLanguage ==> LanguageValue(r) == Lower(value)
  {
    match Lower(value)
    case "spanish" => Spanish
    case "english" => English
    case _ => OtherLanguage
  }

  /** Every language's own value validates to it, and validation ignores case. */
  lemma ValidateLanguageRoundTrip(l: Language, value: string)
    ensures ValidateLanguage(LanguageValue(l)) == l
    ensures ValidateLanguage(Lower(value)) == ValidateLanguage(value)
  {
    LowerIdempotent(value);
    LanguageValueIsLower(l);
  }

  lemma LanguageValueIsLower(l: Language)
    ensures Lower(LanguageValue(l)) == LanguageValue(l)
  {
    var v := LanguageValue(l);
    LowerFixed(v);
  }
}

=== FILE: chat_models.dfy ===
/** Message validation and the recent-message view of the chat models
    (app/models/chat.py). Identifiers are opaque strings. */
module ChatModels {
  import opened Wrappers
  import opened Text
  import opened BaseModels

  const MaxContentLength: nat := 10000

  /** Trims the content and rejects it when nothing is left or when what is
      left is longer than 10000 characters. */
  function ValidateMessageContent(content: string): (r: Result<string>)
    ensures r.Ok? <==> !AllSpace(content) && |Strip(content)| <= MaxContentLength
    ensures r.Ok? ==> r.value == Strip(content) && 1 <= |r.value| <= MaxContentLength
    ensures AllSpace(content) ==> r == Err("Message content cannot be empty")
    ensures !AllSpace(content) && |Strip(content)| > MaxContentLength ==> r == Err("Message content too long")
  {
    var stripped := Strip(content);
    if stripped == "" then Err("Message content cannot be empty")
    else if |stripped| > MaxContentLength then Err("Message content too long")
    else Ok(stripped)
  }

  /** Validated content has no surrounding whitespace, so validating it again
      returns it unchanged. */
  lemma ValidateMessageContentIdempotent(content: string)
    requires ValidateMessageContent(content).Ok?
    ensures ValidateMessageContent(ValidateMessageContent(content).value) == ValidateMessageContent(content)
  {
    StripIdempotent(content);
  }

  datatype ChatMessage = ChatMessage(
    conversationId: string,
    role: MessageRole,
    content: string,
    userId: Option<string>,
    projectId: Option<string>)

  /** Builds a message around the validated content; invalid content raises
      the validation error. */
  function CreateChatMessage(content: string, conversationId: string, role: MessageRole,
                             userId: Option<string>, projectId: Option<string>): (r: Result<ChatMessage>)
    ensures r.Ok? <==> ValidateMessageContent(content).Ok?
    ensures r.Err? ==> r.message == ValidateMessageContent(content).message
    ensures r.Ok? ==> (r.value.content == Strip(content)
                       && r.value.conversationId == conversationId && r.value.role == role
                       && r.value.userId == userId && r.value.projectId == projectId)
  {
    match ValidateMessageContent(content)
    case Err(e) => Err(e)
    case Ok(c) => Ok(ChatMessage(conversationId, role, c, userId, projectId))
  }

  const RecentWindow: nat := 10

  /** The `recent_messages` validator: the last ten messages when `messages`
      validated (`Some`), otherwise the value given for the field. */
  function RecentMessages<T>(messages: Option<seq<T>>, given: seq<T>): (r: seq<T>)
    ensures messages.None? ==> r == given
    ensures messages.Some? ==> |r| == (if |messages.value| < RecentWindow then |messages.value| else RecentWindow)
    ensures messages.Some? ==> r == messages.value[|messages.value| - |r|..]
  {
    match messages
    case None => given
    case Some(m) => TakeLast(m, RecentWindow)
  }

  /** The recent view slides: one more message pushes out the oldest of a full window. */
  lemma RecentMessagesSlide<T>(messages: seq<T>, m: T, given: seq<T>)
    ensures RecentMessages(Some(messages + [m]), given)
      == (if |messages| < RecentWindow then RecentMessages(Some(messages), given)
          else RecentMessages(Some(messages), given)[1..]) + [m]
  {
  }
}

=== FILE: chat_service.dfy ===
/** The chat pipeline (app/services/chat_service.py): detect the language,
    stop spam early, let the judge pick an action, run it, and attach an
    upsell message. The judge's outcome and the searches and replies an
    action produces are inputs. */
module ChatService {
  import opened Wrappers
  import opened Text
  import opened Seqs
  import opened BaseModels
  import Json
  import Judge
  import AntiSpam
  import LanguageDetection
  import Upselling

  // ---------------------------------------------------------------- service keywords

  const ServicePatterns: seq<string> := [
    "marketing", "publicidad", "seo", "sem", "social media",
    "desarrollo", "software", "app", "web", "programación",
    "diseño", "branding", "ui", "ux", "gráfico",
    "legal", "abogado", "asesoría", "compliance",
    "contabilidad", "finanzas", "accounting",
    "recursos humanos", "hr", "recruitment"]

  const DefaultServiceKeywords: seq<string> := ["business services", "consulting"]

  /** The patterns occurring in `text`, in pattern order. */
  function FoundIn(patterns: seq<string>, text: string): (r: seq<string>)
    ensures |r| <= |patterns|
    ensures forall k :: 0 <= k < |r| ==> r[k] in patterns && Contains(text, r[k])
    ensures forall i :: 0 <= i < |patterns| && Contains(text, patterns[i]) ==> patterns[i] in r
    ensures r == [] <==> forall i :: 0 <= i < |patterns| ==> !Contains(text, patterns[i])
  {
    if |patterns| == 0 then []
    else
      var front := patterns[..|patterns| - 1];
      var last := patterns[|patterns| - 1];
      var rest := FoundIn(front, text);
      assert forall i :: 0 <= i < |front| ==> front[i] == patterns[i];
      rest + (if Contains(text, last) then [last] else [])
  }

  /** Collecting the patterns one by one is filtering the pattern list. */
  lemma {:induction false} FoundInIsFilter(patterns: seq<string>, text: string)
    ensures FoundIn(patterns, text) == Filter(patterns, p => Contains(text, p))
  {
    if |patterns| > 0 {
      FoundInIsFilter(patterns[..|patterns| - 1], text);
      FilterSnoc(patterns, p => Contains(text, p));
    }
  }

  /** The matches, or `fallback` when there are none. */
  function Matching(patterns: seq<string>, fallback: seq<string>, text: string): (r: seq<string>)
    requires fallback != []
    ensures r != []
    ensures forall i :: 0 <= i < |patterns| && Contains(text, patterns[i]) ==> patterns[i] in r
    ensures r != fallback ==> forall k :: 0 <= k < |r| ==> r[k] in patterns && Contains(text, r[k])
    ensures (forall i :: 0 <= i < |patterns| ==> !Contains(text, patterns[i])) ==> r == fallback
  {
    var found := FoundIn(patterns, text);
    if found == [] then fallback else found
  }

  /** The loop of `_extract_service_keywords` over any pattern list. */
  method CollectMatching(patterns: seq<string>, fallback: seq<string>, text: string) returns (r: seq<string>)
    requires fallback != []
    ensures r == Matching(patterns, fallback, text)
  {
    r := [];
    var i := 0;
    while i < |patterns|
      invariant 0 <= i <= |patterns|
      invariant r == FoundIn(patterns[..i], text)
    {
      var pattern := patterns[i];
      PrefixSnoc(patterns, i);
      if Contains(text, pattern) {
        r := r + [pattern];
      }
      i := i + 1;
    }
    assert patterns[..i] == patterns;
    if r == [] {
      r := fallback;
    }
  }

  /** The service keywords of a message: the patterns found in its lower-cased text. */
  function ServiceKeywords(content: string): seq<string> {
    Matching(ServicePatterns, DefaultServiceKeywords, Lower(content))
  }

  /** `_extract_service_keywords`. */
  method ExtractServiceKeywords(content: string) returns (r: seq<string>)
    ensures r != []
    ensures forall i :: 0 <= i < |ServicePatterns| && Contains(Lower(content), ServicePatterns[i]) ==> ServicePatterns[i] in r
    ensures r != DefaultServiceKeywords ==> forall k :: 0 <= k < |r| ==> r[k] in ServicePatterns && Contains(Lower(content), r[k])
    ensures (forall i :: 0 <= i < |ServicePatterns| ==> !Contains(Lower(content), ServicePatterns[i])) ==> r == DefaultServiceKeywords
    ensures r == ServiceKeywords(content)
  {
    r := CollectMatching(ServicePatterns, DefaultServiceKeywords, Lower(content));
  }

  // ---------------------------------------------------------------- routing

  const InvestorLimit: nat := 15
  const CompanyLimit: nat := 10

  /** What `_execute_judge_decision` runs for a decision. */
  datatype Action =
    | SearchInvestors(keywords: seq<string>, stageKeywords: seq<string>, limit: nat)
    | SearchCompanies(serviceKeywords: seq<string>, limit: nat)
    | Welcome
    | Mentor(extracted: Option<Judge.Extracted>)

  /** The stage, as a one-element list, when one was extracted and is not empty. */
  function StageKeywords(extracted: Option<Judge.Extracted>): (r: seq<string>)
    ensures r != [] <==> extracted.Some? && extracted.value.stage.Some? && extracted.value.stage.value != ""
    ensures r != [] ==> r == [extracted.value.stage.value]
  {
    match extracted
    case Some(Extracted(_, Some(stage))) => if stage != "" then [stage] else []
    case _ => []
  }

  function Route(d: Judge.Decision, content: string): (a: Action)
    ensures d.decision == "search_investors" ==>
      a == SearchInvestors(if d.extracted.Some? then d.extracted.value.categories else [], StageKeywords(d.extracted), InvestorLimit)
    ensures d.decision == "search_companies" ==> a == SearchCompanies(ServiceKeywords(content), CompanyLimit)
    ensures d.decision == "welcome" ==> a == Welcome
    ensures d.decision == "mentor_response" ==> a == Mentor(d.extracted)
    ensures d.decision !in {"search_investors", "search_companies", "welcome", "mentor_response"} ==> a == Mentor(None)
  {
    if d.decision == "search_investors" then
      SearchInvestors(if d.extracted.Some? then d.extracted.value.categories else [], StageKeywords(d.extracted), InvestorLimit)
    else if d.decision == "search_companies" then SearchCompanies(ServiceKeywords(content), CompanyLimit)
    else if d.decision == "welcome" then Welcome
    else if d.decision == "mentor_response" then Mentor(d.extracted)
    else Mentor(None)
  }

  /** What running an action produced: its search results, if it searched,
      and the reply text. */
  datatype Produced = Produced(results: Json.Value, reply: string)

  datatype ResponseData = ResponseData(
    aiResponse: string, searchResults: Option<Json.Value>, searchType: Option<string>, messageType: Option<string>)

  /** `_execute_judge_decision`. `run` performs the action. */
  function ExecuteDecision(d: Judge.Decision, content: string, run: Action -> Result<Produced>): (r: Result<ResponseData>)
    ensures r.Err? <==> run(Route(d, content)).Err?
    ensures r.Ok? ==> r.value.aiResponse == run(Route(d, content)).value.reply
    ensures r.Ok? ==> (r.value.searchType == Some("investors") <==> d.decision == "search_investors")
    ensures r.Ok? ==> (r.value.searchType == Some("companies") <==> d.decision == "search_companies")
    ensures r.Ok? ==> (r.value.searchResults.Some? <==> r.value.searchType.Some?)
    ensures r.Ok? ==> (r.value.messageType == Some("welcome") <==> d.decision == "welcome")
    ensures r.Ok? ==> (r.value.messageType.None? <==> r.value.searchType.Some?)
    ensures r.Ok? ==>
      (r.value.messageType == Some("mentor") <==> d.decision !in {"search_investors", "search_companies", "welcome"})
  {
    var action := Route(d, content);
    match run(action)
    case Err(e) => Err(e)
    case Ok(p) =>
      Ok(match action
         case SearchInvestors(_, _, _) => ResponseData(p.reply, Some(p.results), Some("investors"), None)
         case SearchCompanies(_, _) => ResponseData(p.reply, Some(p.results), Some("companies"), None)
         case Welcome => ResponseData(p.reply, None, None, Some("welcome"))
         case Mentor(_) => ResponseData(p.reply, None, None, Some("mentor")))
  }

  /** A decision outside the four named ones is answered by the mentor. */
  lemma UnknownDecisionGetsMentor(d: Judge.Decision, content: string, run: Action -> Result<Produced>)
    requires d.decision !in {"search_investors", "search_companies", "welcome", "mentor_response"}
    requires run(Route(d, content)).Ok?
    ensures ExecuteDecision(d, content, run).value.messageType == Some("mentor")
    ensures Route(d, content) == Mentor(None)
  {
  }

  // ---------------------------------------------------------------- upsell

  /** `_check_upselling`: the offer's message when there is an offer. The
      judge's decision record always has an `extracted_data` attribute. */
  function CheckUpselling(plan: Option<string>, d: Judge.Decision, language: Language): (r: Option<string>)
    ensures r.Some? <==> Upselling.AnalyzeOpportunity(plan, d.decision, true, language).shouldUpsell
    ensures r.Some? ==> plan.Some? && plan.value in {"free", "pro"} && d.decision == "search_investors"
  {
    var opportunity := Upselling.AnalyzeOpportunity(plan, d.decision, true, language);
    Upselling.UpsellShape(plan, d.decision, true, language);
    if opportunity.shouldUpsell then opportunity.message else None
  }

  // ---------------------------------------------------------------- pipeline

  datatype ChatResponse = ChatResponse(
    success: bool, message: string, aiResponse: Option<string>,
    data: Option<ResponseData>, upsellMessage: Option<string>)

  const FailureReply: string := "Lo siento, hubo un error procesando tu mensaje. Por favor intenta de nuevo."

  const Failed: ChatResponse := ChatResponse(false, "Failed to process message", Some(FailureReply), None, None)

  /** `process_message`. `judge` is the judge's outcome for the message,
      `Err` when calling it raises; `plan` is the user's plan as in
      `AnalyzeOpportunity`, `None` when there is no user context. The first
      log line reads the context's user id, so a missing context raises before
      anything else and ends in the failure response. */
  function ProcessMessage(content: string, plan: Option<string>, judge: Result<Judge.Decision>, run: Action -> Result<Produced>): (r: ChatResponse)
    ensures plan.None? ==> r == Failed
    ensures plan.Some? && AntiSpam.CheckMessage(content).isSpam ==>
      r.success && r.data.None? && r.upsellMessage.None?
      && r.aiResponse == Some(AntiSpam.SpamReply(AntiSpam.CheckMessage(content), LanguageDetection.DetectLanguage(content).responseLanguage))
    ensures plan.Some? && !AntiSpam.CheckMessage(content).isSpam && judge.Err? ==> r == Failed
    ensures plan.Some? && !AntiSpam.CheckMessage(content).isSpam && judge.Ok? ==>
      (r.success <==> ExecuteDecision(judge.value, content, run).Ok?)
    ensures plan.Some? && !AntiSpam.CheckMessage(content).isSpam && judge.Ok? && ExecuteDecision(judge.value, content, run).Ok? ==>
      var data := ExecuteDecision(judge.value, content, run).value;
      r.data == Some(data) && r.aiResponse == Some(data.aiResponse)
      && r.upsellMessage == CheckUpselling(plan, judge.value, LanguageDetection.DetectLanguage(content).responseLanguage)
    ensures !r.success ==> r == Failed
    ensures r.success && r.data.Some? ==> r.aiResponse == Some(r.data.value.aiResponse)
  {
    if plan.None? then Failed
    else
      var language := LanguageDetection.DetectLanguage(content);
      var spam := AntiSpam.CheckMessage(content);
      if spam.isSpam then
        ChatResponse(true, "Anti-spam response generated", Some(AntiSpam.SpamReply(spam, language.responseLanguage)), None, None)
      else
        match judge
        case Err(_) => Failed
        case Ok(d) =>
          match ExecuteDecision(d, content, run)
          case Err(_) => Failed
          case Ok(data) =>
            ChatResponse(true, "Message processed successfully", Some(data.aiResponse), Some(data),
                         CheckUpselling(plan, d, language.responseLanguage))
  }

  /** Spam never reaches the judge: the response is the same whatever the
      judge and the actions would have done. */
  lemma SpamSkipsJudge(content: string, plan: Option<string>, j1: Result<Judge.Decision>, j2: Result<Judge.Decision>,
                       run1: Action -> Result<Produced>, run2: Action -> Result<Produced>)
    requires AntiSpam.CheckMessage(content).isSpam
    ensures ProcessMessage(content, plan, j1, run1) == ProcessMessage(content, plan, j2, run2)
  {
  }
}

=== FILE: company_engine.dfy ===
/** The service-company search engine (app/search/company_search.py): the
    input check, keyword expansion by service type, the service-match score,
    the keyword and service lists drawn from a company's text columns, and the
    ranking by (relevance, service match). The table query is an input: the
    rows it returned. */
module CompanyEngine {
  import opened Wrappers
  import opened Text
  import opened Json
  import opened Seqs
  import opened Ranking
  import opened Numbers

  // ---------------------------------------------------------------- keywords

  /** The related terms added for each known service type. */
  const ServiceExpansions: map<string, seq<string>> := map[
    "marketing" := ["digital marketing", "seo", "sem", "social media", "content marketing"],
    "legal" := ["legal services", "abogados", "asesoría legal", "compliance"],
    "technology" := ["desarrollo", "software", "app development", "tech"],
    "design" := ["diseño", "ui/ux", "branding", "graphic design"],
    "consulting" := ["consultoría", "strategy", "business consulting"],
    "finance" := ["contabilidad", "accounting", "financial services"],
    "hr" := ["recursos humanos", "human resources", "recruitment"]
  ]

  /** The expansion a service type selects, looked up in small letters; no
      type, the empty type and an unknown type add nothing. */
  function Expansion(serviceType: Option<string>): (r: seq<string>)
    ensures serviceType.None? ==> r == []
    ensures serviceType.Some? && Lower(serviceType.value) in ServiceExpansions ==> r == ServiceExpansions[Lower(serviceType.value)]
    ensures serviceType.Some? && Lower(serviceType.value) !in ServiceExpansions ==> r == []
  {
    if serviceType.Some? && serviceType.value != "" && Lower(serviceType.value) in ServiceExpansions then
      ServiceExpansions[Lower(serviceType.value)]
    else []
  }

  /** `_enhance_keywords`: the requested keywords, then the expansion, each
      spelling kept only the first time its small-letter form appears. */
  function Enhance(keywords: seq<string>, serviceType: Option<string>): (r: seq<string>)
    ensures KeySet(r, Lower) == KeySet(keywords, Lower) + KeySet(Expansion(serviceType), Lower)
    ensures DistinctKeys(r, Lower)
    ensures FirstByKey(keywords, Lower) <= r
    ensures forall i :: 0 <= i < |r| ==> r[i] in keywords || r[i] in Expansion(serviceType)
    ensures r == FirstByKey(keywords + Expansion(serviceType), Lower)
  {
    var all := keywords + Expansion(serviceType);
    KeySetAppend(keywords, Expansion(serviceType), Lower);
    FirstByKeyPrefix(keywords, Expansion(serviceType), Lower);
    FirstByKey(all, Lower)
  }

  /** Keywords that are already distinct ignoring case come first, unchanged. */
  lemma EnhanceKeepsInputs(keywords: seq<string>, serviceType: Option<string>)
    requires DistinctKeys(keywords, Lower)
    ensures keywords <= Enhance(keywords, serviceType)
  {
    FirstByKeyOfDistinct(keywords, Lower);
  }

  /** The service type is matched without regard to case. */
  lemma EnhanceIgnoresTypeCase(keywords: seq<string>, t: string)
    ensures Enhance(keywords, Some(t)) == Enhance(keywords, Some(Lower(t)))
  {
    LowerIdempotent(t);
  }

  /** Enhancing an enhanced list with the same type adds nothing. */
  lemma EnhanceIdempotent(keywords: seq<string>, serviceType: Option<string>)
    ensures Enhance(Enhance(keywords, serviceType), serviceType) == Enhance(keywords, serviceType)
  {
    var e := Enhance(keywords, serviceType);
    var x := Expansion(serviceType);
    KeySetAppend(e, x, Lower);
    FirstByKeyAppendCovered(e, x, Lower);
    FirstByKeyOfDistinct(e, Lower);
  }

  // ---------------------------------------------------------------- service match

  /** `company.get(key, "")` followed by `.lower()`: a missing column is
      empty; a column holding anything but a string raises. */
  function LowerField(row: Fields, key: string): (r: Result<string>)
    ensures r.Ok? <==> Get(row, key).None? || Get(row, key).value.Str?
    ensures Get(row, key).None? ==> r == Ok("")
    ensures r.Ok? && Get(row, key).Some? ==> r.value == Lower(Get(row, key).value.s)
  {
    match Get(row, key).GetOr(Str(""))
    case Str(s) => Ok(Lower(s))
    case _ => Err("AttributeError: object has no attribute 'lower'")
  }

  /** What one requested keyword earns: 3 in the specific keywords, else 2 in
      the general keywords, else 1 in the sector, else nothing. */
  function KeywordWeight(keyword: string, specific: string, general: string, sector: string): (w: real)
    ensures w == 3.0 <==> Contains(specific, Lower(keyword))
    ensures w == 2.0 <==> !Contains(specific, Lower(keyword)) && Contains(general, Lower(keyword))
    ensures w == 1.0 <==> !Contains(specific, Lower(keyword)) && !Contains(general, Lower(keyword)) && Contains(sector, Lower(keyword))
    ensures w == 0.0 <==> !Contains(specific, Lower(keyword)) && !Contains(general, Lower(keyword)) && !Contains(sector, Lower(keyword))
    ensures 0.0 <= w <= 3.0
  {
    var k := Lower(keyword);
    if Contains(specific, k) then 3.0
    else if Contains(general, k) then 2.0
    else if Contains(sector, k) then 1.0
    else 0.0
  }

  /** The summed weights of all requested keywords. */
  function MatchSum(keywords: seq<string>, specific: string, general: string, sector: string): (r: real)
    ensures r == Sum(Map(keywords, Weigher(specific, general, sector)))
    ensures 0.0 <= r <= 3.0 * |keywords| as real
    ensures r == 3.0 * |keywords| as real <==> forall i :: 0 <= i < |keywords| ==> Contains(specific, Lower(keywords[i]))
    ensures r == 0.0 <==> forall i :: 0 <= i < |keywords| ==> KeywordWeight(keywords[i], specific, general, sector) == 0.0
  {
    WeightSum(keywords, Weigher(specific, general, sector))
  }

  function Weigher(specific: string, general: string, sector: string): string -> real {
    keyword => KeywordWeight(keyword, specific, general, sector)
  }

  /** The sum of `weight` over the keywords, each weight in [0, 3]: it is
      the most possible exactly when every weight is 3, and 0 exactly when
      every weight is. */
  function WeightSum(keywords: seq<string>, weight: string -> real): (r: real)
    requires forall i :: 0 <= i < |keywords| ==> 0.0 <= weight(keywords[i]) <= 3.0
    ensures r == Sum(Map(keywords, weight))
    ensures 0.0 <= r <= 3.0 * |keywords| as real
    ensures r == 3.0 * |keywords| as real <==> forall i :: 0 <= i < |keywords| ==> weight(keywords[i]) == 3.0
    ensures r == 0.0 <==> forall i :: 0 <= i < |keywords| ==> weight(keywords[i]) == 0.0
  {
    if |keywords| == 0 then 0.0
    else
      var rest := WeightSum(keywords[1..], weight);
      assert forall i :: 1 <= i < |keywords| ==> keywords[1..][i - 1] == keywords[i];
      assert 3.0 * |keywords| as real == 3.0 + 3.0 * |keywords[1..]| as real;
      WeightSumStep(keywords, weight, rest);
      weight(keywords[0]) + rest
  }

  lemma WeightSumStep(keywords: seq<string>, weight: string -> real, rest: real)
    requires |keywords| > 0 && rest == Sum(Map(keywords[1..], weight))
    ensures weight(keywords[0]) + rest == Sum(Map(keywords, weight))
  {
    MapCons(keywords, weight);
    SumCons(weight(keywords[0]), Map(keywords[1..], weight));
  }

  /** `p` is `sum` as a percentage of `3 * n`, the most `n` keywords can earn. */
  predicate PercentOfMost(p: real, sum: real, n: nat) {
    p * (3.0 * n as real) == 100.0 * sum
  }

  /** `min(sum / (3 * n) * 100, 100)` for a sum that is at most `3 * n`. */
  function MatchPercent(sum: real, n: nat): (r: real)
    requires n > 0 && 0.0 <= sum <= 3.0 * n as real
    ensures PercentOfMost(r, sum, n)
    ensures 0.0 <= r <= 100.0
    ensures r == 100.0 <==> sum == 3.0 * n as real
    ensures r == 0.0 <==> sum == 0.0
  {
    var total := 3.0 * n as real;
    var share := sum / total;
    assert 0.0 <= share <= 1.0 by {
      assert share * total == sum;
    }
    assert share == 1.0 <==> sum == total by {
      assert share * total == sum;
    }
    var score := share * 100.0;
    assert score * total == 100.0 * sum by {
      assert share * total == sum;
    }
    if score < 100.0 then score else 100.0
  }

  /** `_calculate_service_match`: the share of the best possible weight, as a
      percentage; no keywords score 0. The three columns are read first, so a
      non-string column raises even then. */
  function ServiceMatch(row: Fields, keywords: seq<string>): (r: Result<real>)
    ensures r.Ok? <==> LowerField(row, "keywords_generales").Ok? && LowerField(row, "keywords_especificas").Ok?
                       && LowerField(row, "sector_categorias").Ok?
    ensures r.Ok? ==> 0.0 <= r.value <= 100.0
    ensures r.Ok? && keywords == [] ==> r.value == 0.0
    ensures r.Ok? && keywords != [] ==>
      var specific, general, sector := LowerField(row, "keywords_especificas").value,
        LowerField(row, "keywords_generales").value, LowerField(row, "sector_categorias").value;
      PercentOfMost(r.value, MatchSum(keywords, specific, general, sector), |keywords|)
    ensures r.Ok? && keywords != [] ==>
      var specific := LowerField(row, "keywords_especificas").value;
      (r.value == 100.0 <==> forall i :: 0 <= i < |keywords| ==> Contains(specific, Lower(keywords[i])))
    ensures r.Ok? && keywords != [] ==>
      var specific, general, sector := LowerField(row, "keywords_especificas").value,
        LowerField(row, "keywords_generales").value, LowerField(row, "sector_categorias").value;
      (r.value == 0.0 <==> forall i :: 0 <= i < |keywords| ==> KeywordWeight(keywords[i], specific, general, sector) == 0.0)
  {
    var general := LowerField(row, "keywords_generales");
    var specific := LowerField(row, "keywords_especificas");
    var sector := LowerField(row, "sector_categorias");
    if general.Err? then Err(general.message)
    else if specific.Err? then Err(specific.message)
    else if sector.Err? then Err(sector.message)
    else if |keywords| == 0 then Ok(0.0)
    else
      var sum := MatchSum(keywords, specific.value, general.value, sector.value);
      var percent := MatchPercent(sum, |keywords|);
      Ok(percent)
  }

  /** Matching is blind to the case of the requested keywords. */
  lemma ServiceMatchIgnoresKeywordCase(row: Fields, keywords: seq<string>)
    ensures ServiceMatch(row, keywords) == ServiceMatch(row, seq(|keywords|, i requires 0 <= i < |keywords| => Lower(keywords[i])))
  {
    var lowered := seq(|keywords|, i requires 0 <= i < |keywords| => Lower(keywords[i]));
    var specific := LowerField(row, "keywords_especificas");
    var general := LowerField(row, "keywords_generales");
    var sector := LowerField(row, "sector_categorias");
    if specific.Ok? && general.Ok? && sector.Ok? {
      forall i | 0 <= i < |keywords| ensures Lower(lowered[i]) == Lower(keywords[i]) {
        LowerIdempotent(keywords[i]);
      }
      MatchSumLowered(keywords, lowered, specific.value, general.value, sector.value);
    }
  }

  lemma MatchSumLowered(keywords: seq<string>, lowered: seq<string>, specific: string, general: string, sector: string)
    requires |lowered| == |keywords|
    requires forall i :: 0 <= i < |keywords| ==> Lower(lowered[i]) == Lower(keywords[i])
    ensures MatchSum(lowered, specific, general, sector) == MatchSum(keywords, specific, general, sector)
  {
    var weight := Weigher(specific, general, sector);
    WeightSumPointwise(keywords, lowered, weight);
  }

  /** Two keyword lists weighed alike, position by position, sum alike. */
  lemma {:induction false} WeightSumPointwise(xs: seq<string>, ys: seq<string>, weight: string -> real)
    requires |xs| == |ys|
    requires forall i :: 0 <= i < |xs| ==> 0.0 <= weight(xs[i]) <= 3.0 && weight(ys[i]) == weight(xs[i])
    ensures WeightSum(xs, weight) == WeightSum(ys, weight)
    decreases |xs|
  {
    if |xs| > 0 {
      WeightSumPointwise(xs[1..], ys[1..], weight);
    }
  }

  // ---------------------------------------------------------------- keyword and service lists

  /** `x = company.get(key, ""); if x: [k.strip() for k in x.split(",") if
      k.strip()]`: an empty or missing column gives nothing, a string column
      its trimmed non-empty pieces; any other truthy value raises. */
  function CommaField(row: Fields, key: string): (r: Result<seq<string>>)
    ensures r.Err? <==> Truthy(Get(row, key).GetOr(Str(""))) && !Get(row, key).GetOr(Str("")).Str?
    ensures !Truthy(Get(row, key).GetOr(Str(""))) ==> r == Ok([])
    ensures r.Ok? && Get(row, key).Some? && Get(row, key).value.Str? ==> r.value == SplitTrimmed(Get(row, key).value.s, ',')
    ensures r.Ok? ==> forall i :: 0 <= i < |r.value| ==> r.value[i] != "" && Strip(r.value[i]) == r.value[i]
  {
    var v := Get(row, key).GetOr(Str(""));
    if !Truthy(v) then Ok([])
    else if v.Str? then Ok(SplitTrimmed(v.s, ','))
    else Err("AttributeError: object has no attribute 'split'")
  }

  const MaxCompanyKeywords: nat := 20
  const MaxServices: nat := 10

  /** `_extract_company_keywords`: the distinct pieces of the general and the
      specific keyword columns, at most twenty of them. */
  function CompanyKeywords(row: Fields): (r: Result<seq<string>>)
    ensures r.Ok? <==> CommaField(row, "keywords_generales").Ok? && CommaField(row, "keywords_especificas").Ok?
    ensures r.Ok? ==> |r.value| <= MaxCompanyKeywords
    ensures r.Ok? ==> forall i, j :: 0 <= i < j < |r.value| ==> r.value[i] != r.value[j]
    ensures r.Ok? ==> forall x :: x in r.value ==> x in CommaField(row, "keywords_generales").value || x in CommaField(row, "keywords_especificas").value
    ensures r.Ok? ==> var all := CommaField(row, "keywords_generales").value + CommaField(row, "keywords_especificas").value;
      |Distinct(all)| <= MaxCompanyKeywords ==> forall x :: x in all ==> x in r.value
  {
    var general := CommaField(row, "keywords_generales");
    var specific := CommaField(row, "keywords_especificas");
    if general.Err? then Err(general.message)
    else if specific.Err? then Err(specific.message)
    else
      var d := Distinct(general.value + specific.value);
      Ok(Take(d, MaxCompanyKeywords))
  }

  /** The service names looked for in the specific keywords. */
  const ServicePatterns: seq<string> :=
    ["marketing", "desarrollo", "diseño", "consulting", "legal", "contabilidad", "seo", "sem", "social media", "branding"]

  /** The title-cased patterns that occur in `text`, in pattern order. */
  function PatternsIn(text: string, patterns: seq<string>): (r: seq<string>)
    ensures |r| <= |patterns|
    ensures forall x :: x in r <==> exists i :: 0 <= i < |patterns| && Contains(text, patterns[i]) && x == Title(patterns[i])
  {
    if |patterns| == 0 then []
    else
      var rest := PatternsIn(text, patterns[1..]);
      assert forall i :: 1 <= i < |patterns| ==> patterns[1..][i - 1] == patterns[i];
      forall x | x in rest ensures exists i :: 0 <= i < |patterns| && Contains(text, patterns[i]) && x == Title(patterns[i]) {
        var i :| 0 <= i < |patterns[1..]| && Contains(text, patterns[1..][i]) && x == Title(patterns[1..][i]);
        assert patterns[1..][i] == patterns[i + 1];
      }
      (if Contains(text, patterns[0]) then [Title(patterns[0])] else []) + rest
  }

  /** The services a company's specific keywords name, or an error when that
      column holds something other than text. */
  function NamedServices(row: Fields): (r: Result<seq<string>>)
    ensures r.Err? <==> Truthy(Get(row, "keywords_especificas").GetOr(Str(""))) && !Get(row, "keywords_especificas").GetOr(Str("")).Str?
    ensures r.Ok? ==> forall x :: x in r.value ==> exists i :: 0 <= i < |ServicePatterns| && x == Title(ServicePatterns[i])
    ensures r.Ok? && !Get(row, "keywords_especificas").GetOr(Str("")).Str? ==> r.value == []
    ensures r.Ok? && Get(row, "keywords_especificas").GetOr(Str("")).Str? ==>
      var text := Lower(Get(row, "keywords_especificas").GetOr(Str("")).s);
      forall x :: x in r.value <==> exists i :: 0 <= i < |ServicePatterns| && Contains(text, ServicePatterns[i]) && x == Title(ServicePatterns[i])
  {
    var v := Get(row, "keywords_especificas").GetOr(Str(""));
    if !Truthy(v) then Ok([])
    else if v.Str? then Ok(PatternsIn(Lower(v.s), ServicePatterns))
    else Err("AttributeError: object has no attribute 'lower'")
  }

  /** `_extract_services`: the sector pieces and the named services, distinct,
      at most ten. */
  function CompanyServices(row: Fields): (r: Result<seq<string>>)
    ensures r.Ok? <==> CommaField(row, "sector_categorias").Ok? && NamedServices(row).Ok?
    ensures r.Ok? ==> |r.value| <= MaxServices
    ensures r.Ok? ==> forall i, j :: 0 <= i < j < |r.value| ==> r.value[i] != r.value[j]
    ensures r.Ok? ==> forall x :: x in r.value ==> x in CommaField(row, "sector_categorias").value || x in NamedServices(row).value
    ensures r.Ok? ==> var all := CommaField(row, "sector_categorias").value + NamedServices(row).value;
      |Distinct(all)| <= MaxServices ==> forall x :: x in all ==> x in r.value
  {
    var sector := CommaField(row, "sector_categorias");
    var named := NamedServices(row);
    if sector.Err? then Err(sector.message)
    else if named.Err? then Err(named.message)
    else Ok(Take(Distinct(sector.value + named.value), MaxServices))
  }

  // ---------------------------------------------------------------- results

  /** A company row as the query returns it, with its relevance column
      (`None` when absent, which counts as 0). */
  datatype CompanyRow = CompanyRow(fields: Fields, relevance: Option<real>)

  /** The standard result record built from one row. */
  datatype CompanyResult = CompanyResult(
    row: CompanyRow,
    displayName: Value,
    linkedinUrl: Value,
    website: Value,
    contactEmail: Value,
    phone: Value,
    location: Value,
    description: Value,
    sector: Value,
    relevance: real,
    serviceMatch: real,
    keywords: seq<string>,
    services: seq<string>)

  function ResultKey(c: CompanyResult): Key {
    Key(c.relevance, c.serviceMatch)
  }

  /** One row as a result record; its match score and lists can raise. */
  function ProcessCompany(c: CompanyRow, keywords: seq<string>): (r: Result<CompanyResult>)
    ensures r.Ok? <==> ServiceMatch(c.fields, keywords).Ok? && CompanyKeywords(c.fields).Ok? && CompanyServices(c.fields).Ok?
    ensures r.Ok? ==> && r.value.row == c
                      && r.value.serviceMatch == ServiceMatch(c.fields, keywords).value
                      && r.value.relevance == c.relevance.GetOr(0.0)
                      && r.value.displayName == Get(c.fields, "nombre").GetOr(Str("Unknown Company"))
                      && r.value.location == Get(c.fields, "ubicacion_general").GetOr(Str("Unknown"))
  {
    var f := c.fields;
    var m := ServiceMatch(f, keywords);
    var k := CompanyKeywords(f);
    var s := CompanyServices(f);
    if m.Err? then Err(m.message)
    else if k.Err? then Err(k.message)
    else if s.Err? then Err(s.message)
    else Ok(CompanyResult(c, Get(f, "nombre").GetOr(Str("Unknown Company")), Get(f, "linkedin").GetOr(Null),
                          Get(f, "web_empresa").GetOr(Null), Get(f, "correo").GetOr(Null), Get(f, "telefono").GetOr(Null),
                          Get(f, "ubicacion_general").GetOr(Str("Unknown")), Get(f, "descripcion_corta").GetOr(Str("")),
                          Get(f, "sector_categorias").GetOr(Str("")), c.relevance.GetOr(0.0), m.value, k.value, s.value))
  }

  /** Every row as a result record, in row order, or the first error. */
  function ProcessAll(companies: seq<CompanyRow>, keywords: seq<string>): (r: Result<seq<CompanyResult>>)
    ensures r.Ok? <==> forall i :: 0 <= i < |companies| ==> ProcessCompany(companies[i], keywords).Ok?
    ensures r.Ok? ==> |r.value| == |companies|
    ensures r.Ok? ==> forall i :: 0 <= i < |companies| ==> r.value[i] == ProcessCompany(companies[i], keywords).value
  {
    MapAll(companies, c => ProcessCompany(c, keywords))
  }

  /** `_process_search_results`: every row kept, ordered by relevance and then
      service match, highest first, ties in row order. */
  function ProcessSearchResults(companies: seq<CompanyRow>, keywords: seq<string>): (r: Result<seq<CompanyResult>>)
    ensures r.Ok? <==> ProcessAll(companies, keywords).Ok?
    ensures r.Ok? ==> |r.value| == |companies|
    ensures r.Ok? ==> multiset(r.value) == multiset(ProcessAll(companies, keywords).value)
    ensures r.Ok? ==> SortedDesc(r.value, ResultKey)
    ensures r.Ok? ==> forall k :: WithKey(r.value, ResultKey, k) == WithKey(ProcessAll(companies, keywords).value, ResultKey, k)
  {
    match ProcessAll(companies, keywords)
    case Err(e) => Err(e)
    case Ok(all) => Ok(SortDesc(all, ResultKey))
  }

  /** Every processed record carries the match score of its own row against
      the requested keywords. */
  lemma ProcessedMatchesOwnRow(companies: seq<CompanyRow>, keywords: seq<string>, x: CompanyResult)
    ensures ProcessSearchResults(companies, keywords).Ok? && x in ProcessSearchResults(companies, keywords).value ==>
      x.row in companies && ServiceMatch(x.row.fields, keywords) == Ok(x.serviceMatch)
  {
    if ProcessSearchResults(companies, keywords).Ok? && x in ProcessSearchResults(companies, keywords).value {
      var all := ProcessAll(companies, keywords).value;
      PermutationMember(ProcessSearchResults(companies, keywords).value, all, x);
      ProcessedRowMatches(companies, keywords, x);
    }
  }

  /** The same, for the records before ranking. */
  lemma ProcessedRowMatches(companies: seq<CompanyRow>, keywords: seq<string>, x: CompanyResult)
    ensures ProcessAll(companies, keywords).Ok? && x in ProcessAll(companies, keywords).value ==>
      x.row in companies && ServiceMatch(x.row.fields, keywords) == Ok(x.serviceMatch)
  {
    if ProcessAll(companies, keywords).Ok? && x in ProcessAll(companies, keywords).value {
      var all := ProcessAll(companies, keywords).value;
      var i :| 0 <= i < |all| && all[i] == x;
      assert ProcessCompany(companies[i], keywords).Ok?;
    }
  }

  // ---------------------------------------------------------------- the search

  /** The engine's answer, without ids and timestamps. */
  datatype CompanySearch = CompanySearch(
    results: seq<CompanyResult>,
    companiesFound: nat,
    keywordsUsed: seq<string>)

  /** `search_companies` of the engine: refuses an empty keyword list; the
      query gets the enhanced keywords, the match score the requested ones;
      the first `limit` ranked records are kept. */
  function SearchCompanies(keywords: seq<string>, serviceType: Option<string>, limit: int,
                           companies: seq<CompanyRow>): (r: Result<CompanySearch>)
    ensures keywords == [] ==> r == Err("Service keywords are required for company search")
    ensures keywords != [] ==> (r.Ok? <==> ProcessSearchResults(companies, keywords).Ok?)
    ensures r.Ok? ==>
      && r.value.keywordsUsed == Enhance(keywords, serviceType)
      && r.value.companiesFound == |companies|
      && r.value.results == SliceTo(ProcessSearchResults(companies, keywords).value, limit)
      && (limit >= 0 ==> |r.value.results| <= limit)
      && SortedDesc(r.value.results, ResultKey)
  {
    if keywords == [] then Err("Service keywords are required for company search")
    else
      match ProcessSearchResults(companies, keywords)
      case Err(e) => Err(e)
      case Ok(all) =>
        var results := SliceTo(all, limit);
        assert SortedDesc(results, ResultKey) by {
          assert results == all[..|results|];
        }
        Ok(CompanySearch(results, |companies|, Enhance(keywords, serviceType)))
  }
}

=== FILE: company_ranking.dfy ===
/** The conversational company search (app/ai_systems/search_companies.py):
    the keyword list made from the language model's reply, the records built
    from the table rows, and the weighted ranking of those records. The reply
    and the table rows are inputs. */
module CompanyRanking {
  import opened Wrappers
  import opened Text
  import opened Json
  import opened Seqs
  import opened Ranking
  import opened Numbers

  // ---------------------------------------------------------------- keywords

  const MaxSearchKeywords: nat := 30

  /** Used when the extraction raises. */
  const FallbackKeywords: seq<string> := ["servicios", "services", "consultoría", "consulting", "desarrollo", "development"]

  /** Keywords shorter than three characters are dropped. */
  predicate LongEnough(kw: string) {
    |kw| > 2
  }

  /** `_extract_search_keywords` after the model call: the trimmed non-empty
      comma pieces of the reply, long enough, distinct ignoring case, at most
      thirty; the fixed list when the extraction raised. */
  method ExtractSearchKeywords(reply: Result<string>) returns (r: seq<string>)
    ensures reply.Err? ==> r == FallbackKeywords
    ensures reply.Ok? ==> r == Take(FirstByKey(Filter(SplitTrimmed(reply.value, ','), LongEnough), Lower), MaxSearchKeywords)
    ensures reply.Ok? ==> |r| <= MaxSearchKeywords && DistinctKeys(r, Lower)
    ensures reply.Ok? ==> forall i :: 0 <= i < |r| ==> LongEnough(r[i]) && Strip(r[i]) == r[i] && r[i] in SplitTrimmed(reply.value, ',')
  {
    if reply.Err? {
      return FallbackKeywords;
    }
    var pieces := SplitTrimmed(reply.value, ',');
    var unique := KeepFirstByKeyWhere(pieces, LongEnough, Lower);
    r := Take(unique, MaxSearchKeywords);
    FirstOfFilteredPrefix(pieces, LongEnough, Lower, r);
  }

  // ---------------------------------------------------------------- records

  /** The columns read from the companies table, and the record key each is
      stored under. */
  const RowColumns: seq<(string, string)> := [
    ("linkedin", "linkedin"), ("name", "nombre"), ("description", "descripcion_corta"),
    ("website", "web_empresa"), ("email", "correo"), ("phone", "telefono"),
    ("categories", "sector_categorias"), ("location", "ubicacion_general")]

  const RecordTail: Fields := [("keywords_general", Str("")), ("keywords_specific", Str("")), ("relevance_score", Num(0.0))]

  /** The renamed columns of one row, in column order. */
  function RecordColumns(row: Fields): (r: Fields)
    ensures |r| == |RowColumns|
    ensures forall i :: 0 <= i < |r| ==> r[i] == (RowColumns[i].0, Get(row, RowColumns[i].1).GetOr(Null))
  {
    seq(|RowColumns|, i requires 0 <= i < |RowColumns| => (RowColumns[i].0, Get(row, RowColumns[i].1).GetOr(Null)))
  }

  /** `_search_companies_db`: one record per row, with the row's columns
      renamed, empty keyword columns and a zero score. */
  function BuildRecord(row: Fields): (r: Fields)
    ensures Get(r, "type") == Some(Str("company"))
    ensures Get(r, "keywords_general") == Some(Str("")) && Get(r, "keywords_specific") == Some(Str(""))
    ensures Get(r, "relevance_score") == Some(Num(0.0))
    ensures forall i :: 0 <= i < |RowColumns| ==> Get(r, RowColumns[i].0) == Some(Get(row, RowColumns[i].1).GetOr(Null))
  {
    RecordLookups(RecordHead, RecordColumns(row));
    RecordHead + RecordColumns(row) + RecordTail
  }

  const RecordHead: Fields := [("type", Str("company"))]

  /** What the lookups in a built record find. */
  lemma RecordLookups(head: Fields, columns: Fields)
    requires head == RecordHead
    requires |columns| == |RowColumns| && forall i :: 0 <= i < |columns| ==> columns[i].0 == RowColumns[i].0
    ensures Get(head + columns + RecordTail, "type") == Some(Str("company"))
    ensures Get(head + columns + RecordTail, "keywords_general") == Some(Str(""))
    ensures Get(head + columns + RecordTail, "keywords_specific") == Some(Str(""))
    ensures Get(head + columns + RecordTail, "relevance_score") == Some(Num(0.0))
    ensures forall i :: 0 <= i < |RowColumns| ==> Get(head + columns + RecordTail, RowColumns[i].0) == Some(columns[i].1)
  {
    ColumnNames();
    assert head + columns + RecordTail == head + (columns + RecordTail);
    HeadLookup(head, columns + RecordTail);
    TailLookups(head, columns);
    forall i | 0 <= i < |RowColumns| ensures Get(head + columns + RecordTail, RowColumns[i].0) == Some(columns[i].1) {
      ColumnLookup(head, columns, i);
    }
  }

  /** The record keys of the columns are distinct, shorter than the tail's
      keys, and none is `type`. */
  lemma ColumnNames()
    ensures forall i :: 0 <= i < |RowColumns| ==> |RowColumns[i].0| <= 11 && RowColumns[i].0 != "type"
    ensures forall i, j :: 0 <= i < j < |RowColumns| ==> RowColumns[i].0 != RowColumns[j].0
  {
  }

  lemma HeadLookup(head: Fields, rest: Fields)
    requires head == [("type", Str("company"))]
    ensures Get(head + rest, "type") == Some(Str("company"))
  {
    assert (head + rest)[0] == ("type", Str("company"));
  }

  lemma LookupPast(a: Fields, b: Fields, k: string)
    requires k !in Keys(a)
    ensures Get(a + b, k) == Get(b, k)
  {
    GetAppend(a, b, k);
  }

  lemma TailLookups(head: Fields, columns: Fields)
    requires head == [("type", Str("company"))]
    requires |columns| == |RowColumns| && forall i :: 0 <= i < |columns| ==> columns[i].0 == RowColumns[i].0
    requires forall i :: 0 <= i < |RowColumns| ==> |RowColumns[i].0| <= 11
    ensures Get(head + columns + RecordTail, "keywords_general") == Some(Str(""))
    ensures Get(head + columns + RecordTail, "keywords_specific") == Some(Str(""))
    ensures Get(head + columns + RecordTail, "relevance_score") == Some(Num(0.0))
  {
    var front := head + columns;
    assert forall k :: |k| > 11 ==> k !in Keys(front);
    LookupPast(front, RecordTail, "keywords_general");
    LookupPast(front, RecordTail, "keywords_specific");
    LookupPast(front, RecordTail, "relevance_score");
  }

  lemma ColumnLookup(head: Fields, columns: Fields, i: nat)
    requires head == [("type", Str("company"))]
    requires |columns| == |RowColumns| && forall j :: 0 <= j < |columns| ==> columns[j].0 == RowColumns[j].0
    requires forall j :: 0 <= j < |RowColumns| ==> RowColumns[j].0 != "type"
    requires forall j, k :: 0 <= j < k < |RowColumns| ==> RowColumns[j].0 != RowColumns[k].0
    requires i < |columns|
    ensures Get(head + columns + RecordTail, columns[i].0) == Some(columns[i].1)
  {
    assert head + columns + RecordTail == head + (columns + RecordTail);
    KeysCons(head[0], []);
    assert head == [head[0]] + [];
    LookupPast(head, columns + RecordTail, columns[i].0);
    GetFirstDistinct(columns + RecordTail, i);
  }

  lemma {:induction false} GetFirstDistinct(fields: Fields, i: nat)
    requires i < |fields|
    requires forall j :: 0 <= j < i ==> fields[j].0 != fields[i].0
    ensures Get(fields, fields[i].0) == Some(fields[i].1)
  {
    if i > 0 {
      GetFirstDistinct(fields[1..], i - 1);
    }
  }

  // ---------------------------------------------------------------- scoring

  /** The text columns joined into the (unused) company content, in order. */
  const ContentFields: seq<string> := ["keywords_general", "keywords_specific", "categories", "description", "name"]

  /** Building the content lower-cases every truthy text column, which raises
      unless it is a string. */
  predicate ContentReadable(c: Fields) {
    forall i :: 0 <= i < |ContentFields| && Truthy(Get(c, ContentFields[i]).GetOr(Null)) ==> Get(c, ContentFields[i]).GetOr(Null).Str?
  }

  /** The columns a keyword is looked for in, with the weight a hit earns,
      tried in this order. */
  const MatchFields: seq<(string, real)> :=
    [("keywords_specific", 3.0), ("keywords_general", 2.0), ("categories", 1.5), ("name", 1.0), ("description", 0.5)]

  /** `company.get(key, '').lower()`: raises unless the value is a string. */
  function LowerColumn(c: Fields, key: string): (r: Result<string>)
    ensures r.Ok? <==> Get(c, key).GetOr(Str("")).Str?
    ensures r.Ok? ==> r.value == Lower(Get(c, key).GetOr(Str("")).s)
  {
    match Get(c, key).GetOr(Str(""))
    case Str(s) => Ok(Lower(s))
    case _ => Err("AttributeError: object has no attribute 'lower'")
  }

  /** The scan passes the first `i` columns: each is text and lacks the keyword. */
  predicate Misses(c: Fields, kw: string, fields: seq<(string, real)>, i: nat)
    requires i <= |fields|
  {
    forall j :: 0 <= j < i ==> LowerColumn(c, fields[j].0).Ok? && !Contains(LowerColumn(c, fields[j].0).value, Lower(kw))
  }

  /** The scan reaches column `i`, which holds the keyword. */
  predicate HitAt(c: Fields, kw: string, fields: seq<(string, real)>, i: nat)
    requires i < |fields|
  {
    Misses(c, kw, fields, i) && LowerColumn(c, fields[i].0).Ok? && Contains(LowerColumn(c, fields[i].0).value, Lower(kw))
  }

  /** The scan reaches column `i`, which is not text. */
  predicate FailsAt(c: Fields, kw: string, fields: seq<(string, real)>, i: nat)
    requires i < |fields|
  {
    Misses(c, kw, fields, i) && LowerColumn(c, fields[i].0).Err?
  }

  /** The weight of the first column that contains the keyword, nothing when
      none does; a column that is not text raises when the scan reaches it. */
  function FirstHit(c: Fields, kw: string, fields: seq<(string, real)>): (r: Result<real>)
    requires WeightsInRange(fields)
    ensures r.Ok? ==> 0.0 <= r.value <= 3.0
    ensures r.Ok? && r.value > 0.0 ==> exists i :: 0 <= i < |fields| && HitAt(c, kw, fields, i) && r.value == fields[i].1
    ensures r == Ok(0.0) <==> Misses(c, kw, fields, |fields|)
    ensures r.Err? <==> exists i :: 0 <= i < |fields| && FailsAt(c, kw, fields, i)
  {
    if |fields| == 0 then Ok(0.0)
    else
      var col := LowerColumn(c, fields[0].0);
      if col.Err? then
        assert FailsAt(c, kw, fields, 0);
        Err(col.message)
      else if Contains(col.value, Lower(kw)) then
        assert HitAt(c, kw, fields, 0);
        assert !Misses(c, kw, fields, |fields|);
        FirstScanEnds(c, kw, fields, 0);
        Ok(fields[0].1)
      else
        var rest := FirstHit(c, kw, fields[1..]);
        MissesCons(c, kw, fields);
        rest
  }

  /** Passing the first column and then `i` more is passing `i + 1` columns;
      the scan hits or fails at one column only. */
  lemma MissesCons(c: Fields, kw: string, fields: seq<(string, real)>)
    requires |fields| > 0
    requires LowerColumn(c, fields[0].0).Ok? && !Contains(LowerColumn(c, fields[0].0).value, Lower(kw))
    ensures forall i :: 0 <= i <= |fields[1..]| ==> (Misses(c, kw, fields[1..], i) <==> Misses(c, kw, fields, i + 1))
    ensures forall i :: 0 <= i < |fields[1..]| ==> (HitAt(c, kw, fields[1..], i) <==> HitAt(c, kw, fields, i + 1))
    ensures !HitAt(c, kw, fields, 0) && !FailsAt(c, kw, fields, 0)
    ensures (exists i :: 0 <= i < |fields| && FailsAt(c, kw, fields, i)) <==> (exists i :: 0 <= i < |fields[1..]| && FailsAt(c, kw, fields[1..], i))
  {
    MissesShift(c, kw, fields);
    FailsShift(c, kw, fields);
  }

  lemma MissesShift(c: Fields, kw: string, fields: seq<(string, real)>)
    requires |fields| > 0
    requires LowerColumn(c, fields[0].0).Ok? && !Contains(LowerColumn(c, fields[0].0).value, Lower(kw))
    ensures forall i :: 0 <= i <= |fields[1..]| ==> (Misses(c, kw, fields[1..], i) <==> Misses(c, kw, fields, i + 1))
  {
    forall i | 0 <= i <= |fields[1..]| ensures Misses(c, kw, fields[1..], i) <==> Misses(c, kw, fields, i + 1) {
      MissesShiftAt(c, kw, fields, i);
    }
  }

  lemma MissesShiftAt(c: Fields, kw: string, fields: seq<(string, real)>, i: nat)
    requires 0 < |fields| && i < |fields|
    requires LowerColumn(c, fields[0].0).Ok? && !Contains(LowerColumn(c, fields[0].0).value, Lower(kw))
    ensures Misses(c, kw, fields[1..], i) <==> Misses(c, kw, fields, i + 1)
  {
    var tail := fields[1..];
    if Misses(c, kw, tail, i) {
      forall j | 0 <= j < i + 1
        ensures LowerColumn(c, fields[j].0).Ok? && !Contains(LowerColumn(c, fields[j].0).value, Lower(kw))
      {
        if j > 0 { assert fields[j] == tail[j - 1]; }
      }
    }
    if Misses(c, kw, fields, i + 1) {
      forall j | 0 <= j < i
        ensures LowerColumn(c, tail[j].0).Ok? && !Contains(LowerColumn(c, tail[j].0).value, Lower(kw))
      {
        assert tail[j] == fields[j + 1];
      }
    }
  }

  lemma FailsShift(c: Fields, kw: string, fields: seq<(string, real)>)
    requires |fields| > 0
    requires LowerColumn(c, fields[0].0).Ok? && !Contains(LowerColumn(c, fields[0].0).value, Lower(kw))
    requires forall i :: 0 <= i <= |fields[1..]| ==> (Misses(c, kw, fields[1..], i) <==> Misses(c, kw, fields, i + 1))
    ensures (exists i :: 0 <= i < |fields| && FailsAt(c, kw, fields, i)) <==> (exists i :: 0 <= i < |fields[1..]| && FailsAt(c, kw, fields[1..], i))
  {
    var tail := fields[1..];
    if exists i :: 0 <= i < |fields| && FailsAt(c, kw, fields, i) {
      var i :| 0 <= i < |fields| && FailsAt(c, kw, fields, i);
      assert i > 0 && tail[i - 1] == fields[i];
      assert FailsAt(c, kw, tail, i - 1);
    }
    if exists i :: 0 <= i < |tail| && FailsAt(c, kw, tail, i) {
      var i :| 0 <= i < |tail| && FailsAt(c, kw, tail, i);
      assert tail[i] == fields[i + 1];
      assert FailsAt(c, kw, fields, i + 1);
    }
  }

  /** Once the scan hits column `h`, no column fails. */
  lemma FirstScanEnds(c: Fields, kw: string, fields: seq<(string, real)>, h: nat)
    requires h < |fields| && HitAt(c, kw, fields, h)
    ensures forall i :: 0 <= i < |fields| ==> !FailsAt(c, kw, fields, i)
  {
    forall i | 0 <= i < |fields| ensures !FailsAt(c, kw, fields, i) {
      if i < h {
        assert LowerColumn(c, fields[i].0).Ok?;
      } else if i > h {
        assert !(LowerColumn(c, fields[h].0).Ok? && !Contains(LowerColumn(c, fields[h].0).value, Lower(kw)));
      }
    }
  }

  /** Every weight lies in (0, 3]. */
  predicate WeightsInRange(fields: seq<(string, real)>) {
    forall i :: 0 <= i < |fields| ==> 0.0 < fields[i].1 <= 3.0
  }

  /** The first-hit scan of one record, as a function of the keyword. */
  function Hitter(c: Fields, fields: seq<(string, real)>): string -> Result<real>
    requires WeightsInRange(fields)
  {
    kw => FirstHit(c, kw, fields)
  }

  /** The weights of all keywords, summed; the first raising column aborts. */
  function KeywordScore(c: Fields, keywords: seq<string>, fields: seq<(string, real)>): (r: Result<real>)
    requires WeightsInRange(fields)
    ensures r.Ok? ==> r.value == Sum(HitValues(keywords, Hitter(c, fields)))
    ensures r.Ok? ==> 0.0 <= r.value <= 3.0 * |keywords| as real
    ensures r.Ok? <==> forall i :: 0 <= i < |keywords| ==> FirstHit(c, keywords[i], fields).Ok?
    ensures r == Ok(0.0) <==> forall i :: 0 <= i < |keywords| ==> FirstHit(c, keywords[i], fields) == Ok(0.0)
  {
    SumHits(keywords, Hitter(c, fields))
  }

  /** What each keyword's hit earns; a failed hit stands for nothing. */
  function HitValues(keywords: seq<string>, hit: string -> Result<real>): (r: seq<real>)
    ensures |r| == |keywords|
    ensures forall i :: 0 <= i < |keywords| && hit(keywords[i]).Ok? ==> r[i] == hit(keywords[i]).value
  {
    seq(|keywords|, i requires 0 <= i < |keywords| => if hit(keywords[i]).Ok? then hit(keywords[i]).value else 0.0)
  }

  lemma SumHitsStep(keywords: seq<string>, hit: string -> Result<real>, rest: real)
    requires |keywords| > 0 && hit(keywords[0]).Ok? && rest == Sum(HitValues(keywords[1..], hit))
    ensures hit(keywords[0]).value + rest == Sum(HitValues(keywords, hit))
  {
    assert HitValues(keywords, hit) == [hit(keywords[0]).value] + HitValues(keywords[1..], hit);
    SumCons(hit(keywords[0]).value, HitValues(keywords[1..], hit));
  }

  /** The sum of `hit` over the keywords, each hit in [0, 3]; the first
      failing hit aborts. */
  function SumHits(keywords: seq<string>, hit: string -> Result<real>): (r: Result<real>)
    requires forall i :: 0 <= i < |keywords| && hit(keywords[i]).Ok? ==> 0.0 <= hit(keywords[i]).value <= 3.0
    ensures r.Ok? ==> r.value == Sum(HitValues(keywords, hit))
    ensures r.Ok? ==> 0.0 <= r.value <= 3.0 * |keywords| as real
    ensures r.Ok? <==> forall i :: 0 <= i < |keywords| ==> hit(keywords[i]).Ok?
    ensures r == Ok(0.0) <==> forall i :: 0 <= i < |keywords| ==> hit(keywords[i]) == Ok(0.0)
  {
    if |keywords| == 0 then Ok(0.0)
    else
      var head := hit(keywords[0]);
      var rest := SumHits(keywords[1..], hit);
      assert forall i :: 1 <= i < |keywords| ==> keywords[1..][i - 1] == keywords[i];
      assert 3.0 * |keywords| as real == 3.0 + 3.0 * |keywords[1..]| as real;
      if head.Err? then Err(head.message)
      else if rest.Err? then rest
      else
        SumHitsStep(keywords, hit, rest.value);
        Ok(head.value + rest.value)
  }

  /** One company's score, or the error that aborts the ranking. */
  function CompanyScore(c: Fields, keywords: seq<string>): (r: Result<real>)
    ensures r.Ok? <==> ContentReadable(c) && KeywordScore(c, keywords, MatchFields).Ok?
    ensures r.Ok? ==> r.value == Sum(HitValues(keywords, Hitter(c, MatchFields)))
    ensures r.Ok? ==> 0.0 <= r.value <= 3.0 * |keywords| as real
    ensures r == Ok(0.0) <==> ContentReadable(c) && forall i :: 0 <= i < |keywords| ==> FirstHit(c, keywords[i], MatchFields) == Ok(0.0)
  {
    MatchFieldsInRange();
    if !ContentReadable(c) then Err("AttributeError: object has no attribute 'lower'")
    else KeywordScore(c, keywords, MatchFields)
  }

  lemma MatchFieldsInRange()
    ensures WeightsInRange(MatchFields)
  {
  }

  /** The scoring function of the ranking loop for a keyword list. */
  function Scorer(keywords: seq<string>): Fields -> Result<real> {
    c => CompanyScore(c, keywords)
  }

  /** A record with its score written in. */
  function WithScore(c: Fields, score: real): (r: Fields)
    ensures Get(r, "relevance_score") == Some(Num(score))
    ensures forall k :: k != "relevance_score" ==> Get(r, k) == Get(c, k)
  {
    Set(c, "relevance_score", Num(score))
  }

  /** The stored score a record is sorted by. */
  function RecordScore(c: Fields): real {
    match Get(c, "relevance_score")
    case Some(Num(n)) => n
    case _ => 0.0
  }

  function RecordKey(c: Fields): Key {
    Key(RecordScore(c), 0.0)
  }

  predicate Positive(c: Fields) {
    RecordScore(c) > 0.0
  }

  /** The first `n` records with their scores written in (the loop got that far). */
  function ScoredPrefix(records: seq<Fields>, score: Fields -> Result<real>, n: nat): (r: seq<Fields>)
    requires n <= |records| && forall i :: 0 <= i < n ==> score(records[i]).Ok?
    ensures |r| == n
    ensures forall i :: 0 <= i < n ==> r[i] == WithScore(records[i], score(records[i]).value)
  {
    seq(n, i requires 0 <= i < n && n <= |records| && score(records[i]).Ok? => WithScore(records[i], score(records[i]).value))
  }

  /** `r` ranks the scored records: it holds the positive ones, best first,
      twenty of them or all when fewer, drawn without duplication; no positive
      record left out outranks one kept, and records with equal scores keep
      their order. */
  ghost predicate RankedFrom(r: seq<Fields>, scored: seq<Fields>) {
    && SortedDesc(r, RecordKey)
    && (forall i :: 0 <= i < |r| ==> Positive(r[i]))
    && multiset(r) <= multiset(scored)
    && (forall i, y :: 0 <= i < |r| && y in multiset(scored) - multiset(r) && Positive(y) ==> RecordScore(r[i]) >= RecordScore(y))
    && |r| == (if MaxCompanyResults < |Filter(scored, Positive)| then MaxCompanyResults else |Filter(scored, Positive)|)
    && (forall k :: WithKey(r, RecordKey, k) <= WithKey(Filter(scored, Positive), RecordKey, k))
  }

  /** `r` is what is left when scoring record `k` raised: the first twenty
      records, those before `k` carrying their score and the rest unchanged. */
  ghost predicate AbortedAt(r: seq<Fields>, records: seq<Fields>, score: Fields -> Result<real>, k: nat)
    requires k <= |records| && forall i :: 0 <= i < k ==> score(records[i]).Ok?
  {
    && |r| == (if |records| < MaxCompanyResults then |records| else MaxCompanyResults)
    && (forall i :: 0 <= i < |r| && i < k ==> r[i] == WithScore(records[i], score(records[i]).value))
    && (forall i :: k <= i < |r| ==> r[i] == records[i])
  }

  /** The ranking loop for any scoring function. */
  function RankWith(records: seq<Fields>, score: Fields -> Result<real>): (r: seq<Fields>)
    ensures |r| <= MaxCompanyResults
    ensures FirstErr(records, score).None? ==> RankedFrom(r, ScoredPrefix(records, score, |records|))
    ensures FirstErr(records, score).Some? ==> AbortedAt(r, records, score, FirstErr(records, score).value)
  {
    match FirstErr(records, score)
    case None => RankScored(ScoredPrefix(records, score, |records|))
    case Some(k) => Aborted(records, score, k)
  }

  /** The positive records, best first, at most twenty. */
  function RankScored(scored: seq<Fields>): (r: seq<Fields>)
    ensures |r| == if MaxCompanyResults < |Filter(scored, Positive)| then MaxCompanyResults else |Filter(scored, Positive)|
    ensures forall k :: WithKey(r, RecordKey, k) <= WithKey(Filter(scored, Positive), RecordKey, k)
    ensures SortedDesc(r, RecordKey)
    ensures forall i :: 0 <= i < |r| ==> Positive(r[i])
    ensures multiset(r) <= multiset(scored)
    ensures forall i, y :: 0 <= i < |r| && y in multiset(scored) - multiset(r) && Positive(y) ==> RecordScore(r[i]) >= RecordScore(y)
  {
    var r := RankFiltered(scored, RecordKey, Positive, MaxCompanyResults);
    assert forall i, y :: 0 <= i < |r| && y in multiset(scored) - multiset(r) && Positive(y) ==> RecordScore(r[i]) >= RecordScore(y) by {
      forall i, y | 0 <= i < |r| && y in multiset(scored) - multiset(r) && Positive(y)
        ensures RecordScore(r[i]) >= RecordScore(y)
      {
        assert KeyGe(RecordKey(r[i]), RecordKey(y));
      }
    }
    r
  }

  /** The first twenty records when scoring record `k` raised: those before
      it carry their score. */
  function Aborted(records: seq<Fields>, score: Fields -> Result<real>, k: nat): (r: seq<Fields>)
    requires k <= |records| && forall i :: 0 <= i < k ==> score(records[i]).Ok?
    ensures |r| == if |records| < MaxCompanyResults then |records| else MaxCompanyResults
    ensures forall i :: 0 <= i < |r| && i < k ==> r[i] == WithScore(records[i], score(records[i]).value)
    ensures forall i :: k <= i < |r| ==> r[i] == records[i]
  {
    var whole := ScoredPrefix(records, score, k) + records[k..];
    assert forall i :: k <= i < |whole| ==> whole[i] == records[i];
    Take(whole, MaxCompanyResults)
  }

  const MaxCompanyResults: nat := 20

  /** `_rank_results`. When every record scores, the positive ones, best
      first, at most twenty; no positive record left out outranks one kept.
      When one raises, the first twenty records as they stand: those scored
      before the failure carry their score, the rest are unchanged. */
  function RankResults(records: seq<Fields>, keywords: seq<string>): (r: seq<Fields>)
    ensures |r| <= MaxCompanyResults
    ensures var score := Scorer(keywords);
      FirstErr(records, score).None? ==> RankedFrom(r, ScoredPrefix(records, score, |records|))
    ensures var score := Scorer(keywords);
      FirstErr(records, score).Some? ==> AbortedAt(r, records, score, FirstErr(records, score).value)
  {
    RankWith(records, Scorer(keywords))
  }

  /** A record that every keyword misses never reaches the ranked list. */
  lemma UnmatchedNeverRanked(records: seq<Fields>, keywords: seq<string>, c: Fields)
    requires FirstErr(records, Scorer(keywords)).None?
    requires CompanyScore(c, keywords) == Ok(0.0)
    ensures WithScore(c, 0.0) !in RankResults(records, keywords)
  {
  }

  // ---------------------------------------------------------------- the search

  datatype CompanySearchResult = CompanySearchResult(results: seq<Fields>, totalFound: nat, keywordsUsed: seq<string>)

  /** One record per returned row; none when the query failed. */
  function Records(rows: Result<seq<Fields>>): (r: seq<Fields>)
    ensures rows.Err? ==> r == []
    ensures rows.Ok? ==> |r| == |rows.value| && forall i :: 0 <= i < |r| ==> r[i] == BuildRecord(rows.value[i])
  {
    if rows.Err? then [] else seq(|rows.value|, i requires 0 <= i < |rows.value| => BuildRecord(rows.value[i]))
  }

  /** `search_companies`: keywords from the model's reply, the records of the
      returned rows, then the ranking. */
  method SearchCompanies(reply: Result<string>, rows: Result<seq<Fields>>) returns (r: CompanySearchResult)
    ensures reply.Err? ==> r.keywordsUsed == FallbackKeywords
    ensures reply.Ok? ==> r.keywordsUsed == Take(FirstByKey(Filter(SplitTrimmed(reply.value, ','), LongEnough), Lower), MaxSearchKeywords)
    ensures reply.Ok? ==> |r.keywordsUsed| <= MaxSearchKeywords && DistinctKeys(r.keywordsUsed, Lower)
    ensures r.totalFound == |Records(rows)|
    ensures r.results == RankResults(Records(rows), r.keywordsUsed)
    ensures |r.results| <= MaxCompanyResults
  {
    var keywords := ExtractSearchKeywords(reply);
    var records := Records(rows);
    r := CompanySearchResult(RankResults(records, keywords), |records|, keywords);
  }
}

=== FILE: fanout.dfy ===
/** The WebSocket manager (app/api/websockets/manager.py): conversation rooms,
    per-socket metadata and the bounded queue of messages kept for
    conversations nobody is connected to. Sockets are opaque ids; whether a
    socket accepts or a send succeeds is an input. */
module Fanout {
  import opened Wrappers
  import opened Json
  import opened Text

  type Socket = nat
  type Message = Fields

  const MaxQueueSize: nat := 100

  datatype Metadata = Metadata(conversationId: string, userId: Option<string>, connectedAt: string)

  /** The three tables of the manager. */
  datatype Manager = Manager(
    rooms: map<string, set<Socket>>,
    metadata: map<Socket, Metadata>,
    queues: map<string, seq<Message>>)

  const Initial: Manager := Manager(map[], map[], map[])

  /** No room is kept empty and no queue is over its cap. */
  predicate Valid(m: Manager) {
    && (forall c :: c in m.rooms ==> m.rooms[c] != {})
    && (forall c :: c in m.queues ==> |m.queues[c]| <= MaxQueueSize)
  }

  lemma InitialValid()
    ensures Valid(Initial)
  {
  }

  function Room(m: Manager, c: string): set<Socket> {
    if c in m.rooms then m.rooms[c] else {}
  }

  function Queue(m: Manager, c: string): seq<Message> {
    if c in m.queues then m.queues[c] else []
  }

  /** Every conversation other than `c` has the same room and queue in both states. */
  ghost predicate OthersUnchanged(m: Manager, r: Manager, c: string) {
    forall d :: d != c ==> (d in r.rooms <==> d in m.rooms) && Room(r, d) == Room(m, d)
                           && (d in r.queues <==> d in m.queues) && Queue(r, d) == Queue(m, d)
  }

  // ---------------------------------------------------------------- disconnect

  /** `disconnect`: the socket leaves the room it names (which is dropped once
      empty) and loses its metadata; queues are untouched. */
  function Disconnect(m: Manager, ws: Socket, c: string): (r: Manager)
    ensures Room(r, c) == Room(m, c) - {ws}
    ensures c in r.rooms <==> c in m.rooms && m.rooms[c] - {ws} != {}
    ensures r.metadata == m.metadata - {ws}
    ensures r.queues == m.queues
    ensures OthersUnchanged(m, r, c)
    ensures Valid(m) ==> Valid(r)
  {
    var rooms :=
      if c !in m.rooms then m.rooms
      else if m.rooms[c] - {ws} == {} then m.rooms - {c}
      else m.rooms[c := m.rooms[c] - {ws}];
    m.(rooms := rooms, metadata := m.metadata - {ws})
  }

  /** Disconnecting a socket the manager does not know changes nothing. */
  lemma DisconnectUnknown(m: Manager, ws: Socket, c: string)
    requires Valid(m)
    requires ws !in Room(m, c) && ws !in m.metadata
    ensures Disconnect(m, ws, c) == m
  {
    var r := Disconnect(m, ws, c);
    if c in m.rooms {
      assert m.rooms[c] - {ws} == m.rooms[c];
      assert r.rooms == m.rooms;
    }
    assert r.metadata == m.metadata;
  }

  // ---------------------------------------------------------------- queue

  function Stamped(msg: Message, now: string): (r: Message)
    ensures Get(r, "queued_at") == Some(Str(now))
    ensures forall k :: k != "queued_at" ==> Get(r, k) == Get(msg, k)
  {
    Set(msg, "queued_at", Str(now))
  }

  /** `_queue_message`: the stamped message joins the end of the queue, and
      only the newest hundred are kept. */
  function QueueMessage(m: Manager, c: string, msg: Message, now: string): (r: Manager)
    ensures Queue(r, c) == TakeLast(Queue(m, c) + [Stamped(msg, now)], MaxQueueSize)
    ensures |Queue(r, c)| <= MaxQueueSize
    ensures Queue(r, c)[|Queue(r, c)| - 1] == Stamped(msg, now)
    ensures |Queue(m, c)| < MaxQueueSize ==> Queue(r, c) == Queue(m, c) + [Stamped(msg, now)]
    ensures c in r.queues
    ensures r.rooms == m.rooms && r.metadata == m.metadata
    ensures OthersUnchanged(m, r, c)
    ensures Valid(m) ==> Valid(r)
  {
    var q := Queue(m, c) + [Stamped(msg, now)];
    m.(queues := m.queues[c := if |q| > MaxQueueSize then q[|q| - MaxQueueSize..] else q])
  }

  /** A full queue keeps its length: the oldest message makes room. */
  lemma QueueOverflowDropsOldest(m: Manager, c: string, msg: Message, now: string)
    requires |Queue(m, c)| == MaxQueueSize
    ensures Queue(QueueMessage(m, c, msg, now), c) == Queue(m, c)[1..] + [Stamped(msg, now)]
  {
    var q := Queue(m, c) + [Stamped(msg, now)];
    assert q[|q| - MaxQueueSize..] == Queue(m, c)[1..] + [Stamped(msg, now)];
  }

  // ---------------------------------------------------------------- connect

  function Replayed(msg: Message): (r: Message)
    ensures Get(r, "replayed") == Some(Bool(true))
    ensures forall k :: k != "replayed" ==> Get(r, k) == Get(msg, k)
  {
    Set(msg, "replayed", Bool(true))
  }

  /** The messages sent to one socket, marked as replays, in queue order. */
  function ReplayTo(ws: Socket, q: seq<Message>): (r: seq<(Socket, Message)>)
    ensures |r| == |q|
    ensures forall i :: 0 <= i < |q| ==> r[i] == (ws, Replayed(q[i]))
  {
    seq(|q|, i requires 0 <= i < |q| => (ws, Replayed(q[i])))
  }

  function Confirmation(c: string, now: string): Message {
    [("type", Str("connection_established")), ("conversation_id", Str(c)),
     ("timestamp", Str(now)), ("message", Str("Connected to chat"))]
  }

  /** The state after a call, and the messages it sent, in order. */
  datatype Outcome = Outcome(manager: Manager, sent: seq<(Socket, Message)>)

  /** `connect`: join the room, record the metadata, replay and clear the
      queue, then confirm. A socket that fails to accept is disconnected. */
  function Connect(m: Manager, ws: Socket, c: string, userId: Option<string>, now: string, accepted: bool): (r: Outcome)
    ensures !accepted ==> r == Outcome(Disconnect(m, ws, c), [])
    ensures accepted ==>
      && Room(r.manager, c) == Room(m, c) + {ws}
      && c in r.manager.rooms
      && r.manager.metadata == m.metadata[ws := Metadata(c, userId, now)]
      && Queue(r.manager, c) == []
      && r.sent == ReplayTo(ws, Queue(m, c)) + [(ws, Confirmation(c, now))]
    ensures OthersUnchanged(m, r.manager, c)
    ensures Valid(m) ==> Valid(r.manager)
  {
    if !accepted then Outcome(Disconnect(m, ws, c), [])
    else
      var joined := m.(rooms := m.rooms[c := Room(m, c) + {ws}], metadata := m.metadata[ws := Metadata(c, userId, now)]);
      var q := Queue(m, c);
      var cleared := if q != [] then joined.(queues := joined.queues[c := []]) else joined;
      Outcome(cleared, ReplayTo(ws, q) + [(ws, Confirmation(c, now))])
  }

  /** A queued broadcast reaches the next socket to connect, after everything
      queued before it and before the confirmation. */
  lemma QueuedThenReplayed(m: Manager, c: string, msg: Message, now: string, ws: Socket, userId: Option<string>, later: string)
    requires |Queue(m, c)| < MaxQueueSize
    ensures var r := Connect(QueueMessage(m, c, msg, now), ws, c, userId, later, true);
      |r.sent| == |Queue(m, c)| + 2 && r.sent[|Queue(m, c)|] == (ws, Replayed(Stamped(msg, now)))
  {
  }

  // ---------------------------------------------------------------- broadcast

  /** One more disconnection keeps a state that differs from `m` only in
      conversation `c` that way, and keeps it valid and without an empty room. */
  lemma DisconnectKeeps(m: Manager, r: Manager, ws: Socket, c: string)
    requires c in r.rooms <==> Room(r, c) != {}
    requires OthersUnchanged(m, r, c)
    ensures var next := Disconnect(r, ws, c);
      && (c in next.rooms <==> Room(next, c) != {})
      && OthersUnchanged(m, next, c)
      && (Valid(r) ==> Valid(next))
  {
    var next := Disconnect(r, ws, c);
    assert OthersUnchanged(r, next, c);
  }

  /** Disconnect every socket of `gone` from conversation `c`, one at a time. */
  method DisconnectFailed(m: Manager, c: string, gone: set<Socket>) returns (r: Manager)
    requires c in m.rooms <==> Room(m, c) != {}
    ensures Room(r, c) == Room(m, c) - gone
    ensures c in r.rooms <==> Room(r, c) != {}
    ensures r.metadata == m.metadata - gone
    ensures r.queues == m.queues
    ensures OthersUnchanged(m, r, c)
    ensures Valid(m) ==> Valid(r)
  {
    r := m;
    var todo := gone;
    while todo != {}
      invariant todo <= gone
      invariant Room(r, c) == Room(m, c) - (gone - todo)
      invariant c in r.rooms <==> Room(r, c) != {}
      invariant r.metadata == m.metadata - (gone - todo)
      invariant r.queues == m.queues
      invariant OthersUnchanged(m, r, c)
      invariant Valid(m) ==> Valid(r)
      decreases todo
    {
      var ws :| ws in todo;
      DisconnectKeeps(m, r, ws, c);
      r := Disconnect(r, ws, c);
      todo := todo - {ws};
    }
  }

  /** `broadcast_to_conversation`. With nobody in the room the message is
      queued and nothing is sent. Otherwise every socket of the room is sent
      the message, and exactly those whose send failed are disconnected. */
  method Broadcast(m: Manager, c: string, msg: Message, sendOk: Socket -> bool, now: string)
    returns (r: Manager, attempted: set<Socket>)
    ensures Room(m, c) == {} ==> r == QueueMessage(m, c, msg, now) && attempted == {}
    ensures Room(m, c) != {} ==>
      && attempted == Room(m, c)
      && Room(r, c) == (set ws | ws in Room(m, c) && sendOk(ws))
      && (c in r.rooms <==> Room(r, c) != {})
      && r.metadata == m.metadata - (set ws | ws in Room(m, c) && !sendOk(ws))
      && r.queues == m.queues
    ensures OthersUnchanged(m, r, c)
    ensures Valid(m) ==> Valid(r)
  {
    if Room(m, c) == {} {
      return QueueMessage(m, c, msg, now), {};
    }
    attempted := m.rooms[c];
    var failed := set ws | ws in attempted && !sendOk(ws);
    r := DisconnectFailed(m, c, failed);
    assert attempted - failed == set ws | ws in attempted && sendOk(ws);
  }
}

=== FILE: investor_engine.dfy ===
/** The investor search engine (app/search/investor_search.py): input check,
    the angel/fund split voted by stage keywords, per-pool limits, the merged
    ranking by (relevance, score), and the small parsers that turn stored
    columns into tag lists and a location line. The two table queries are
    inputs: the rows they returned. */
module InvestorEngine {
  import opened Wrappers
  import opened Text
  import opened Json
  import opened Seqs
  import opened Ranking
  import opened Numbers

  // ---------------------------------------------------------------- distribution

  const EarlyStages: seq<string> := ["idea", "prototype", "mvp", "pre-seed", "seed"]
  const LaterStages: seq<string> := ["series_a", "series_b", "series_c", "growth", "scale"]

  /** The share of the limit given to angels and to funds. */
  datatype Distribution = Distribution(angels: real, funds: real)

  /** How many stage keywords mention one of `terms`, case-insensitively. */
  function CountMentioning(stages: seq<string>, terms: seq<string>): (n: nat)
    ensures n <= |stages|
    ensures n == 0 <==> forall i :: 0 <= i < |stages| ==> !AnyContained(Lower(stages[i]), terms)
  {
    if |stages| == 0 then 0
    else
      var rest := CountMentioning(stages[1..], terms);
      assert forall i :: 1 <= i < |stages| ==> stages[1..][i - 1] == stages[i];
      (if AnyContained(Lower(stages[0]), terms) then 1 else 0) + rest
  }

  /** `_calculate_search_distribution`: no stage keywords is an even split;
      otherwise the side with more mentioning keywords gets 70%, and a tie is
      an even split. */
  function SearchDistribution(stages: seq<string>): (r: Distribution)
    ensures r.angels + r.funds == 1.0
    ensures stages == [] ==> r == Distribution(0.5, 0.5)
    ensures var early, later := CountMentioning(stages, EarlyStages), CountMentioning(stages, LaterStages);
      && (early > later ==> r == Distribution(0.7, 0.3))
      && (later > early ==> r == Distribution(0.3, 0.7))
      && (early == later ==> r == Distribution(0.5, 0.5))
  {
    if stages == [] then Distribution(0.5, 0.5)
    else
      var early, later := CountMentioning(stages, EarlyStages), CountMentioning(stages, LaterStages);
      if early > later then Distribution(0.7, 0.3)
      else if later > early then Distribution(0.3, 0.7)
      else Distribution(0.5, 0.5)
  }

  /** Swapping the vote swaps the split. */
  lemma DistributionSymmetric(stages: seq<string>)
    ensures var r := SearchDistribution(stages);
      var early, later := CountMentioning(stages, EarlyStages), CountMentioning(stages, LaterStages);
      (early > later <==> r.angels > r.funds) && (later > early <==> r.funds > r.angels)
  {
  }

  /** `max(1, int(limit * ratio))`. */
  function PoolLimit(limit: int, ratio: real): (r: int)
    ensures r >= 1
    ensures limit as real * ratio >= 1.0 ==> r as real <= limit as real * ratio < r as real + 1.0
    ensures limit as real * ratio < 1.0 ==> r == 1
  {
    var t := Trunc(limit as real * ratio);
    if t > 1 then t else 1
  }

  /** The two pools together never ask for more than the limit, once the
      limit is at least 2 and the split is one the engine uses. */
  lemma PoolLimitsWithinLimit(limit: int, stages: seq<string>)
    requires limit >= 2
    ensures var d := SearchDistribution(stages);
      PoolLimit(limit, d.angels) + PoolLimit(limit, d.funds) <= limit
  {
    SplitsWithinLimit(limit);
  }

  /** The sums for the three splits the engine uses. */
  lemma SplitsWithinLimit(limit: int)
    requires limit >= 2
    ensures PoolLimit(limit, 0.7) + PoolLimit(limit, 0.3) <= limit
    ensures PoolLimit(limit, 0.5) + PoolLimit(limit, 0.5) <= limit
  {
    var l := limit as real;
    assert l * 0.7 + l * 0.3 == l;
    assert l * 0.5 >= 1.0;
  }

  // ---------------------------------------------------------------- parsers

  /** The position of the first `'` in `s`. */
  function NextQuote(s: string): (r: Option<nat>)
    ensures r.Some? ==> r.value < |s| && s[r.value] == '\'' && '\'' !in s[..r.value]
    ensures r.None? ==> '\'' !in s
  {
    if |s| == 0 then None
    else if s[0] == '\'' then Some(0)
    else
      match NextQuote(s[1..])
      case None => None
      case Some(k) =>
        assert s[..k + 1] == [s[0]] + s[1..][..k];
        Some(k + 1)
  }

  /** `re.findall(r"'([^']+)'", s)`: the non-empty quote-free runs between a
      quote and the next one, scanned left to right without overlap. */
  function QuotedRuns(s: string): (r: seq<string>)
    ensures forall i :: 0 <= i < |r| ==> r[i] != "" && '\'' !in r[i]
    decreases |s|
  {
    if |s| == 0 then []
    else if s[0] != '\'' then QuotedRuns(s[1..])
    else
      match NextQuote(s[1..])
      case Some(k) =>
        if k > 0 then [s[1..][..k]] + QuotedRuns(s[1..][k + 1..]) else QuotedRuns(s[1..])
      case None => QuotedRuns(s[1..])
  }

  const MaxTags: nat := 10

  /** `_extract_fund_categories` / `_extract_fund_stages`: no value or `"[]"`
      gives no tags; a string gives its first ten quoted runs; any other value
      makes `re.findall` raise. */
  function FundTags(v: Value): (r: Result<seq<string>>)
    ensures !Truthy(v) || v == Str("[]") ==> r == Ok([])
    ensures r.Err? <==> Truthy(v) && !v.Str?
    ensures r.Ok? ==> |r.value| <= MaxTags && forall i :: 0 <= i < |r.value| ==> r.value[i] != "" && '\'' !in r.value[i]
    ensures v.Str? && v.s != "" && v.s != "[]" ==> r == Ok(Take(QuotedRuns(v.s), MaxTags))
  {
    if !Truthy(v) || v == Str("[]") then Ok([])
    else if !v.Str? then Err("TypeError: expected string or bytes-like object")
    else Ok(Take(QuotedRuns(v.s), MaxTags))
  }

  /** How the stored columns write a list: `'a', 'b', 'c'`. */
  function Quoted(xs: seq<string>): string {
    if |xs| == 0 then ""
    else if |xs| == 1 then "'" + xs[0] + "'"
    else "'" + xs[0] + "', " + Quoted(xs[1..])
  }

  /** Text without quotes is skipped by the scan. */
  lemma {:induction false} QuotedRunsSkip(p: string, t: string)
    requires '\'' !in p
    ensures QuotedRuns(p + t) == QuotedRuns(t)
    decreases |p|
  {
    if |p| > 0 {
      assert (p + t)[0] == p[0];
      assert (p + t)[1..] == p[1..] + t;
      QuotedRunsSkip(p[1..], t);
    } else {
      assert p + t == t;
    }
  }

  /** Scanning a quoted item: the scan returns the item and continues after it. */
  lemma QuotedRunsItem(x: string, t: string)
    requires x != "" && '\'' !in x
    ensures QuotedRuns("'" + x + "'" + t) == [x] + QuotedRuns(t)
  {
    var s := "'" + x + "'" + t;
    assert s[1..] == x + "'" + t;
    assert (x + "'" + t)[|x|] == '\'';
    assert (x + "'" + t)[..|x|] == x;
    assert NextQuote(s[1..]) == Some(|x|);
    assert s[1..][|x| + 1..] == t;
  }

  /** An item followed by a quote-free separator scans as the item, then the rest. */
  lemma QuotedRunsItemThen(x: string, sep: string, rest: string)
    requires x != "" && '\'' !in x && '\'' !in sep
    ensures QuotedRuns("'" + x + "'" + sep + rest) == [x] + QuotedRuns(rest)
  {
    QuotedRunsSkip(sep, rest);
    QuotedRunsItem(x, sep + rest);
    assert "'" + x + "'" + sep + rest == "'" + x + "'" + (sep + rest);
  }

  /** One rendering step: the first item, a separator, and the rest. */
  lemma QuotedCons(xs: seq<string>)
    requires |xs| >= 2
    ensures Quoted(xs) == "'" + xs[0] + "'" + ", " + Quoted(xs[1..])
  {
  }

  /** The induction step of `QuotedRunsOfQuoted`. */
  lemma QuotedRunsOfQuotedStep(xs: seq<string>, t: string)
    requires |xs| >= 2 && xs[0] != "" && '\'' !in xs[0]
    requires QuotedRuns(Quoted(xs[1..]) + t) == xs[1..]
    ensures QuotedRuns(Quoted(xs) + t) == xs
  {
    var rest := Quoted(xs[1..]) + t;
    QuotedCons(xs);
    QuotedRunsItemThen(xs[0], ", ", rest);
    assert Quoted(xs) + t == "'" + xs[0] + "'" + ", " + rest;
    assert [xs[0]] + xs[1..] == xs;
  }

  /** Parsing a rendered list gives the list back. */
  lemma {:induction false} QuotedRunsOfQuoted(xs: seq<string>, t: string)
    requires forall i :: 0 <= i < |xs| ==> xs[i] != "" && '\'' !in xs[i]
    requires '\'' !in t
    ensures QuotedRuns(Quoted(xs) + t) == xs
    decreases |xs|
  {
    if |xs| == 0 {
      QuotedRunsSkip(t, "");
      assert t + "" == t;
      assert Quoted(xs) + t == t;
    } else if |xs| == 1 {
      QuotedRunsItemThen(xs[0], t, "");
      assert Quoted(xs) + t == "'" + xs[0] + "'" + t + "";
    } else {
      QuotedRunsOfQuoted(xs[1..], t);
      QuotedRunsOfQuotedStep(xs, t);
    }
  }

  /** The stored form `['a', 'b']` of up to ten tags parses back to those tags. */
  lemma FundTagsRoundTrip(xs: seq<string>)
    requires 0 < |xs| <= MaxTags
    requires forall i :: 0 <= i < |xs| ==> xs[i] != "" && '\'' !in xs[i]
    ensures FundTags(Str("[" + Quoted(xs) + "]")) == Ok(xs)
  {
    var s := "[" + Quoted(xs) + "]";
    QuotedRunsOfQuoted(xs, "]");
    QuotedRunsSkip("[", Quoted(xs) + "]");
    assert s == "[" + (Quoted(xs) + "]");
    assert |s| > 2;
  }

  /** `_format_fund_location`; `show` is Python's `str()` of a non-string
      value, which the model does not spell out. */
  function FormatLocation(v: Value, show: Value -> string): (r: string)
    ensures !Truthy(v) ==> r == "Unknown"
    ensures v.Arr? && Truthy(v) ==> r == Join(ShowAll(Take(v.items, 3), show), ", ")
    ensures v.Obj? && Truthy(v) ==> r == Show(Get(v.fields, "value").GetOr(Str("Unknown")), show)
    ensures v.Str? && Truthy(v) ==> r == v.s
  {
    if !Truthy(v) then "Unknown"
    else if v.Arr? then Join(ShowAll(Take(v.items, 3), show), ", ")
    else if v.Obj? then Show(Get(v.fields, "value").GetOr(Str("Unknown")), show)
    else Show(v, show)
  }

  /** A list location shows at most three places. */
  lemma LocationShowsThree(places: seq<string>, show: Value -> string)
    requires |places| >= 3
    ensures FormatLocation(Arr(seq(|places|, i requires 0 <= i < |places| => Str(places[i]))), show)
            == places[0] + ", " + places[1] + ", " + places[2]
  {
    var items := seq(|places|, i requires 0 <= i < |places| => Str(places[i]));
    var shown := ShowAll(Take(items, 3), show);
    assert Truthy(Arr(items)) by { assert items[0] == Str(places[0]); }
    assert |shown| == 3;
    assert shown[0] == places[0] && shown[1] == places[1] && shown[2] == places[2];
    JoinThree(shown, ", ");
  }

  lemma JoinThree(parts: seq<string>, sep: string)
    requires |parts| == 3
    ensures Join(parts, sep) == parts[0] + sep + parts[1] + sep + parts[2]
  {
    assert parts[1..][1..] == [parts[2]];
    assert Join(parts[1..], sep) == parts[1] + sep + parts[2];
  }

  // ---------------------------------------------------------------- angel tags

  const AngelCategoryFields: seq<string> :=
    ["categories_general_es", "categories_general_en", "categories_strong_es", "categories_strong_en"]
  const AngelStageFields: seq<string> := ["stage_general_es", "stage_general_en", "stage_strong_es", "stage_strong_en"]

  /** Everything the truthy fields contribute, in field order; a truthy
      field that is not iterable raises. */
  function Pooled(row: Fields, names: seq<string>): (r: Result<seq<Value>>)
    ensures r.Ok? <==> forall i :: 0 <= i < |names| && Truthy(Get(row, names[i]).GetOr(Null)) ==>
                              Iterate(Get(row, names[i]).GetOr(Null)).Ok?
    ensures r.Ok? ==> forall x :: x in r.value <==> exists i :: 0 <= i < |names| && Contributes(row, names[i], x)
  {
    if |names| == 0 then Ok([])
    else
      var v := Get(row, names[0]).GetOr(Null);
      var head := if Truthy(v) then Iterate(v) else Ok([]);
      var rest := Pooled(row, names[1..]);
      assert forall i :: 1 <= i < |names| ==> names[1..][i - 1] == names[i];
      if head.Err? then Err(head.message)
      else if rest.Err? then
        var i :| 0 <= i < |names[1..]| && Truthy(Get(row, names[1..][i]).GetOr(Null))
                 && !Iterate(Get(row, names[1..][i]).GetOr(Null)).Ok?;
        assert names[1..][i] == names[i + 1];
        rest
      else
        forall x ensures x in head.value + rest.value <==> exists i :: 0 <= i < |names| && Contributes(row, names[i], x) {
          if x in rest.value {
            var i :| 0 <= i < |names[1..]| && Contributes(row, names[1..][i], x);
            assert Contributes(row, names[i + 1], x);
          }
          if exists i :: 0 <= i < |names| && Contributes(row, names[i], x) {
            var i :| 0 <= i < |names| && Contributes(row, names[i], x);
            if i > 0 { assert Contributes(row, names[1..][i - 1], x); }
          }
        }
        Ok(head.value + rest.value)
  }

  /** `x` is one of the elements the field `name` adds. */
  predicate Contributes(row: Fields, name: string, x: Value) {
    var v := Get(row, name).GetOr(Null);
    Truthy(v) && Iterate(v).Ok? && x in Iterate(v).value
  }

  /** `_extract_categories` / `_extract_stages`: `list(set(...))` of the pooled
      elements, each class of Python-equal elements once; an unhashable
      element raises. */
  function AngelTags(row: Fields, names: seq<string>): (r: Result<seq<Value>>)
    ensures r.Ok? ==> forall x :: x in r.value ==> exists i :: 0 <= i < |names| && Contributes(row, names[i], x)
    ensures r.Ok? ==> forall x :: (exists i :: 0 <= i < |names| && Contributes(row, names[i], x)) && !x.Bool? && !x.Num? ==> x in r.value
    ensures r.Ok? ==> Pooled(row, names).Ok? && Classes(r.value) == Classes(Pooled(row, names).value)
    ensures r.Ok? ==> forall i, j :: 0 <= i < j < |r.value| ==> PyKey(r.value[i]) != PyKey(r.value[j])
    ensures Pooled(row, names).Err? ==> r.Err?
    ensures Pooled(row, names).Ok? ==> (r.Err? <==> exists x :: x in Pooled(row, names).value && !Hashable(x))
  {
    match Pooled(row, names)
    case Err(e) => Err(e)
    case Ok(all) =>
      if exists x :: x in all && !Hashable(x) then Err("TypeError: unhashable type")
      else Ok(SetList(all))
  }

  // ---------------------------------------------------------------- combining

  datatype InvestorType = AngelType | FundType

  /** An angel row as the query returns it, with its two numeric columns
      (`None` when the column is absent). */
  datatype AngelRow = AngelRow(fields: Fields, angelScore: Option<real>, relevance: Option<real>)

  datatype FundRow = FundRow(fields: Fields, relevance: Option<real>)

  /** One merged entry. */
  datatype Entry = Entry(
    investorType: InvestorType,
    displayName: Value,
    location: Value,
    score: real,
    relevance: real,
    categories: seq<Value>,
    stages: seq<Value>,
    row: Fields)

  function EntryKey(e: Entry): Key {
    Key(e.relevance, e.score)
  }

  /** One angel row as a merged entry; its tag fields can raise. */
  function AngelEntry(a: AngelRow): (r: Result<Entry>)
    ensures r.Ok? <==> AngelTags(a.fields, AngelCategoryFields).Ok? && AngelTags(a.fields, AngelStageFields).Ok?
    ensures r.Ok? ==> r.value.investorType == AngelType && r.value.score == a.angelScore.GetOr(0.0)
                      && r.value.relevance == a.relevance.GetOr(0.0)
                      && r.value.displayName == Get(a.fields, "fullname").GetOr(Str("Unknown Angel"))
  {
    var cats := AngelTags(a.fields, AngelCategoryFields);
    var stages := AngelTags(a.fields, AngelStageFields);
    if cats.Err? then Err(cats.message)
    else if stages.Err? then Err(stages.message)
    else Ok(Entry(AngelType, Get(a.fields, "fullname").GetOr(Str("Unknown Angel")),
                  Get(a.fields, "addresswithcountry").GetOr(Null),
                  a.angelScore.GetOr(0.0), a.relevance.GetOr(0.0), cats.value, stages.value, a.fields))
  }

  /** One fund row: its score is its relevance. */
  function FundEntry(f: FundRow, show: Value -> string): (r: Result<Entry>)
    ensures r.Ok? <==> FundTags(Get(f.fields, "category_keywords").GetOr(Str(""))).Ok?
                       && FundTags(Get(f.fields, "stage_keywords").GetOr(Str(""))).Ok?
    ensures r.Ok? ==> r.value.investorType == FundType && r.value.score == r.value.relevance == f.relevance.GetOr(0.0)
                      && r.value.displayName == Get(f.fields, "name").GetOr(Str("Unknown Fund"))
  {
    var cats := FundTags(Get(f.fields, "category_keywords").GetOr(Str("")));
    var stages := FundTags(Get(f.fields, "stage_keywords").GetOr(Str("")));
    if cats.Err? then Err(cats.message)
    else if stages.Err? then Err(stages.message)
    else
      var location := Str(FormatLocation(Get(f.fields, "location_identifiers").GetOr(Null), show));
      Ok(Entry(FundType, Get(f.fields, "name").GetOr(Str("Unknown Fund")), location,
               f.relevance.GetOr(0.0), f.relevance.GetOr(0.0),
               seq(|cats.value|, i requires 0 <= i < |cats.value| => Str(cats.value[i])),
               seq(|stages.value|, i requires 0 <= i < |stages.value| => Str(stages.value[i])), f.fields))
  }

  /** The angel rows as entries, or the first error. */
  function AngelEntries(angels: seq<AngelRow>): (r: Result<seq<Entry>>)
    ensures r.Ok? <==> forall i :: 0 <= i < |angels| ==> AngelEntry(angels[i]).Ok?
    ensures r.Ok? ==> |r.value| == |angels| && forall i :: 0 <= i < |angels| ==> r.value[i] == AngelEntry(angels[i]).value
  {
    MapAll(angels, AngelEntry)
  }

  /** The fund rows as entries, or the first error. */
  function FundEntries(funds: seq<FundRow>, show: Value -> string): (r: Result<seq<Entry>>)
    ensures r.Ok? <==> forall i :: 0 <= i < |funds| ==> FundEntry(funds[i], show).Ok?
    ensures r.Ok? ==> |r.value| == |funds| && forall i :: 0 <= i < |funds| ==> r.value[i] == FundEntry(funds[i], show).value
  {
    MapAll(funds, f => FundEntry(f, show))
  }

  /** All rows as entries, angels first, or the first error. */
  function Entries(angels: seq<AngelRow>, funds: seq<FundRow>, show: Value -> string): (r: Result<seq<Entry>>)
    ensures r.Ok? <==> AngelEntries(angels).Ok? && FundEntries(funds, show).Ok?
    ensures r.Ok? ==> r.value == AngelEntries(angels).value + FundEntries(funds, show).value
    ensures r.Ok? ==> |r.value| == |angels| + |funds|
  {
    var a := AngelEntries(angels);
    var f := FundEntries(funds, show);
    if a.Err? then Err(a.message)
    else if f.Err? then Err(f.message)
    else Ok(a.value + f.value)
  }

  /** `_combine_search_results`: every row kept, ordered by relevance and then
      score, highest first, ties in input order. */
  function CombineSearchResults(angels: seq<AngelRow>, funds: seq<FundRow>, show: Value -> string): (r: Result<seq<Entry>>)
    ensures r.Ok? <==> Entries(angels, funds, show).Ok?
    ensures r.Ok? ==> |r.value| == |angels| + |funds|
    ensures r.Ok? ==> multiset(r.value) == multiset(Entries(angels, funds, show).value)
    ensures r.Ok? ==> SortedDesc(r.value, EntryKey)
    ensures r.Ok? ==> forall k :: WithKey(r.value, EntryKey, k) == WithKey(Entries(angels, funds, show).value, EntryKey, k)
  {
    match Entries(angels, funds, show)
    case Err(e) => Err(e)
    case Ok(all) => Ok(SortDesc(all, EntryKey))
  }

  // ---------------------------------------------------------------- the search

  /** The engine's answer, without ids and timestamps. */
  datatype EngineSearch = EngineSearch(
    results: seq<Entry>,
    angelsFound: nat,
    fundsFound: nat,
    distribution: Distribution,
    angelLimit: int,
    fundLimit: int)

  /** `search_investors` of the engine: refuses a search with nothing to look
      for; otherwise splits the limit, takes the rows the two queries returned
      for those limits, merges them and keeps the first `limit`. */
  function EngineSearchInvestors(keywords: seq<string>, stages: seq<string>, categories: seq<string>, limit: int,
                                 angels: seq<AngelRow>, funds: seq<FundRow>, show: Value -> string): (r: Result<EngineSearch>)
    ensures keywords == [] && stages == [] && categories == [] ==> r == Err("At least one search parameter is required")
    ensures (keywords != [] || stages != [] || categories != []) ==> (r.Ok? <==> CombineSearchResults(angels, funds, show).Ok?)
    ensures r.Ok? ==>
      && r.value.distribution == SearchDistribution(stages)
      && r.value.angelLimit == PoolLimit(limit, r.value.distribution.angels) >= 1
      && r.value.fundLimit == PoolLimit(limit, r.value.distribution.funds) >= 1
      && r.value.angelsFound == |angels| && r.value.fundsFound == |funds|
      && r.value.results == SliceTo(CombineSearchResults(angels, funds, show).value, limit)
      && (limit >= 0 ==> |r.value.results| <= limit)
      && SortedDesc(r.value.results, EntryKey)
  {
    if keywords == [] && stages == [] && categories == [] then Err("At least one search parameter is required")
    else
      var d := SearchDistribution(stages);
      match CombineSearchResults(angels, funds, show)
      case Err(e) => Err(e)
      case Ok(all) =>
        var results := SliceTo(all, limit);
        assert SortedDesc(results, EntryKey) by {
          assert results == all[..|results|];
        }
        Ok(EngineSearch(results, |angels|, |funds|, d, PoolLimit(limit, d.angels), PoolLimit(limit, d.funds)))
  }
}

=== FILE: investor_ranking.dfy ===
/** The investor search of the assistant (app/ai_systems/search_investors.py):
    the eligibility gate, the stage-dependent split between business angels and
    funds, the fund score with its employee bonus, the blended ranking, and the
    clean-up of the model's keyword list. Database rows arrive as sequences. */
module InvestorRanking {
  import opened Wrappers
  import opened Text
  import opened Json
  import opened Seqs
  import opened Ranking

  // ---------------------------------------------------------------- eligibility

  const MinCompleteness: real := 50.0

  /** The answer of `can_search_investors`. */
  datatype Eligibility = Eligibility(allowed: bool, message: string)

  const ReadyMessage := "Proyecto listo para búsqueda de inversores"
  const ErrorMessage := "Error al verificar elegibilidad para búsqueda"
  const ShortfallPrefix := "Necesitas al menos 50% de completitud. Falta: "
  const MissingStage := "etapa del proyecto"
  const MissingCategories := "categorías del negocio"

  /** The number Python compares with 50.0: a number, or a boolean as 0 or 1;
      any other value makes the comparison raise. An absent score is 0.0. */
  function ScoreOf(v: Option<Value>): Option<real> {
    match v
    case None => Some(0.0)
    case Some(Num(n)) => Some(n)
    case Some(Bool(b)) => Some(if b then 1.0 else 0.0)
    case Some(_) => None
  }

  /** Python's `len(v)`, defined on strings, lists and dicts only. */
  predicate Sized(v: Value) {
    v.Str? || v.Arr? || v.Obj?
  }

  /** The missing pieces named in the refusal, stage first. */
  function MissingInfo(stage: Value, categories: Value): (r: seq<string>)
    ensures MissingStage in r <==> !Truthy(stage)
    ensures MissingCategories in r <==> !Truthy(categories)
    ensures |r| <= 2 && (|r| == 2 ==> r == [MissingStage, MissingCategories])
  {
    (if !Truthy(stage) then [MissingStage] else []) + (if !Truthy(categories) then [MissingCategories] else [])
  }

  /** `can_search_investors`: allowed exactly when the completeness score is at
      least 50; a refusal lists the missing stage and categories (possibly
      neither), and a comparison or `len` that raises gives the error answer. */
  function CanSearchInvestors(data: Fields): (r: Eligibility)
    ensures r.allowed <==> ScoreOf(Get(data, "completeness_score")).Some?
                           && ScoreOf(Get(data, "completeness_score")).value >= MinCompleteness
    ensures r.allowed ==> r.message == ReadyMessage
    ensures ScoreOf(Get(data, "completeness_score")).None? ==> r == Eligibility(false, ErrorMessage)
    ensures var stage, cats := Get(data, "stage").GetOr(Null), Get(data, "categories").GetOr(Arr([]));
      ScoreOf(Get(data, "completeness_score")).Some? && ScoreOf(Get(data, "completeness_score")).value < MinCompleteness ==>
        if Truthy(cats) && !Sized(cats) then r == Eligibility(false, ErrorMessage)
        else r == Eligibility(false, ShortfallPrefix + Join(MissingInfo(stage, cats), ", "))
  {
    match ScoreOf(Get(data, "completeness_score"))
    case None => Eligibility(false, ErrorMessage)
    case Some(score) =>
      if score >= MinCompleteness then Eligibility(true, ReadyMessage)
      else
        var stage, cats := Get(data, "stage").GetOr(Null), Get(data, "categories").GetOr(Arr([]));
        if Truthy(cats) && !Sized(cats) then Eligibility(false, ErrorMessage)
        else Eligibility(false, ShortfallPrefix + Join(MissingInfo(stage, cats), ", "))
  }

  /** The gate looks at the score only: a profile with a high score passes
      whatever its stage and categories, and one with a low score is refused
      even when both are present. */
  lemma EligibilityIgnoresProfile(data: Fields, stage: Value, categories: Value)
    requires ScoreOf(Get(data, "completeness_score")).Some?
    ensures CanSearchInvestors(Set(Set(data, "stage", stage), "categories", categories)).allowed
            == CanSearchInvestors(data).allowed
  {
    var d := Set(Set(data, "stage", stage), "categories", categories);
    assert Get(d, "completeness_score") == Get(data, "completeness_score");
  }

  // ---------------------------------------------------------------- stage weights

  /** The share of the search given to angels and to funds. */
  datatype PoolWeights = PoolWeights(angels: real, funds: real)

  const EarlyTerms: seq<string> := ["pre-seed", "preseed", "idea", "prototype", "mvp"]
  const SeedTerms: seq<string> := ["seed", "semilla"]
  const LaterTerms: seq<string> := ["series a", "series b", "serie a", "serie b", "growth", "expansion"]
  const LateTerms: seq<string> := ["series c", "serie c", "late stage", "mezzanine", "ipo"]

  const DefaultWeights := PoolWeights(0.6, 0.4)

  /** `_calculate_stage_weights`: bands tried in order on the lower-cased
      stage, the first that matches wins; no stage, or none matching, gives the
      default. A truthy stage that is not a string has no `.lower()` and raises. */
  function StageWeights(stage: Value): (r: Result<PoolWeights>)
    ensures r.Err? <==> Truthy(stage) && !stage.Str?
    ensures r.Ok? ==> r.value.angels + r.value.funds == 1.0 && 0.0 < r.value.angels < 1.0
    ensures !Truthy(stage) ==> r == Ok(DefaultWeights)
    ensures stage.Str? && stage.s != "" ==>
      var t := Lower(stage.s);
      && (AnyContained(t, EarlyTerms) ==> r == Ok(PoolWeights(0.8, 0.2)))
      && (!AnyContained(t, EarlyTerms) && AnyContained(t, SeedTerms) ==> r == Ok(PoolWeights(0.6, 0.4)))
      && (!AnyContained(t, EarlyTerms) && !AnyContained(t, SeedTerms) && AnyContained(t, LaterTerms)
          ==> r == Ok(PoolWeights(0.3, 0.7)))
      && ((!AnyContained(t, EarlyTerms) && !AnyContained(t, SeedTerms) && !AnyContained(t, LaterTerms)
           && AnyContained(t, LateTerms)) ==> r == Ok(PoolWeights(0.1, 0.9)))
      && ((!AnyContained(t, EarlyTerms) && !AnyContained(t, SeedTerms) && !AnyContained(t, LaterTerms)
           && !AnyContained(t, LateTerms)) ==> r == Ok(DefaultWeights))
  {
    if !Truthy(stage) then Ok(DefaultWeights)
    else if !stage.Str? then Err("AttributeError: object has no attribute 'lower'")
    else
      var t := Lower(stage.s);
      if AnyContained(t, EarlyTerms) then Ok(PoolWeights(0.8, 0.2))
      else if AnyContained(t, SeedTerms) then Ok(PoolWeights(0.6, 0.4))
      else if AnyContained(t, LaterTerms) then Ok(PoolWeights(0.3, 0.7))
      else if AnyContained(t, LateTerms) then Ok(PoolWeights(0.1, 0.9))
      else Ok(DefaultWeights)
  }

  /** Stage matching ignores case. */
  lemma StageWeightsIgnoreCase(s: string)
    ensures StageWeights(Str(Lower(s))) == StageWeights(Str(s))
  {
    LowerIdempotent(s);
    assert Lower(s) == "" <==> s == "";
  }

  // ---------------------------------------------------------------- combining

  /** An angel row: the pass-through columns and its `angel_score`. */
  datatype Angel = Angel(row: Fields, score: real)

  /** A fund row: the pass-through columns and its name. */
  datatype Fund = Fund(row: Fields, name: Value)

  datatype Employee = Employee(row: Fields, fundName: Value)

  /** One entry of the combined list. */
  datatype Investor =
    | AngelInvestor(angel: Angel, finalScore: real)
    | FundInvestor(fund: Fund, employees: seq<Employee>, score: real, finalScore: real)

  function FinalKey(x: Investor): Key {
    Key(x.finalScore, 0.0)
  }

  const MaxFundEmployees: nat := 5
  const FundBaseScore: real := 50.0
  const EmployeeBonus: real := 5.0
  const MaxInvestorResults: nat := 15

  /** The employees whose `fund_name` equals `name`, in order. */
  function EmployeesOf(employees: seq<Employee>, name: Value): (r: seq<Employee>)
    ensures |r| <= |employees|
    ensures forall e :: e in r <==> e in employees && e.fundName == name
  {
    if |employees| == 0 then []
    else (if employees[0].fundName == name then [employees[0]] else []) + EmployeesOf(employees[1..], name)
  }

  /** `min(50 + 5 * n, 100)`. */
  function FundScore(n: nat): (r: real)
    ensures FundBaseScore <= r <= 100.0
    ensures n <= 10 ==> r == FundBaseScore + EmployeeBonus * n as real
    ensures n >= 10 ==> r == 100.0
  {
    var s := FundBaseScore + EmployeeBonus * n as real;
    if s < 100.0 then s else 100.0
  }

  /** One fund: the first five of its employees attached, and a score of 50
      plus 5 for every employee (not only the five shown), at most 100. */
  function ScoreFund(fund: Fund, employees: seq<Employee>, w: PoolWeights): (r: Investor)
    ensures r.FundInvestor? && r.fund == fund
    ensures r.employees == Take(EmployeesOf(employees, fund.name), MaxFundEmployees)
    ensures r.score == FundScore(|EmployeesOf(employees, fund.name)|)
    ensures forall e :: e in r.employees ==> e in employees && e.fundName == fund.name
    ensures FundScored(r, w)
  {
    var mine := EmployeesOf(employees, fund.name);
    var score := FundScore(|mine|);
    ShownEmployees(employees, fund.name);
    FundEntryScored(fund, Take(mine, MaxFundEmployees), score, w);
    FundInvestor(fund, Take(mine, MaxFundEmployees), score, score * w.funds)
  }

  lemma FundEntryScored(fund: Fund, shown: seq<Employee>, score: real, w: PoolWeights)
    requires FundBaseScore <= score <= 100.0 && |shown| <= MaxFundEmployees
    ensures FundScored(FundInvestor(fund, shown, score, score * w.funds), w)
  {
  }

  /** The employees shown for a fund work there. */
  lemma ShownEmployees(employees: seq<Employee>, name: Value)
    ensures forall e :: e in Take(EmployeesOf(employees, name), MaxFundEmployees) ==> e in employees && e.fundName == name
  {
    var mine := EmployeesOf(employees, name);
    TakeWithin(mine, MaxFundEmployees);
  }

  lemma TakeWithin<T>(s: seq<T>, n: nat)
    ensures forall x :: x in Take(s, n) ==> x in s
  {
    var t := Take(s, n);
    forall x | x in t ensures x in s {
      var i :| 0 <= i < |t| && t[i] == x;
      assert s[i] == x;
    }
  }

  /** Every angel, then every fund, each with its final score. */
  function Scored(angels: seq<Angel>, funds: seq<Fund>, employees: seq<Employee>, w: PoolWeights): (r: seq<Investor>)
    ensures |r| == |angels| + |funds|
    ensures forall i :: 0 <= i < |angels| ==> r[i] == ScoreAngel(angels[i], w)
    ensures forall i :: 0 <= i < |funds| ==> r[|angels| + i] == ScoreFund(funds[i], employees, w)
  {
    ScoreAngels(angels, w) + ScoreFunds(funds, employees, w)
  }

  /** An angel's final score: its own score times the angels' weight. */
  function ScoreAngel(a: Angel, w: PoolWeights): (r: Investor)
    ensures r.AngelInvestor? && r.angel == a
    ensures r.finalScore == a.score * w.angels
  {
    AngelInvestor(a, a.score * w.angels)
  }

  function ScoreAngels(angels: seq<Angel>, w: PoolWeights): (r: seq<Investor>)
    ensures |r| == |angels|
    ensures forall i :: 0 <= i < |angels| ==> r[i] == ScoreAngel(angels[i], w)
  {
    seq(|angels|, i requires 0 <= i < |angels| => ScoreAngel(angels[i], w))
  }

  function ScoreFunds(funds: seq<Fund>, employees: seq<Employee>, w: PoolWeights): (r: seq<Investor>)
    ensures |r| == |funds|
    ensures forall i :: 0 <= i < |funds| ==> r[i] == ScoreFund(funds[i], employees, w)
  {
    seq(|funds|, i requires 0 <= i < |funds| => ScoreFund(funds[i], employees, w))
  }

  /** `_combine_results`: the 15 best of all scored angels and funds, best
      first; equal scores keep angels-then-funds input order. */
  function CombineResults(angels: seq<Angel>, funds: seq<Fund>, employees: seq<Employee>, w: PoolWeights): (r: seq<Investor>)
    ensures |r| == if |angels| + |funds| < MaxInvestorResults then |angels| + |funds| else MaxInvestorResults
    ensures SortedDesc(r, FinalKey)
    ensures multiset(r) <= multiset(Scored(angels, funds, employees, w))
    ensures forall i, y :: 0 <= i < |r| && y in multiset(Scored(angels, funds, employees, w)) - multiset(r)
                           ==> r[i].finalScore >= y.finalScore
    ensures forall k :: WithKey(r, FinalKey, k) <= WithKey(Scored(angels, funds, employees, w), FinalKey, k)
  {
    var all := Scored(angels, funds, employees, w);
    var r := TopK(all, FinalKey, MaxInvestorResults);
    assert forall i, y :: 0 <= i < |r| && y in multiset(all) - multiset(r) ==> r[i].finalScore >= y.finalScore by {
      forall i, y | 0 <= i < |r| && y in multiset(all) - multiset(r) ensures r[i].finalScore >= y.finalScore {
        assert KeyGe(FinalKey(r[i]), FinalKey(y));
      }
    }
    r
  }

  /** A fund entry scoring between 50 and 100, its final score that times the
      funds' weight, and at most five employees attached. */
  predicate FundScored(x: Investor, w: PoolWeights) {
    x.FundInvestor? ==>
      && FundBaseScore <= x.score <= 100.0 && x.finalScore == x.score * w.funds
      && |x.employees| <= MaxFundEmployees
  }

  /** Every fund in the combined list is scored within bounds. */
  lemma CombinedFundsBounded(angels: seq<Angel>, funds: seq<Fund>, employees: seq<Employee>, w: PoolWeights)
    ensures forall x :: x in CombineResults(angels, funds, employees, w) ==> FundScored(x, w)
  {
    var all := Scored(angels, funds, employees, w);
    var r := CombineResults(angels, funds, employees, w);
    forall x | x in r ensures FundScored(x, w) {
      assert x in multiset(r);
      assert x in multiset(all);
      var k :| 0 <= k < |all| && all[k] == x;
      if k >= |angels| {
        assert all[k] == ScoreFund(funds[k - |angels|], employees, w);
      }
    }
  }

  /** With no employee rows, which is what the employee lookup currently
      returns, every fund scores exactly 50. */
  lemma NoEmployeesFlatFundScore(fund: Fund, w: PoolWeights)
    ensures ScoreFund(fund, [], w).score == FundBaseScore
    ensures ScoreFund(fund, [], w).employees == []
  {
  }

  // ---------------------------------------------------------------- keywords

  const MaxKeywords: nat := 25

  /** `kw.lower()` as a de-duplication key; only strings have it. */
  function LowerKey(v: Value): string {
    if v.Str? then Lower(v.s) else ""
  }

  predicate AllStrings(xs: seq<Value>) {
    forall i :: 0 <= i < |xs| ==> xs[i].Str?
  }

  /** The keyword list before de-duplication: the model's comma-separated
      keywords trimmed, then the categories (when truthy), then the stage (when
      truthy). */
  function CandidateKeywords(reply: string, categories: Value, stage: Value): (r: Result<seq<Value>>)
    ensures r.Err? <==> Truthy(categories) && (categories.Num? || categories.Bool?)
    ensures r.Ok? ==> |r.value| >= |SplitTrimmed(reply, ',')|
    ensures r.Ok? ==> forall i :: 0 <= i < |SplitTrimmed(reply, ',')| ==> r.value[i] == Str(SplitTrimmed(reply, ',')[i])
    ensures r.Ok? && Truthy(stage) ==> |r.value| > 0 && r.value[|r.value| - 1] == stage
    ensures r.Ok? ==>
      var n, m := |SplitTrimmed(reply, ',')|, if Truthy(stage) then 1 else 0;
      && n + m <= |r.value|
      && r.value[n..|r.value| - m] == if Truthy(categories) then Iterate(categories).value else []
  {
    var words := SplitTrimmed(reply, ',');
    var base := seq(|words|, i requires 0 <= i < |words| => Str(words[i]));
    var cats := if Truthy(categories) then Iterate(categories) else Ok([]);
    match cats
    case Err(e) => Err(e)
    case Ok(c) => Ok(base + c + (if Truthy(stage) then [stage] else []))
  }

  /** The main path of the clean-up: first spelling of every lower-cased
      keyword, at most 25. */
  function UniqueKeywords(c: seq<Value>): (r: seq<Value>)
    requires AllStrings(c)
    ensures |r| <= MaxKeywords
    ensures AllStrings(r)
    ensures DistinctKeys(r, LowerKey)
    ensures forall i :: 0 <= i < |r| ==> r[i] in c
    ensures |KeySet(c, LowerKey)| <= MaxKeywords ==> KeySet(r, LowerKey) == KeySet(c, LowerKey)
    ensures r == Take(FirstByKey(c, LowerKey), MaxKeywords)
  {
    var unique := FirstByKey(c, LowerKey);
    DistinctKeySetSize(unique, LowerKey);
    var kept := Take(unique, MaxKeywords);
    assert forall i :: 0 <= i < |kept| ==> kept[i] == unique[i];
    assert forall i :: 0 <= i < |unique| ==> unique[i] in c;
    kept
  }

  /** The keyword clean-up of `_extract_search_keywords`. The main path keeps
      the first keyword of every case-insensitive spelling and at most 25 of
      them; a non-string keyword has no `.lower()`, which sends the function to
      its fallback: the categories and the stage alone, unfiltered. Categories
      that cannot be iterated make the fallback raise as well. */
  function SearchKeywords(reply: string, categories: Value, stage: Value): (r: Result<seq<Value>>)
    ensures r.Err? <==> Truthy(categories) && (categories.Num? || categories.Bool?)
    ensures var c := CandidateKeywords(reply, categories, stage);
      c.Ok? && AllStrings(c.value) ==> r == Ok(UniqueKeywords(c.value))
    ensures var c := CandidateKeywords(reply, categories, stage);
      c.Ok? && !AllStrings(c.value) ==>
        r == Ok((if Truthy(categories) then Iterate(categories).value else []) + (if Truthy(stage) then [stage] else []))
  {
    match CandidateKeywords(reply, categories, stage)
    case Err(e) => Err(e)
    case Ok(c) =>
      if AllStrings(c) then Ok(UniqueKeywords(c))
      else
        var cats := if Truthy(categories) then Iterate(categories).value else [];
        Ok(cats + (if Truthy(stage) then [stage] else []))
  }

  /** Running the clean-up on its own output, with nothing added, returns it:
      the main path's list is already de-duplicated and short. */
  lemma FirstByKeyTakeStable(xs: seq<Value>)
    requires DistinctKeys(xs, LowerKey) && |xs| <= MaxKeywords
    ensures Take(FirstByKey(xs, LowerKey), MaxKeywords) == xs
  {
    FirstByKeyOfDistinct(xs, LowerKey);
  }

  /** A sequence with distinct keys has as many keys as elements. */
  lemma {:induction false} DistinctKeySetSize<T, K>(xs: seq<T>, key: T -> K)
    requires DistinctKeys(xs, key)
    ensures |KeySet(xs, key)| == |xs|
    decreases |xs|
  {
    if |xs| > 0 {
      var init, last := xs[..|xs| - 1], xs[|xs| - 1];
      assert xs == init + [last];
      DistinctKeySetSize(init, key);
      KeySetAppend(init, [last], key);
      assert KeySet([last], key) == {key(last)};
      assert key(last) !in KeySet(init, key);
    }
  }

  // ---------------------------------------------------------------- the search

  /** What `search_investors` returns, without its timing metadata. */
  datatype InvestorSearch = InvestorSearch(
    results: seq<Investor>,
    totalAngels: nat,
    totalFunds: nat,
    keywords: seq<Value>,
    weights: PoolWeights)

  /** `search_investors` over the rows the two table queries returned: keywords,
      then the stage weights, then the combined ranking. The employee lookup
      returns no rows. A failure in the keyword fallback or in the stage
      weights is raised to the caller. */
  function SearchInvestors(reply: string, project: Fields, angels: seq<Angel>, funds: seq<Fund>): (r: Result<InvestorSearch>)
    ensures var kw := SearchKeywords(reply, Get(project, "categories").GetOr(Arr([])), Get(project, "stage").GetOr(Str("")));
            var w := StageWeights(Get(project, "stage").GetOr(Null));
      && (r.Ok? <==> kw.Ok? && w.Ok?)
      && (r.Ok? ==> r.value == InvestorSearch(CombineResults(angels, funds, [], w.value), |angels|, |funds|, kw.value, w.value))
    ensures r.Ok? ==> |r.value.results| <= MaxInvestorResults && SortedDesc(r.value.results, FinalKey)
  {
    var kw := SearchKeywords(reply, Get(project, "categories").GetOr(Arr([])), Get(project, "stage").GetOr(Str("")));
    var w := StageWeights(Get(project, "stage").GetOr(Null));
    if kw.Err? then Err(kw.message)
    else if w.Err? then Err(w.message)
    else Ok(InvestorSearch(CombineResults(angels, funds, [], w.value), |angels|, |funds|, kw.value, w.value))
  }

  /** Every fund in a search result scores exactly 50 before weighting. */
  lemma SearchFundsScoreFifty(reply: string, project: Fields, angels: seq<Angel>, funds: seq<Fund>)
    ensures SearchInvestors(reply, project, angels, funds).Ok? ==>
      var r := SearchInvestors(reply, project, angels, funds).value;
      forall x :: x in r.results && x.FundInvestor? ==> x.score == FundBaseScore && x.employees == []
  {
    if SearchInvestors(reply, project, angels, funds).Err? {
      return;
    }
    var r := SearchInvestors(reply, project, angels, funds).value;
    var all := Scored(angels, funds, [], r.weights);
    forall x | x in r.results && x.FundInvestor? ensures x.score == FundBaseScore && x.employees == [] {
      assert x in multiset(r.results);
      assert x in multiset(all);
      var k :| 0 <= k < |all| && all[k] == x;
      assert k >= |angels|;
      NoEmployeesFlatFundScore(funds[k - |angels|], r.weights);
    }
  }
}

=== FILE: json.dfy ===
/** The values `json.loads` produces, as the extraction and decision code sees
    them, and Python's truth test on them. */
module Json {
  import opened Wrappers
  import opened Seqs

  /** An object is an association list in insertion order, as a Python dict is;
      the model never holds two entries with one key (see `Get`, `Set`). */
  datatype Value =
    | Null
    | Bool(b: bool)
    | Num(n: real)
    | Str(s: string)
    | Arr(items: seq<Value>)
    | Obj(fields: seq<(string, Value)>)

  /** The entries of a JSON object, in order. */
  type Fields = seq<(string, Value)>

  /** Python's `bool(v)`: `None`, `False`, zero and empty containers are false. */
  predicate Truthy(v: Value) {
    match v
    case Null => false
    case Bool(b) => b
    case Num(n) => n != 0.0
    case Str(s) => s != ""
    case Arr(items) => items != []
    case Obj(fields) => fields != []
  }

  /** Whether a value can be put in a Python `set` (lists and dicts cannot). */
  predicate Hashable(v: Value) {
    !v.Arr? && !v.Obj?
  }

  /** The value Python's `==` and `hash` see: `True == 1 == 1.0` and
      `False == 0 == 0.0`, so a set holds at most one of each such group. */
  function PyKey(v: Value): Value {
    if v.Bool? then Num(if v.b then 1.0 else 0.0) else v
  }

  /** The classes of Python-equal values that `xs` holds. */
  function Classes(xs: seq<Value>): set<Value> {
    KeySet(xs, PyKey)
  }

  /** `list(set(xs))` over hashable values: each class of Python-equal
      elements once, represented by its first element, since a set keeps the
      element inserted first (`SetListFirstOfClass`). Python leaves the order
      unspecified; the model keeps the order of first occurrence. */
  function SetList(xs: seq<Value>): (r: seq<Value>)
    ensures forall i :: 0 <= i < |r| ==> r[i] in xs
    ensures Classes(r) == Classes(xs)
    ensures forall x :: x in xs && !x.Bool? && !x.Num? ==> x in r
    ensures forall i, j :: 0 <= i < j < |r| ==> PyKey(r[i]) != PyKey(r[j])
  {
    var r := FirstByKey(xs, PyKey);
    SetListKeepsPlain(xs, r);
    r
  }

  /** A value that is neither a boolean nor a number is Python-equal only to
      itself, so it survives the de-duplication unchanged. */
  lemma SetListKeepsPlain(xs: seq<Value>, r: seq<Value>)
    requires r == FirstByKey(xs, PyKey)
    ensures forall x :: x in xs && !x.Bool? && !x.Num? ==> x in r
  {
    FirstByKeyCovers(xs, PyKey, r);
    forall x | x in xs && !x.Bool? && !x.Num? ensures x in r {
      var j :| 0 <= j < |xs| && xs[j] == x;
      var i :| 0 <= i < |r| && PyKey(r[i]) == PyKey(xs[j]);
      assert r[i] == x;
    }
  }

  /** The element `list(set(xs))` keeps for a class of Python-equal values
      occurs no later than any other member of the class: `set([True, 1.0])`
      is `{True}`. */
  lemma SetListFirstOfClass(xs: seq<Value>, i: int, k: int)
    requires 0 <= i < |SetList(xs)| && 0 <= k < |xs|
    requires PyKey(xs[k]) == PyKey(SetList(xs)[i])
    ensures SetList(xs)[i] in xs[..k + 1]
  {
    var r := FirstByKey(xs, PyKey);
    assert r == SetList(xs);
    FirstByKeyKeepsFirst(xs, PyKey);
    var j :| 0 <= j < |xs| && xs[j] == r[i] && PyKey(xs[j]) !in KeySet(xs[..j], PyKey);
    forall t | 0 <= t < j ensures PyKey(xs[t]) in KeySet(xs[..j], PyKey) {
      assert xs[..j][t] == xs[t];
    }
    assert j <= k;
    assert xs[..k + 1][j] == xs[j];
  }

  function Keys(fields: seq<(string, Value)>): set<string> {
    set i | 0 <= i < |fields| :: fields[i].0
  }

  lemma KeysCons(p: (string, Value), rest: seq<(string, Value)>)
    ensures Keys([p] + rest) == {p.0} + Keys(rest)
  {
    var l := [p] + rest;
    assert l[0] == p;
    forall k | k in Keys(rest) ensures k in Keys(l) {
      var i :| 0 <= i < |rest| && rest[i].0 == k;
      assert l[i + 1].0 == k;
    }
    forall k | k in Keys(l) ensures k in {p.0} + Keys(rest) {
      var i :| 0 <= i < |l| && l[i].0 == k;
      if i > 0 { assert rest[i - 1].0 == k; }
    }
  }

  /** Looking up a key in a one-entry record. */
  lemma GetOne(k: string, v: Value, key: string)
    ensures Get([(k, v)], key) == if key == k then Some(v) else None
  {
    assert [(k, v)][1..] == [];
  }

  /** Looking up a key in a two-entry record. */
  lemma GetPair(k1: string, v1: Value, k2: string, v2: Value, key: string)
    ensures Get([(k1, v1), (k2, v2)], key) == if key == k1 then Some(v1) else if key == k2 then Some(v2) else None
  {
    assert [(k1, v1), (k2, v2)][1..] == [(k2, v2)];
    GetOne(k2, v2, key);
  }

  function Get(fields: seq<(string, Value)>, key: string): (r: Option<Value>)
    ensures r.Some? <==> key in Keys(fields)
    ensures r.Some? ==> (key, r.value) in fields
  {
    if |fields| == 0 then None
    else if fields[0].0 == key then Some(fields[0].1)
    else
      var rest := Get(fields[1..], key);
      KeysCons(fields[0], fields[1..]);
      assert fields == [fields[0]] + fields[1..];
      rest
  }

  /** `d[key] = v`: replaces the value in place, or appends a new entry. */
  function Set(fields: seq<(string, Value)>, key: string, v: Value): (r: seq<(string, Value)>)
    ensures Keys(r) == Keys(fields) + {key}
    ensures Get(r, key) == Some(v)
    ensures forall k :: k != key ==> Get(r, k) == Get(fields, k)
  {
    if |fields| == 0 then
      KeysCons((key, v), []);
      [(key, v)]
    else if fields[0].0 == key then
      KeysCons(fields[0], fields[1..]);
      KeysCons((key, v), fields[1..]);
      assert fields == [fields[0]] + fields[1..];
      [(key, v)] + fields[1..]
    else
      var rest := Set(fields[1..], key, v);
      KeysCons(fields[0], fields[1..]);
      KeysCons(fields[0], rest);
      assert fields == [fields[0]] + fields[1..];
      [fields[0]] + rest
  }

  /** Looking a key up in two concatenated entry lists finds the first list's entry first. */
  lemma GetAppend(a: seq<(string, Value)>, b: seq<(string, Value)>, key: string)
    ensures Get(a + b, key) == if key in Keys(a) then Get(a, key) else Get(b, key)
  {
    if |a| > 0 {
      assert (a + b)[0] == a[0];
      assert (a + b)[1..] == a[1..] + b;
      GetAppend(a[1..], b, key);
      KeysCons(a[0], a[1..]);
      assert a == [a[0]] + a[1..];
    } else {
      assert a + b == b;
    }
  }

  /** `list(d.keys())`. */
  function KeyList(fields: seq<(string, Value)>): (r: seq<string>)
    ensures |r| == |fields|
    ensures forall i :: 0 <= i < |r| ==> r[i] == fields[i].0
  {
    if |fields| == 0 then [] else [fields[0].0] + KeyList(fields[1..])
  }

  /** `dict.get(key)` on any value: non-objects have no entries. */
  function Field(v: Value, key: string): Option<Value> {
    if v.Obj? then Get(v.fields, key) else None
  }

  /** `str(v)`: a string is itself; `show` renders every other value. */
  function Show(v: Value, show: Value -> string): string {
    if v.Str? then v.s else show(v)
  }

  function ShowAll(vs: seq<Value>, show: Value -> string): (r: seq<string>)
    ensures |r| == |vs|
    ensures forall i :: 0 <= i < |vs| ==> r[i] == Show(vs[i], show)
  {
    seq(|vs|, i requires 0 <= i < |vs| => Show(vs[i], show))
  }

  /** What `list.extend(v)` adds: a list's items, a string's characters, a
      dict's keys; `None`, numbers and booleans are not iterable and raise. */
  function Iterate(v: Value): (r: Result<seq<Value>>)
    ensures r.Err? <==> v.Null? || v.Num? || v.Bool?
    ensures v.Arr? ==> r == Ok(v.items)
    ensures v.Str? ==> r.Ok? && |r.value| == |v.s|
    ensures v.Str? ==> forall i :: 0 <= i < |v.s| ==> r.value[i] == Str([v.s[i]])
    ensures v.Obj? ==> r.Ok? && |r.value| == |v.fields|
    ensures v.Obj? ==> forall i :: 0 <= i < |v.fields| ==> r.value[i] == Str(v.fields[i].0)
  {
    match v
    case Arr(items) => Ok(items)
    case Str(s) => Ok(seq(|s|, i requires 0 <= i < |s| => Str([s[i]])))
    case Obj(fields) => Ok(seq(|fields|, i requires 0 <= i < |fields| => Str(fields[i].0)))
    case _ => Err("TypeError: object is not iterable")
  }
}

=== FILE: judge.dfy ===
/** The judge (app/ai_systems/judge_system.py): it asks a language model which
    action a message calls for, checks the JSON reply, and falls back to a
    keyword rule whenever anything on the way fails. The model call, the
    JSON decoder and the decision engine are inputs. */
module Judge {
  import opened Wrappers
  import opened Text
  import opened Json

  // ---------------------------------------------------------------- reply cleaning

  const Fence: string := "```"

  /** `"\n".join(lines[1:-1])`: the text without its first and last lines. */
  function Unfence(text: string): string {
    var lines := SplitOn(text, '\n');
    Join(if |lines| >= 2 then lines[1..|lines| - 1] else [], "\n")
  }

  /** The reply stripped, and unfenced when it opens with a code fence. */
  function Cleaned(reply: string): (r: string)
    ensures !StartsWith(Strip(reply), Fence) ==> r == Strip(reply)
  {
    var text := Strip(reply);
    if StartsWith(text, Fence) then Unfence(text) else text
  }

  /** A reply wrapped in a fenced block, with any info string on the opening
      line, is cleaned back to the block's body. */
  lemma CleanedUnwrapsFence(info: string, body: string)
    requires '\n' !in info
    ensures Cleaned(Fence + info + "\n" + body + "\n" + Fence) == body
  {
    var text := Fence + info + "\n" + body + "\n" + Fence;
    assert text[0] == '`' && text[|text| - 1] == '`';
    StripFixesTrimmed(text);
    assert text[..3] == Fence;
    assert text == (Fence + info) + ['\n'] + (body + ['\n'] + Fence);
    SplitOnHead(Fence + info, '\n', body + ['\n'] + Fence);
    SplitOnTail(body, '\n', Fence);
    var lines := SplitOn(text, '\n');
    assert lines == [Fence + info] + SplitOn(body, '\n') + [Fence];
    assert lines[1..|lines| - 1] == SplitOn(body, '\n');
  }

  // ---------------------------------------------------------------- probabilities

  /** What Python's `sum` makes of a JSON value: numbers, and booleans as 0 or 1. */
  function NumberOf(v: Value): Option<real> {
    match v
    case Num(n) => Some(n)
    case Bool(b) => Some(if b then 1.0 else 0.0)
    case _ => None
  }

  predicate AllNumbers(fields: Fields) {
    forall i :: 0 <= i < |fields| ==> NumberOf(fields[i].1).Some?
  }

  function Total(fields: Fields): real
    requires AllNumbers(fields)
  {
    if |fields| == 0 then 0.0 else NumberOf(fields[0].1).value + Total(fields[1..])
  }

  /** Every value divided by `s`, keys and order kept. */
  function Normalize(fields: Fields, s: real): (r: Fields)
    requires AllNumbers(fields) && s != 0.0
    ensures |r| == |fields| && AllNumbers(r)
    ensures forall i :: 0 <= i < |r| ==> r[i] == (fields[i].0, Num(NumberOf(fields[i].1).value / s))
  {
    seq(|fields|, i requires 0 <= i < |fields| => (fields[i].0, Num(NumberOf(fields[i].1).value / s)))
  }

  lemma {:induction false} NormalizeTotal(fields: Fields, s: real)
    requires AllNumbers(fields) && s != 0.0
    ensures Total(Normalize(fields, s)) == Total(fields) / s
  {
    if |fields| > 0 {
      assert Normalize(fields, s)[1..] == Normalize(fields[1..], s);
      NormalizeTotal(fields[1..], s);
    }
  }

  function Abs(x: real): real {
    if x < 0.0 then -x else x
  }

  const Tolerance: real := 0.1

  function Invalid(why: string): string {
    "Invalid Gemini response format: " + why
  }

  /** The reply names a decision, a confidence, a reasoning and probabilities. */
  predicate HasRequired(fields: Fields) {
    && "decision" in Keys(fields) && "confidence" in Keys(fields)
    && "reasoning" in Keys(fields) && "probabilities" in Keys(fields)
  }

  /** The first required field the reply lacks, in the order they are checked. */
  function MissingField(fields: Fields): (r: Option<string>)
    ensures r.None? <==> HasRequired(fields)
    ensures r.Some? ==> r.value !in Keys(fields)
  {
    if "decision" !in Keys(fields) then Some("decision")
    else if "confidence" !in Keys(fields) then Some("confidence")
    else if "reasoning" !in Keys(fields) then Some("reasoning")
    else if "probabilities" !in Keys(fields) then Some("probabilities")
    else None
  }

  /** The probability check: kept when their sum is within the tolerance of
      one (or there are none), otherwise each divided by the sum, which fails
      when the sum is zero. */
  function CheckedProbabilities(p: Value): (r: Result<Fields>)
    ensures r.Ok? ==> p.Obj? && AllNumbers(p.fields) && AllNumbers(r.value) && |r.value| == |p.fields|
    ensures r.Ok? ==> forall i :: 0 <= i < |r.value| ==> r.value[i].0 == p.fields[i].0
    ensures r.Ok? && (p.fields == [] || Abs(Total(p.fields) - 1.0) <= Tolerance) ==> r.value == p.fields
    ensures r.Ok? && p.fields != [] && Abs(Total(p.fields) - 1.0) > Tolerance ==> Total(r.value) == 1.0
    ensures p.Obj? && AllNumbers(p.fields) ==> (r.Err? <==> p.fields != [] && Total(p.fields) == 0.0)
  {
    if !p.Obj? then Err("AttributeError: probabilities is not an object")
    else if !AllNumbers(p.fields) then Err("TypeError: a probability is not a number")
    else
      var s := Total(p.fields);
      if Abs(s - 1.0) <= Tolerance || p.fields == [] then Ok(p.fields)
      else if s == 0.0 then Err("ZeroDivisionError: float division by zero")
      else
        NormalizeTotal(p.fields, s);
        Ok(Normalize(p.fields, s))
  }

  /** The checks on the decoded reply. */
  function CheckReply(data: Value): (r: Result<Fields>)
    ensures r.Ok? ==> data.Obj? && HasRequired(data.fields) && HasRequired(r.value)
    ensures r.Ok? ==> Keys(r.value) == Keys(data.fields)
    ensures r.Ok? ==> var q := CheckedProbabilities(Get(data.fields, "probabilities").value);
      q.Ok? && Get(r.value, "probabilities") == Some(Obj(q.value))
    ensures data.Obj? && MissingField(data.fields).Some? ==>
      r == Err(Invalid("Missing required field: " + MissingField(data.fields).value))
  {
    if !data.Obj? then Err("TypeError: the reply is not an object")
    else match MissingField(data.fields)
    case Some(f) => Err(Invalid("Missing required field: " + f))
    case None =>
      var p := Get(data.fields, "probabilities").value;
      match CheckedProbabilities(p)
      case Err(e) => Err(e)
      case Ok(q) => if q == p.fields then Ok(data.fields) else Ok(Set(data.fields, "probabilities", Obj(q)))
  }

  /** `_parse_gemini_response`. `loads` is `json.loads`, `None` when the text
      is not JSON. */
  function ParseReply(reply: string, loads: string -> Option<Value>): (r: Result<Fields>)
    ensures loads(Cleaned(reply)).None? ==> r.Err?
    ensures loads(Cleaned(reply)).Some? ==> r == CheckReply(loads(Cleaned(reply)).value)
  {
    match loads(Cleaned(reply))
    case None => Err(Invalid("malformed JSON"))
    case Some(data) => CheckReply(data)
  }

  // ---------------------------------------------------------------- fallback

  datatype Probabilities = Probabilities(
    chat: real, searchInvestors: real, searchCompanies: real,
    welcome: real, upsell: real, completeness: real)

  /** What the judge pulled out of the message for a search. */
  datatype Extracted = Extracted(categories: seq<string>, stage: Option<string>)

  const NothingExtracted: Extracted := Extracted([], None)

  datatype Decision = Decision(
    decision: string, confidence: real, reasoning: string,
    probabilities: Probabilities, extracted: Option<Extracted>, urgencyLevel: int)

  const InvestorWords: seq<string> := ["inversor", "investment", "funding", "capital"]
  const CompanyWords: seq<string> := ["empresa", "servicio", "company", "service"]

  const FallbackReasoning: string := "Fallback decision based on keyword analysis"

  /** The fallback's probabilities, fixed by the decision it took. */
  function FallbackProbabilities(decision: string): (p: Probabilities)
    ensures p.welcome == 0.05 && p.upsell == 0.05 && p.completeness == 0.1
  {
    Probabilities(
      if decision == "chat" then 0.8 else 0.2,
      if decision == "search_investors" then 0.6 else 0.1,
      if decision == "search_companies" then 0.6 else 0.1,
      0.05, 0.05, 0.1)
  }

  /** `_create_fallback_decision`: investor words win over company words;
      anything else is a chat. The record the source builds from these values
      does not match its declared schema, so as written constructing it
      raises; the model keeps the values the code computes. */
  function FallbackDecision(message: string): (r: Decision)
    ensures AnyContained(Lower(message), InvestorWords) ==>
      r.decision == "search_investors" && r.confidence == 0.6
    ensures !AnyContained(Lower(message), InvestorWords) && AnyContained(Lower(message), CompanyWords) ==>
      r.decision == "search_companies" && r.confidence == 0.6
    ensures !AnyContained(Lower(message), InvestorWords) && !AnyContained(Lower(message), CompanyWords) ==>
      r.decision == "chat" && r.confidence == 0.8
    ensures r.probabilities == FallbackProbabilities(r.decision)
    ensures r.reasoning == FallbackReasoning && r.extracted == Some(NothingExtracted) && r.urgencyLevel == 3
  {
    var text := Lower(message);
    var (decision, confidence) :=
      if AnyContained(text, InvestorWords) then ("search_investors", 0.6)
      else if AnyContained(text, CompanyWords) then ("search_companies", 0.6)
      else ("chat", 0.8);
    Decision(decision, confidence, FallbackReasoning, FallbackProbabilities(decision), Some(NothingExtracted), 3)
  }

  /** The action the fallback takes is the one it gives the highest
      probability to, and that probability is its confidence. */
  lemma FallbackFavoursItsDecision(message: string)
    ensures var r := FallbackDecision(message);
      var p := r.probabilities;
      && (r.decision == "chat" ==> p.chat == r.confidence && p.chat > p.searchInvestors && p.chat > p.searchCompanies)
      && (r.decision == "search_investors" ==> p.searchInvestors == r.confidence && p.searchInvestors > p.chat && p.searchInvestors > p.searchCompanies)
      && (r.decision == "search_companies" ==> p.searchCompanies == r.confidence && p.searchCompanies > p.chat && p.searchCompanies > p.searchInvestors)
  {
  }

  /** The fallback does not depend on letter case. */
  lemma FallbackIgnoresCase(message: string)
    ensures FallbackDecision(Lower(message)) == FallbackDecision(message)
  {
    LowerIdempotent(message);
  }

  // ---------------------------------------------------------------- context section

  /** What the context analyser reports, each entry as `dict.get` returns it. */
  datatype ContextAnalysis = ContextAnalysis(
    project: Option<Value>, user: Option<Value>, conversation: Option<Value>, recentMessages: Option<Value>)

  /** One section of the prompt's context. The project, user and conversation
      blocks are rendered by `block` (their formatting is not modelled); the
      recent messages are. */
  datatype Section = ProjectBlock(v: Value) | UserBlock(v: Value) | ConversationBlock(v: Value) | RecentBlock(v: Value)

  predicate Present(e: Option<Value>) {
    e.Some? && Truthy(e.value)
  }

  /** The sections that apply, in prompt order. */
  function Sections(a: ContextAnalysis): (r: seq<Section>)
    ensures r == [] <==> !Present(a.project) && !Present(a.user) && !Present(a.conversation) && !Present(a.recentMessages)
    ensures |r| <= 4
  {
    (if Present(a.project) then [ProjectBlock(a.project.value)] else [])
    + (if Present(a.user) then [UserBlock(a.user.value)] else [])
    + (if Present(a.conversation) then [ConversationBlock(a.conversation.value)] else [])
    + (if Present(a.recentMessages) then [RecentBlock(a.recentMessages.value)] else [])
  }

  const ContentPreview: nat := 100
  const RecentShown: nat := 3
  const NoContext: string := "Sin contexto disponible"

  /** One line per recent message: its role (default "user") and the first
      hundred characters of its content (default ""). */
  function RecentLine(msg: Value, show: Value -> string): (r: Result<string>)
    ensures r.Ok? <==> msg.Obj? && (var c := Get(msg.fields, "content").GetOr(Str("")); c.Str? || c.Arr?)
  {
    if !msg.Obj? then Err("AttributeError: a recent message is not an object")
    else
      var role := Get(msg.fields, "role").GetOr(Str("user"));
      match Get(msg.fields, "content").GetOr(Str(""))
      case Str(s) => Ok("- " + Show(role, show) + ": " + Take(s, ContentPreview) + "...")
      case Arr(items) => Ok("- " + Show(role, show) + ": " + show(Arr(Take(items, ContentPreview))) + "...")
      case _ => Err("TypeError: the content cannot be sliced")
  }

  /** The lines of the last three recent messages, oldest first. */
  function RecentLines(v: Value, show: Value -> string): (r: Result<seq<string>>)
    ensures r.Ok? ==> v.Arr? && |r.value| == |TakeLast(v.items, RecentShown)| && |r.value| <= RecentShown
    ensures r.Ok? ==> forall i :: 0 <= i < |r.value| ==>
      RecentLine(v.items[|v.items| - |r.value| + i], show) == Ok(r.value[i])
    ensures v.Arr? ==>
      ((forall i :: 0 <= i < |TakeLast(v.items, RecentShown)| ==> RecentLine(TakeLast(v.items, RecentShown)[i], show).Ok?)
       ==> r.Ok?)
  {
    if !v.Arr? then Err("TypeError: recent messages are not a list")
    else MapAll(TakeLast(v.items, RecentShown), m => RecentLine(m, show))
  }

  /** Messages before the last three never reach the prompt. */
  lemma RecentIgnoresOlder(older: seq<Value>, last: seq<Value>, show: Value -> string)
    requires |last| == RecentShown
    ensures RecentLines(Arr(older + last), show) == RecentLines(Arr(last), show)
  {
    assert TakeLast(older + last, RecentShown) == last;
  }

  function RenderSection(s: Section, block: (string, Value) -> Result<string>, show: Value -> string): Result<string> {
    match s
    case ProjectBlock(v) => block("project", v)
    case UserBlock(v) => block("user", v)
    case ConversationBlock(v) => block("conversation", v)
    case RecentBlock(v) =>
      match RecentLines(v, show)
      case Err(e) => Err(e)
      case Ok(lines) => Ok("\nMENSAJES RECIENTES:\n" + Join(lines, "\n") + "\n")
  }

  /** `_build_context_section`: the applicable sections joined by newlines,
      or the no-context text when none applies. */
  function ContextSection(a: ContextAnalysis, block: (string, Value) -> Result<string>, show: Value -> string): (r: Result<string>)
    ensures Sections(a) == [] ==> r == Ok(NoContext)
    ensures r.Ok? <==> forall i :: 0 <= i < |Sections(a)| ==> RenderSection(Sections(a)[i], block, show).Ok?
    ensures r.Ok? && Sections(a) != [] ==>
      r.value == Join(MapAll(Sections(a), s => RenderSection(s, block, show)).value, "\n")
  {
    match MapAll(Sections(a), s => RenderSection(s, block, show))
    case Err(e) => Err(e)
    case Ok(parts) => Ok(if parts == [] then NoContext else Join(parts, "\n"))
  }

  // ---------------------------------------------------------------- analysis

  /** `analyze_user_intent`. `ask` stands for the model call on the prompt
      built from the context section and the message, `enhance` for the
      decision engine. Whatever fails along the way, the fallback answers:
      the function never fails, schema validation of the fallback record aside. */
  function AnalyzeUserIntent(
    message: string, a: ContextAnalysis,
    block: (string, Value) -> Result<string>, show: Value -> string,
    ask: (string, string) -> Result<string>, loads: string -> Option<Value>,
    enhance: Fields -> Result<Decision>): (r: Decision)
    ensures r == FallbackDecision(message) || (
      && ContextSection(a, block, show).Ok?
      && ask(ContextSection(a, block, show).value, message).Ok?
      && ParseReply(ask(ContextSection(a, block, show).value, message).value, loads).Ok?
      && enhance(ParseReply(ask(ContextSection(a, block, show).value, message).value, loads).value) == Ok(r))
    ensures ContextSection(a, block, show).Err? ==> r == FallbackDecision(message)
    ensures ContextSection(a, block, show).Ok? ==>
      var reply := ask(ContextSection(a, block, show).value, message);
      reply.Err? ==> r == FallbackDecision(message)
    ensures ContextSection(a, block, show).Ok? ==>
      var reply := ask(ContextSection(a, block, show).value, message);
      reply.Ok? ==>
        var data := ParseReply(reply.value, loads);
        && (data.Err? ==> r == FallbackDecision(message))
        && (data.Ok? && enhance(data.value).Err? ==> r == FallbackDecision(message))
        && (data.Ok? && enhance(data.value).Ok? ==> r == enhance(data.value).value)
  {
    match ContextSection(a, block, show)
    case Err(_) => FallbackDecision(message)
    case Ok(context) =>
      match ask(context, message)
      case Err(_) => FallbackDecision(message)
      case Ok(reply) =>
        match ParseReply(reply, loads)
        case Err(_) => FallbackDecision(message)
        case Ok(data) =>
          match enhance(data)
          case Err(_) => FallbackDecision(message)
          case Ok(d) => d
  }

  /** A reply missing a required field ends in the keyword fallback. */
  lemma MissingFieldFallsBack(
    message: string, a: ContextAnalysis,
    block: (string, Value) -> Result<string>, show: Value -> string,
    ask: (string, string) -> Result<string>, loads: string -> Option<Value>,
    enhance: Fields -> Result<Decision>)
    requires ContextSection(a, block, show).Ok?
    requires ask(ContextSection(a, block, show).value, message).Ok?
    requires var data := loads(Cleaned(ask(ContextSection(a, block, show).value, message).value));
      data.Some? && data.value.Obj? && MissingField(data.value.fields).Some?
    ensures AnalyzeUserIntent(message, a, block, show, ask, loads, enhance) == FallbackDecision(message)
  {
  }
}

=== FILE: language_detection.dfy ===
/** Language detection (app/ai_systems/language_detection.py): count how
    many Spanish and how many English marker words occur in the lower-cased
    text; the larger count wins and a tie means Spanish. */
module LanguageDetection {
  import opened Text
  import opened BaseModels

  const SpanishIndicators: seq<string> := [
    "qué", "cómo", "dónde", "cuándo", "por qué", "sí", "no", "gracias",
    "hola", "necesito", "quiero", "busco", "ayuda", "startup", "empresa"]

  const EnglishIndicators: seq<string> := [
    "what", "how", "where", "when", "why", "yes", "no", "thanks",
    "hello", "need", "want", "looking", "help", "startup", "company"]

  datatype Detection = Detection(detected: Language, confidence: real, responseLanguage: Language, mixed: bool)

  /** `min(0.7 + 0.1 * count, 1.0)`. */
  function MajorityConfidence(count: nat): (c: real)
    ensures count >= 1 ==> 0.8 <= c <= 1.0
    ensures count >= 3 ==> c == 1.0
  {
    if 0.7 + 0.1 * (count as real) < 1.0 then 0.7 + 0.1 * (count as real) else 1.0
  }

  /** `detect_language`. */
  function DetectLanguage(text: string): (r: Detection)
    ensures var es := CountContained(Lower(text), SpanishIndicators);
      var en := CountContained(Lower(text), EnglishIndicators);
      && (es > en ==> r.detected == Spanish && r.confidence == MajorityConfidence(es))
      && (en > es ==> r.detected == English && r.confidence == MajorityConfidence(en))
      && (es == en ==> r.detected == Spanish && r.confidence == 0.5)
      && (r.mixed <==> es > 0 && en > 0)
    ensures r.responseLanguage == r.detected
    ensures r.detected != OtherLanguage
    ensures 0.5 <= r.confidence <= 1.0
  {
    var lowered := Lower(text);
    var es := CountContained(lowered, SpanishIndicators);
    var en := CountContained(lowered, EnglishIndicators);
    var (detected, confidence) :=
      if es > en then (Spanish, MajorityConfidence(es))
      else if en > es then (English, MajorityConfidence(en))
      else (Spanish, 0.5);
    Detection(detected, confidence, detected, es > 0 && en > 0)
  }

  /** Detection does not depend on letter case. */
  lemma DetectionIgnoresCase(text: string)
    ensures DetectLanguage(Lower(text)) == DetectLanguage(text)
  {
    LowerIdempotent(text);
  }

  /** English is chosen only when some English marker occurs, and then the
      confidence is at least 0.8. */
  lemma EnglishNeedsEvidence(text: string)
    requires DetectLanguage(text).detected == English
    ensures AnyContained(Lower(text), EnglishIndicators)
    ensures DetectLanguage(text).confidence >= 0.8
  {
  }

  /** "no" and "startup" are markers of both languages: a text holding one of
      them is counted on both sides. */
  lemma SharedMarkers(text: string)
    requires Contains(Lower(text), "no") || Contains(Lower(text), "startup")
    ensures DetectLanguage(text).mixed
  {
    var lowered := Lower(text);
    if Contains(lowered, "no") {
      assert SpanishIndicators[6] == "no" && EnglishIndicators[6] == "no";
    } else {
      assert SpanishIndicators[13] == "startup" && EnglishIndicators[13] == "startup";
    }
  }
}

=== FILE: librarian.dfy ===
/** The librarian: it cleans the fields extracted from one conversation turn,
    merges them into the cumulative project profile, and scores the profile's
    completeness and the extraction's relevance (app/ai_systems/librarian.py).
    The language model's reply and the JSON decoder are parameters. */
module Librarian {
  import opened Wrappers
  import opened Text
  import opened Json
  import opened Seqs
  import opened Profile

  const BasicFields: seq<string> :=
    ["categories", "stage", "problem_solved", "solution", "target_market", "business_model"]
  const NestedFields: seq<string> := ["metrics", "team_info", "funding_info"]

  // ---------------------------------------------------------------- extraction

  /** The reply text handed to the decoder: stripped, and when it opens with a
      ```` ```json ```` fence, with every fence marker removed. */
  function StripFences(reply: string): (r: string)
    ensures !StartsWith(Strip(reply), "```json") ==> r == Strip(reply)
    ensures |r| <= |reply|
    ensures StartsWith(Strip(reply), "```json") ==> |r| <= |Strip(reply)| - 7
    ensures var t := Strip(reply);
      StartsWith(t, "```json") && |t| >= 10 && t[|t| - 3..] == "```" && '`' !in t[7..|t| - 3] ==> r == t[7..|t| - 3]
  {
    var t := Strip(reply);
    if StartsWith(t, "```json") then
      assert t == "```json" + t[7..];
      assert RemoveAll(t, "```json") == RemoveAll(t[7..], "```json");
      FencedText(t);
      RemoveAll(RemoveAll(t, "```json"), "```")
    else t
  }

  lemma FencedText(t: string)
    ensures StartsWith(t, "```json") && |t| >= 10 && t[|t| - 3..] == "```" && '`' !in t[7..|t| - 3] ==>
      RemoveAll(RemoveAll(t, "```json"), "```") == t[7..|t| - 3]
  {
    if StartsWith(t, "```json") && |t| >= 10 && t[|t| - 3..] == "```" && '`' !in t[7..|t| - 3] {
      var body := t[7..|t| - 3];
      assert t == t[..7] + body + t[|t| - 3..];
      FencedBody(body);
    }
  }

  /** A body without backticks wrapped in the two fences comes out bare. */
  lemma FencedBody(body: string)
    requires '`' !in body
    ensures RemoveAll(RemoveAll("```json" + body + "```", "```json"), "```") == body
  {
    var t := "```json" + body + "```";
    assert t[..7] == "```json";
    assert t[7..] == body + "```";
    RemoveAllFreeFront(body, "```", "```json");
    assert RemoveAll("```", "```json") == "```";
    RemoveAllFreeFront(body, "```", "```");
    assert RemoveAll("```", "```") == "";
    assert body + "" == body;
  }

  /** The value cleaning keeps for a basic field: a string that is not blank,
      stored stripped, or a non-empty list; anything else is dropped. */
  function BasicValue(v: Option<Value>): (r: Option<Value>)
    ensures r.Some? ==> Truthy(r.value) && (r.value.Str? || r.value.Arr?)
    ensures v.Some? && v.value.Str? ==> (r.Some? <==> !AllSpace(v.value.s))
    ensures v.Some? && v.value.Str? && r.Some? ==> r.value == Str(Strip(v.value.s))
    ensures v.Some? && v.value.Arr? ==> (r.Some? <==> v.value.items != [])
    ensures v.Some? && v.value.Arr? && r.Some? ==> r == v
    ensures v.None? || !(v.value.Str? || v.value.Arr?) ==> r.None?
  {
    match v
    case Some(Str(s)) => if s != "" && Strip(s) != "" then Some(Str(Strip(s))) else None
    case Some(Arr(items)) => if items != [] then Some(Arr(items)) else None
    case _ => None
  }

  /** Whether a sub-record entry survives cleaning: its value is neither `None` nor `""`. */
  predicate KeptEntry(e: (string, Value)) {
    e.1 != Null && e.1 != Str("")
  }

  /** The entries of a nested record without its `None` and `""` values, in order. */
  function DropEmpty(fields: Fields): (r: Fields)
    ensures |r| <= |fields|
    ensures forall e :: e in r <==> e in fields && KeptEntry(e)
  {
    if |fields| == 0 then []
    else (if KeptEntry(fields[0]) then [fields[0]] else []) + DropEmpty(fields[1..])
  }

  /** Cleaning of a nested record: absent or falsy gives nothing, a dict gives
      its kept entries, any other truthy value has no `.items()` and raises. */
  function NestedValue(v: Option<Value>): (r: Result<Option<Value>>)
    ensures r.Err? <==> v.Some? && Truthy(v.value) && !v.value.Obj?
    ensures r.Ok? && r.value.Some? ==> v.Some? && v.value.Obj? && r.value.value == Obj(DropEmpty(v.value.fields))
    ensures r.Ok? && r.value.None? ==> v.None? || !Truthy(v.value)
  {
    match v
    case None => Ok(None)
    case Some(x) =>
      if !Truthy(x) then Ok(None)
      else if x.Obj? then Ok(Some(Obj(DropEmpty(x.fields))))
      else Err("AttributeError: object has no attribute 'items'")
  }

  function CleanBasicFields(data: Fields, names: seq<string>): (r: Fields)
    ensures forall f :: Get(r, f) == (if f in names then BasicValue(Get(data, f)) else None)
  {
    if |names| == 0 then []
    else
      var v := BasicValue(Get(data, names[0]));
      var head := if v.Some? then [(names[0], v.value)] else [];
      var rest := CleanBasicFields(data, names[1..]);
      assert forall f :: f in names <==> f == names[0] || f in names[1..];
      KeysCons((names[0], v.GetOr(Null)), []);
      assert forall f :: f in Keys(head) <==> v.Some? && f == names[0];
      forall f ensures Get(head + rest, f) == (if f in names then BasicValue(Get(data, f)) else None) {
        GetAppend(head, rest, f);
      }
      head + rest
  }

  function CleanNestedFields(data: Fields, names: seq<string>): (r: Result<Fields>)
    ensures r.Err? <==> exists i :: 0 <= i < |names| && NestedValue(Get(data, names[i])).Err?
    ensures r.Ok? ==> forall f :: Get(r.value, f) == (if f in names then NestedValue(Get(data, f)).value else None)
  {
    if |names| == 0 then Ok([])
    else
      var v := NestedValue(Get(data, names[0]));
      var rest := CleanNestedFields(data, names[1..]);
      assert forall i :: 1 <= i < |names| ==> names[i] == names[1..][i - 1];
      if v.Err? then Err(v.message)
      else if rest.Err? then
        var i :| 0 <= i < |names[1..]| && NestedValue(Get(data, names[1..][i])).Err?;
        assert NestedValue(Get(data, names[i + 1])).Err?;
        rest
      else
        var head := if v.value.Some? then [(names[0], v.value.value)] else [];
        assert forall f :: f in names <==> f == names[0] || f in names[1..];
        KeysCons((names[0], v.value.GetOr(Null)), []);
        assert forall f :: f in Keys(head) <==> v.value.Some? && f == names[0];
        forall f ensures Get(head + rest.value, f) == (if f in names then NestedValue(Get(data, f)).value else None) {
          GetAppend(head, rest.value, f);
        }
        assert forall i :: 0 <= i < |names| ==> NestedValue(Get(data, names[i])).Ok? by {
          forall i | 0 <= i < |names| ensures NestedValue(Get(data, names[i])).Ok? {
            if i > 0 { assert names[i] == names[1..][i - 1]; }
          }
        }
        Ok(head + rest.value)
  }

  /** What cleaning stores under key `f`. */
  function CleanedField(data: Fields, f: string): Option<Value> {
    CleanedWith(data, BasicFields, NestedFields, f)
  }

  /** What cleaning with the given basic and nested field names stores under key `f`. */
  function CleanedWith(data: Fields, basic: seq<string>, nested: seq<string>, f: string): Option<Value> {
    if f in basic then BasicValue(Get(data, f))
    else if f in nested && NestedValue(Get(data, f)).Ok? then NestedValue(Get(data, f)).value
    else None
  }

  /** Cleaning for any two disjoint lists of basic and nested field names. */
  function CleanWith(data: Fields, basic: seq<string>, nested: seq<string>): (r: Result<Fields>)
    requires forall i :: 0 <= i < |nested| ==> nested[i] !in basic
    ensures r.Err? <==> exists i :: 0 <= i < |nested| && NestedValue(Get(data, nested[i])).Err?
    ensures r.Ok? ==> forall f :: Get(r.value, f) == CleanedWith(data, basic, nested, f)
  {
    var b := CleanBasicFields(data, basic);
    var n := CleanNestedFields(data, nested);
    if n.Err? then Err(n.message)
    else
      forall f ensures Get(b + n.value, f) == CleanedWith(data, basic, nested, f) {
        GetAppend(b, n.value, f);
        assert f in Keys(b) ==> f in basic;
      }
      Ok(b + n.value)
  }

  /** `_clean_extracted_data`: basic fields filtered by `BasicValue`, nested
      records by `NestedValue`; a truthy nested value that is not a dict raises. */
  function CleanExtractedData(data: Fields): (r: Result<Fields>)
    ensures r.Err? <==> NestedValue(Get(data, "metrics")).Err? || NestedValue(Get(data, "team_info")).Err?
                        || NestedValue(Get(data, "funding_info")).Err?
    ensures r.Ok? ==> forall f :: Get(r.value, f) == CleanedField(data, f)
  {
    FieldListsDisjoint();
    NestedFailure(data);
    CleanWith(data, BasicFields, NestedFields)
  }

  lemma FieldListsDisjoint()
    ensures forall i :: 0 <= i < |NestedFields| ==> NestedFields[i] !in BasicFields
  {
  }

  lemma NestedFailure(data: Fields)
    ensures (exists i :: 0 <= i < |NestedFields| && NestedValue(Get(data, NestedFields[i])).Err?)
            <==> NestedValue(Get(data, "metrics")).Err? || NestedValue(Get(data, "team_info")).Err?
                 || NestedValue(Get(data, "funding_info")).Err?
  {
    assert NestedFields[0] == "metrics" && NestedFields[1] == "team_info" && NestedFields[2] == "funding_info";
  }

  /** `_extract_project_info` after the model call: decode the fenced reply and
      clean it; a reply that does not decode to a dict, or whose cleaning
      raises, yields no fields. */
  function ExtractProjectInfo(reply: string, decode: string -> Option<Value>): (r: Fields)
    ensures decode(StripFences(reply)).Some? && decode(StripFences(reply)).value.Obj?
            && CleanExtractedData(decode(StripFences(reply)).value.fields).Ok?
            ==> r == CleanExtractedData(decode(StripFences(reply)).value.fields).value
    ensures decode(StripFences(reply)).None? || !decode(StripFences(reply)).value.Obj? ==> r == []
    ensures var d := decode(StripFences(reply));
      d.Some? && d.value.Obj? && CleanExtractedData(d.value.fields).Err? ==> r == []
  {
    match decode(StripFences(reply))
    case Some(Obj(fields)) =>
      (match CleanExtractedData(fields) case Ok(c) => c case Err(_) => [])
    case _ => []
  }

  // ---------------------------------------------------------------- merge

  /** A field the merge overwrites when the extraction names it. */
  function Updated(previous: Value, extracted: Option<Value>): Value {
    match extracted
    case Some(v) => v
    case None => previous
  }

  /** `cats or []` followed by a list concatenation: the items, or the
      `TypeError` Python raises when either side is not a list. */
  function ListOrEmpty(v: Value): Value {
    if Truthy(v) then v else Arr([])
  }

  /** `list(set(current + new))`: the union of the two category lists, each
      class of Python-equal elements once (`True`, `1` and `1.0` are one
      element); unhashable elements or non-list operands raise. */
  function MergeCategories(current: Value, extracted: Value): (r: Result<Value>)
    ensures r.Err? <==> !ListOrEmpty(current).Arr? || !extracted.Arr?
                        || exists x :: x in ListOrEmpty(current).items + extracted.items && !Hashable(x)
    ensures r.Ok? ==> r.value.Arr?
    ensures r.Ok? ==> forall x :: x in r.value.items ==> x in ListOrEmpty(current).items || x in extracted.items
    ensures r.Ok? ==> Classes(r.value.items) == Classes(ListOrEmpty(current).items + extracted.items)
    ensures r.Ok? ==> forall x :: (x in ListOrEmpty(current).items || x in extracted.items) && !x.Bool? && !x.Num? ==> x in r.value.items
    ensures r.Ok? ==> forall i, j :: 0 <= i < j < |r.value.items| ==> PyKey(r.value.items[i]) != PyKey(r.value.items[j])
  {
    var base := ListOrEmpty(current);
    if !base.Arr? || !extracted.Arr? then Err("TypeError: can only concatenate list to list")
    else
      var all := base.items + extracted.items;
      if exists x :: x in all && !Hashable(x) then Err("TypeError: unhashable type")
      else Ok(Arr(SetList(all)))
  }

  /** The last value `entries` gives for key `k`, if any. */
  function LastWrite(entries: Fields, k: string): (r: Option<Value>)
    ensures r.Some? ==> (k, r.value) in entries
    ensures r.None? <==> forall i :: 0 <= i < |entries| ==> entries[i].0 != k
    ensures r.Some? ==> exists i :: 0 <= i < |entries| && entries[i] == (k, r.value) && LaterMiss(entries, k, i)
  {
    if |entries| == 0 then None
    else match LastWrite(entries[1..], k)
      case Some(v) =>
        var i :| 0 <= i < |entries| - 1 && entries[1..][i] == (k, v) && LaterMiss(entries[1..], k, i);
        assert entries[i + 1] == (k, v) && LaterMiss(entries, k, i + 1);
        Some(v)
      case None =>
        if entries[0].0 == k then
          assert LaterMiss(entries, k, 0);
          Some(entries[0].1)
        else
          assert forall i :: 0 <= i < |entries| ==> entries[i].0 != k by {
            forall i | 0 <= i < |entries| ensures entries[i].0 != k {
              if i > 0 { assert entries[i] == entries[1..][i - 1]; }
            }
          }
          None
  }

  /** No entry after position `i` writes key `k`. */
  predicate LaterMiss(entries: Fields, k: string, i: nat) {
    forall j :: i < j < |entries| ==> entries[j].0 != k
  }

  /** The nested-record loop: `setattr(record, key, value)` for every entry
      whose key names an attribute of the record; other keys are ignored. */
  function WriteAttrs(rec: Record, entries: Fields): (r: Record)
    ensures r.Keys == rec.Keys
    ensures forall k :: k in r ==> r[k] == Updated(rec[k], LastWrite(entries, k))
  {
    if |entries| == 0 then rec
    else
      var (key, value) := entries[0];
      WriteAttrs(if key in rec then rec[key := value] else rec, entries[1..])
  }

  /** Writing the same entries twice is writing them once. */
  lemma WriteAttrsIdempotent(rec: Record, entries: Fields)
    ensures WriteAttrs(WriteAttrs(rec, entries), entries) == WriteAttrs(rec, entries)
  {
  }

  /** One nested merge step: the sub-record is created with its defaults when
      absent, then the extracted dict is written into it. The step fails, with
      the default already installed, when the extracted value is not a dict. */
  datatype NestedStep = NestedStep(rec: Option<Record>, failed: bool)

  function MergeNested(current: Option<Record>, default: Record, extracted: Option<Value>): (r: NestedStep)
    ensures extracted.None? ==> r == NestedStep(current, false)
    ensures extracted.Some? ==> r.rec.Some? && r.rec.value.Keys == current.GetOr(default).Keys
    ensures r.failed <==> extracted.Some? && !extracted.value.Obj?
    ensures extracted.Some? && extracted.value.Obj? ==> r.rec == Some(WriteAttrs(current.GetOr(default), extracted.value.fields))
  {
    match extracted
    case None => NestedStep(current, false)
    case Some(v) =>
      var rec := current.GetOr(default);
      if v.Obj? then NestedStep(Some(WriteAttrs(rec, v.fields)), false) else NestedStep(Some(rec), true)
  }

  /** The profile after the merge, and whether the merge raised part-way; a
      failed merge leaves the profile as far as it got. */
  datatype MergeOutcome = MergeOutcome(profile: ProjectData, failed: bool)

  /** An extracted nested value that is present but not a dict. */
  predicate NotDict(v: Option<Value>) {
    v.Some? && !v.value.Obj?
  }

  /** The four free-text fields, overwritten by the extraction when present. */
  function MergeTextFields(p: ProjectData, e: Fields): (r: ProjectData)
    ensures Get(e, "problem_solved").Some? ==> r.problemSolved == Get(e, "problem_solved").value
    ensures Get(e, "solution").Some? ==> r.solution == Get(e, "solution").value
    ensures Get(e, "target_market").Some? ==> r.targetMarket == Get(e, "target_market").value
    ensures Get(e, "business_model").Some? ==> r.businessModel == Get(e, "business_model").value
    ensures Get(e, "problem_solved").None? ==> r.problemSolved == p.problemSolved
    ensures Get(e, "solution").None? ==> r.solution == p.solution
    ensures Get(e, "target_market").None? ==> r.targetMarket == p.targetMarket
    ensures Get(e, "business_model").None? ==> r.businessModel == p.businessModel
    ensures r.(problemSolved := p.problemSolved, solution := p.solution,
               targetMarket := p.targetMarket, businessModel := p.businessModel) == p
  {
    p.(problemSolved := Updated(p.problemSolved, Get(e, "problem_solved")),
       solution := Updated(p.solution, Get(e, "solution")),
       targetMarket := Updated(p.targetMarket, Get(e, "target_market")),
       businessModel := Updated(p.businessModel, Get(e, "business_model")))
  }

  /** The sub-records the merge installs when the profile has none. */
  datatype Defaults = Defaults(metrics: Record, team: Record, funding: Record)

  /** `ProjectMetrics()`, `TeamInfo()` and `FundingInfo()`. */
  function ModelDefaults(): (d: Defaults)
    ensures DefaultsWellFormed(d)
  {
    Defaults(DefaultMetrics(), DefaultTeam(), DefaultFunding())
  }

  predicate DefaultsWellFormed(d: Defaults) {
    d.metrics.Keys == MetricFields && d.team.Keys == TeamFields && d.funding.Keys == FundingFields
  }

  /** `_merge_project_data`: text fields, then categories, stage and the three
      nested records, in that order, into the current profile or a fresh one.
      `d` holds the sub-records created for absent ones. */
  function Merge(current: Option<ProjectData>, e: Fields, d: Defaults): (r: MergeOutcome)
    ensures var base := current.GetOr(EmptyProject);
      && r.profile.problemSolved == Updated(base.problemSolved, Get(e, "problem_solved"))
      && r.profile.solution == Updated(base.solution, Get(e, "solution"))
      && r.profile.targetMarket == Updated(base.targetMarket, Get(e, "target_market"))
      && r.profile.businessModel == Updated(base.businessModel, Get(e, "business_model"))
      && r.profile.competitiveAdvantage == base.competitiveAdvantage
      && r.profile.marketSize == base.marketSize
      && r.profile.goToMarket == base.goToMarket
    ensures var base := current.GetOr(EmptyProject);
      !r.failed ==>
        && r.profile.stage == Updated(base.stage, Get(e, "stage"))
        && (Get(e, "categories").None? ==> r.profile.categories == base.categories)
        && (Get(e, "categories").Some? ==> MergeCategories(base.categories, Get(e, "categories").value) == Ok(r.profile.categories))
        && r.profile.metrics == MergeNested(base.metrics, d.metrics, Get(e, "metrics")).rec
        && r.profile.teamInfo == MergeNested(base.teamInfo, d.team, Get(e, "team_info")).rec
        && r.profile.fundingInfo == MergeNested(base.fundingInfo, d.funding, Get(e, "funding_info")).rec
    ensures r.failed <==>
      || (Get(e, "categories").Some? && MergeCategories(current.GetOr(EmptyProject).categories, Get(e, "categories").value).Err?)
      || NotDict(Get(e, "metrics")) || NotDict(Get(e, "team_info")) || NotDict(Get(e, "funding_info"))
    ensures DefaultsWellFormed(d) && WellFormed(current.GetOr(EmptyProject)) ==> WellFormed(r.profile)
  {
    var p1 := MergeTextFields(current.GetOr(EmptyProject), e);
    var cats := Get(e, "categories");
    if cats.Some? && MergeCategories(p1.categories, cats.value).Err? then MergeOutcome(p1, true)
    else
      var p2 := if cats.Some? then p1.(categories := MergeCategories(p1.categories, cats.value).value) else p1;
      var p3 := p2.(stage := Updated(p2.stage, Get(e, "stage")));
      var m := MergeNested(p3.metrics, d.metrics, Get(e, "metrics"));
      var p4 := p3.(metrics := m.rec);
      if m.failed then MergeOutcome(p4, true)
      else
        var t := MergeNested(p4.teamInfo, d.team, Get(e, "team_info"));
        var p5 := p4.(teamInfo := t.rec);
        if t.failed then MergeOutcome(p5, true)
        else
          var f := MergeNested(p5.fundingInfo, d.funding, Get(e, "funding_info"));
          MergeOutcome(p5.(fundingInfo := f.rec), f.failed)
  }

  /** Re-merging the same categories into a merged list changes nothing. */
  lemma MergeCategoriesAbsorbs(current: Value, extracted: Value)
    requires MergeCategories(current, extracted).Ok?
    ensures MergeCategories(MergeCategories(current, extracted).value, extracted) == MergeCategories(current, extracted)
  {
    var all := ListOrEmpty(current).items + extracted.items;
    var d := SetList(all);
    assert d == FirstByKey(all, PyKey);
    KeySetAppend(ListOrEmpty(current).items, extracted.items, PyKey);
    FirstByKeyAppendCovered(d, extracted.items, PyKey);
    FirstByKeyOfDistinct(d, PyKey);
    assert SetList(d + extracted.items) == FirstByKey(d + extracted.items, PyKey);
    assert ListOrEmpty(Arr(d)) == Arr(d);
    assert forall x :: x in d + extracted.items ==> x in all;
  }

  /** `True` and `1.0` are one element of a Python set: merging `[True, 1.0]`
      into no categories keeps only `True`, the one inserted first. */
  lemma MergeCategoriesTrueAndOne()
    ensures MergeCategories(Null, Arr([Bool(true), Num(1.0)])) == Ok(Arr([Bool(true)]))
  {
    var xs := [Bool(true), Num(1.0)];
    assert Arr([]).items + xs == xs;
    var r := SetList(xs);
    assert PyKey(xs[0]) in Classes(xs);
    forall i | 0 <= i < |r| ensures r[i] == Bool(true) {
      SetListFirstOfClass(xs, i, 0);
    }
    assert |r| != 0 by {
      var i :| 0 <= i < |r| && PyKey(r[i]) == PyKey(xs[0]);
    }
    assert r == [Bool(true)];
    assert ListOrEmpty(Null) == Arr([]);
    assert forall x :: x in xs ==> Hashable(x);
  }

  lemma MergeNestedIdempotent(current: Option<Record>, default: Record, extracted: Option<Value>)
    requires !MergeNested(current, default, extracted).failed
    ensures MergeNested(MergeNested(current, default, extracted).rec, default, extracted)
            == MergeNested(current, default, extracted)
  {
    if extracted.Some? {
      WriteAttrsIdempotent(current.GetOr(default), extracted.value.fields);
    }
  }

  /** Merging the same extraction a second time changes nothing. */
  lemma MergeIdempotent(current: Option<ProjectData>, e: Fields, d: Defaults)
    requires !Merge(current, e, d).failed
    ensures Merge(Some(Merge(current, e, d).profile), e, d) == Merge(current, e, d)
  {
    var base := current.GetOr(EmptyProject);
    var p := Merge(current, e, d).profile;
    var cats := Get(e, "categories");
    if cats.Some? { MergeCategoriesAbsorbs(base.categories, cats.value); }
    MergeNestedIdempotent(base.metrics, d.metrics, Get(e, "metrics"));
    MergeNestedIdempotent(base.teamInfo, d.team, Get(e, "team_info"));
    MergeNestedIdempotent(base.fundingInfo, d.funding, Get(e, "funding_info"));
    var q := Merge(Some(p), e, d).profile;
    assert !Merge(Some(p), e, d).failed;
    assert q.categories == p.categories;
    assert q.metrics == p.metrics && q.teamInfo == p.teamInfo && q.fundingInfo == p.fundingInfo;
    assert q == p;
  }

  /** Every basic field an extraction carries is truthy, as cleaning guarantees. */
  predicate TruthyBasics(e: Fields) {
    forall f :: f in BasicFields && Get(e, f).Some? ==> Truthy(Get(e, f).value)
  }

  lemma CleanedBasicsTruthy(data: Fields)
    requires CleanExtractedData(data).Ok?
    ensures TruthyBasics(CleanExtractedData(data).value)
  {
  }

  /** A successful merge of a cleaned extraction never empties a top-level
      field that was filled, nor removes a nested record. */
  lemma MergeNeverEmpties(current: Option<ProjectData>, e: Fields, d: Defaults)
    requires TruthyBasics(e)
    requires !Merge(current, e, d).failed
    ensures var base, after := current.GetOr(EmptyProject), Merge(current, e, d).profile;
      && (Truthy(base.categories) ==> Truthy(after.categories))
      && (Truthy(base.stage) ==> Truthy(after.stage))
      && (Truthy(base.problemSolved) ==> Truthy(after.problemSolved))
      && (Truthy(base.solution) ==> Truthy(after.solution))
      && (Truthy(base.targetMarket) ==> Truthy(after.targetMarket))
      && (Truthy(base.businessModel) ==> Truthy(after.businessModel))
      && (base.metrics.Some? ==> after.metrics.Some?)
      && (base.teamInfo.Some? ==> after.teamInfo.Some?)
      && (base.fundingInfo.Some? ==> after.fundingInfo.Some?)
  {
    var base := current.GetOr(EmptyProject);
    var cats := Get(e, "categories");
    BasicNames();
    if cats.Some? && Truthy(base.categories) {
      var m := MergeCategories(base.categories, cats.value);
      assert m == Ok(Merge(current, e, d).profile.categories);
      var all := ListOrEmpty(base.categories).items + cats.value.items;
      assert PyKey(all[0]) in Classes(all);
      assert PyKey(all[0]) in Classes(m.value.items);
    }
  }

  // ---------------------------------------------------------------- completeness

  /** Running weights: weight considered and weight earned. */
  datatype Weights = Weights(total: real, completed: real)

  /** One weighted loop over fields that are each worth 10: every value adds
      10 to the total, and to the earned weight when it is truthy. */
  function WeighFields(w: Weights, values: seq<Value>): (r: Weights)
    ensures r == Weights(w.total + 10.0 * |values| as real, w.completed + 10.0 * NumFilled(values) as real)
    decreases |values|
  {
    if |values| == 0 then w
    else WeighFields(Weights(w.total + 10.0, w.completed + (if Truthy(values[0]) then 10.0 else 0.0)), values[1..])
  }

  function LibrarianTeamProbes(t: Record): seq<Value> {
    [Attr(t, "size"), Attr(t, "founders")]
  }

  /** The weights of `_calculate_completeness`: 10 for each of six top-level
      fields, 20 shared by three metrics, 10 shared by two team fields, and 10
      for having any funding record at all. */
  function LibrarianTally(p: ProjectData): Weights {
    var basic := WeighFields(Weights(0.0, 0.0), [p.categories, p.stage, p.problemSolved, p.solution]);
    var business := WeighFields(basic, [p.targetMarket, p.businessModel]);
    var metrics :=
      match p.metrics
      case Some(m) => Weights(business.total + 20.0, business.completed + (NumFilled(MetricProbes(m)) as real / 3.0) * 20.0)
      case None => Weights(business.total + 20.0, business.completed);
    var team :=
      match p.teamInfo
      case Some(t) => Weights(metrics.total + 10.0, metrics.completed + (NumFilled(LibrarianTeamProbes(t)) as real / 2.0) * 10.0)
      case None => Weights(metrics.total + 10.0, metrics.completed);
    if p.fundingInfo.Some? then Weights(team.total + 10.0, team.completed + 10.0)
    else Weights(team.total + 10.0, team.completed)
  }

  /** The weights always total 100, and the earned weight never exceeds it. */
  lemma LibrarianTallyTotal(p: ProjectData)
    ensures LibrarianTally(p).total == 100.0
    ensures 0.0 <= LibrarianTally(p).completed <= 100.0
  {
  }

  /** `_calculate_completeness`: because the weights total 100, the score is
      exactly the earned weight. */
  function CalculateCompleteness(p: ProjectData): (r: real)
    ensures r == LibrarianTally(p).completed
    ensures 0.0 <= r <= 100.0
  {
    var w := LibrarianTally(p);
    LibrarianTallyTotal(p);
    PercentOfHundred(w.completed, w.total);
    if w.total > 0.0 then (w.completed / w.total) * 100.0 else 0.0
  }

  lemma PercentOfHundred(c: real, t: real)
    requires t == 100.0
    ensures (c / t) * 100.0 == c
  {
  }

  /** A funding record is worth its full 10 points whatever it contains. */
  lemma FundingEarnsTen(p: ProjectData, funding: Record)
    ensures CalculateCompleteness(p.(fundingInfo := Some(funding))) == CalculateCompleteness(p.(fundingInfo := None)) + 10.0
  {
  }

  /** Every value inside every nested dict of the extraction is truthy. */
  predicate TruthyNested(e: Fields) {
    forall f :: f in NestedFields && Get(e, f).Some? && Get(e, f).value.Obj? ==> AllTruthy(Get(e, f).value.fields)
  }

  predicate AllTruthy(entries: Fields) {
    forall en :: en in entries ==> Truthy(en.1)
  }

  /** Writing only truthy values never turns a truthy attribute falsy. */
  lemma WriteAttrsKeepsTruthy(rec: Record, entries: Fields, name: string)
    requires AllTruthy(entries)
    ensures Truthy(Attr(rec, name)) ==> Truthy(Attr(WriteAttrs(rec, entries), name))
  {
  }

  /** A nested merge step that writes only truthy values keeps every truthy attribute truthy. */
  lemma NestedStepKeepsTruthy(current: Option<Record>, default: Record, extracted: Option<Value>)
    requires !MergeNested(current, default, extracted).failed
    requires extracted.Some? ==> AllTruthy(extracted.value.fields)
    ensures var after := MergeNested(current, default, extracted).rec;
      current.Some? ==> after.Some? && forall name :: Truthy(Attr(current.value, name)) ==> Truthy(Attr(after.value, name))
  {
    if extracted.Some? && current.Some? {
      forall name | Truthy(Attr(current.value, name)) {
        WriteAttrsKeepsTruthy(current.value, extracted.value.fields, name);
      }
    }
  }

  /** Everything filled in `p` is filled in `q`, for the fields the librarian's score reads. */
  predicate Dominates(p: ProjectData, q: ProjectData) {
    && (Truthy(p.categories) ==> Truthy(q.categories))
    && (Truthy(p.stage) ==> Truthy(q.stage))
    && (Truthy(p.problemSolved) ==> Truthy(q.problemSolved))
    && (Truthy(p.solution) ==> Truthy(q.solution))
    && (Truthy(p.targetMarket) ==> Truthy(q.targetMarket))
    && (Truthy(p.businessModel) ==> Truthy(q.businessModel))
    && (p.metrics.Some? ==> q.metrics.Some? && Carries(MetricProbes(p.metrics.value), MetricProbes(q.metrics.value)))
    && (p.teamInfo.Some? ==> q.teamInfo.Some? && Carries(LibrarianTeamProbes(p.teamInfo.value), LibrarianTeamProbes(q.teamInfo.value)))
    && (p.fundingInfo.Some? ==> q.fundingInfo.Some?)
  }

  /** Position by position, a truthy value in `a` has a truthy counterpart in `b`. */
  predicate Carries(a: seq<Value>, b: seq<Value>) {
    |a| == |b| && forall i :: 0 <= i < |a| && Truthy(a[i]) ==> Truthy(b[i])
  }

  lemma CompletenessMonotone(p: ProjectData, q: ProjectData)
    requires Dominates(p, q)
    ensures CalculateCompleteness(p) <= CalculateCompleteness(q)
  {
    TallyParts(p);
    TallyParts(q);
    NumFilledMono(BasicValues(p), BasicValues(q));
    NumFilledMono(BusinessValues(p), BusinessValues(q));
    EarnedMono(p, q);
  }

  function BasicValues(p: ProjectData): seq<Value> {
    [p.categories, p.stage, p.problemSolved, p.solution]
  }

  function BusinessValues(p: ProjectData): seq<Value> {
    [p.targetMarket, p.businessModel]
  }

  /** The metrics' share of their 20 points: a third per filled probe. */
  function MetricsEarned(m: Option<Record>): real {
    if m.Some? then NumFilled(MetricProbes(m.value)) as real * 20.0 / 3.0 else 0.0
  }

  /** The team's share of its 10 points: half per filled probe. */
  function TeamEarned(t: Option<Record>): real {
    if t.Some? then NumFilled(LibrarianTeamProbes(t.value)) as real * 5.0 else 0.0
  }

  /** The earned weight, group by group. */
  lemma TallyParts(p: ProjectData)
    ensures LibrarianTally(p).completed
            == 10.0 * NumFilled(BasicValues(p)) as real + 10.0 * NumFilled(BusinessValues(p)) as real
               + MetricsEarned(p.metrics) + TeamEarned(p.teamInfo) + (if p.fundingInfo.Some? then 10.0 else 0.0)
  {
  }

  lemma EarnedMono(p: ProjectData, q: ProjectData)
    requires p.metrics.Some? ==> q.metrics.Some? && Carries(MetricProbes(p.metrics.value), MetricProbes(q.metrics.value))
    requires p.teamInfo.Some? ==> q.teamInfo.Some? && Carries(LibrarianTeamProbes(p.teamInfo.value), LibrarianTeamProbes(q.teamInfo.value))
    ensures MetricsEarned(p.metrics) <= MetricsEarned(q.metrics)
    ensures TeamEarned(p.teamInfo) <= TeamEarned(q.teamInfo)
  {
    if p.metrics.Some? { NumFilledMono(MetricProbes(p.metrics.value), MetricProbes(q.metrics.value)); }
    if p.teamInfo.Some? { NumFilledMono(LibrarianTeamProbes(p.teamInfo.value), LibrarianTeamProbes(q.teamInfo.value)); }
  }

  lemma MergeCarriesNested(current: Option<ProjectData>, e: Fields, d: Defaults)
    requires TruthyNested(e)
    requires !Merge(current, e, d).failed
    ensures var base, after := current.GetOr(EmptyProject), Merge(current, e, d).profile;
      && (base.metrics.Some? ==> after.metrics.Some? && Carries(MetricProbes(base.metrics.value), MetricProbes(after.metrics.value)))
      && (base.teamInfo.Some? ==> after.teamInfo.Some? && Carries(LibrarianTeamProbes(base.teamInfo.value), LibrarianTeamProbes(after.teamInfo.value)))
      && (base.fundingInfo.Some? ==> after.fundingInfo.Some?)
  {
    var base, after := current.GetOr(EmptyProject), Merge(current, e, d).profile;
    var m, t := Get(e, "metrics"), Get(e, "team_info");
    NestedNames();
    NestedStepKeepsTruthy(base.metrics, d.metrics, m);
    NestedStepKeepsTruthy(base.teamInfo, d.team, t);
    if base.metrics.Some? { ProbesCarried(base.metrics.value, after.metrics.value); }
    if base.teamInfo.Some? { ProbesCarried(base.teamInfo.value, after.teamInfo.value); }
  }

  /** A record whose truthy attributes all stay truthy carries its probes. */
  lemma ProbesCarried(a: Record, b: Record)
    requires forall name :: Truthy(Attr(a, name)) ==> Truthy(Attr(b, name))
    ensures Carries(MetricProbes(a), MetricProbes(b))
    ensures Carries(LibrarianTeamProbes(a), LibrarianTeamProbes(b))
  {
  }

  lemma MergeDominates(current: Option<ProjectData>, e: Fields, d: Defaults)
    requires TruthyBasics(e) && TruthyNested(e)
    requires !Merge(current, e, d).failed
    ensures Dominates(current.GetOr(EmptyProject), Merge(current, e, d).profile)
  {
    MergeNeverEmpties(current, e, d);
    MergeCarriesNested(current, e, d);
  }

  /** A successful merge of an extraction whose values are all truthy never
      lowers the librarian's completeness score. */
  lemma MergeKeepsCompleteness(current: Option<ProjectData>, e: Fields, d: Defaults)
    requires TruthyBasics(e) && TruthyNested(e)
    requires !Merge(current, e, d).failed
    ensures CalculateCompleteness(current.GetOr(EmptyProject)) <= CalculateCompleteness(Merge(current, e, d).profile)
  {
    MergeDominates(current, e, d);
    CompletenessMonotone(current.GetOr(EmptyProject), Merge(current, e, d).profile);
  }

  /** Cleaning keeps a nested `0`, and merging it overwrites a filled metric:
      the score drops, so monotonicity needs every nested value truthy. */
  lemma NestedFalsyLowersCompleteness()
    ensures var p := EmptyProject.(metrics := Some(DefaultMetrics()["revenue" := Str("1M")]));
            var c := CleanExtractedData([("metrics", Obj([("revenue", Num(0.0))]))]);
            && c.Ok?
            && Get(c.value, "metrics") == Some(Obj([("revenue", Num(0.0))]))
            && !Merge(Some(p), c.value, ModelDefaults()).failed
            && CalculateCompleteness(Merge(Some(p), c.value, ModelDefaults()).profile) < CalculateCompleteness(p)
  {
    var m := DefaultMetrics()["revenue" := Str("1M")];
    var p := EmptyProject.(metrics := Some(m));
    CleanKeepsZero([("metrics", Obj([("revenue", Num(0.0))]))]);
    var e := CleanExtractedData([("metrics", Obj([("revenue", Num(0.0))]))]).value;
    WriteOne(m, "revenue", Num(0.0));
    MergeOnlyMetrics(p, e, ModelDefaults());
    MetricTallies(m);
  }

  /** Cleaning `{"metrics": {"revenue": 0}}` keeps the zero and nothing else. */
  lemma CleanKeepsZero(data: Fields)
    requires data == [("metrics", Obj([("revenue", Num(0.0))]))]
    ensures var c := CleanExtractedData(data);
            && c.Ok?
            && Get(c.value, "metrics") == Some(Obj([("revenue", Num(0.0))]))
            && OnlyMetrics(c.value)
  {
    var m := [("revenue", Num(0.0))];
    assert KeptEntry(m[0]);
    assert DropEmpty(m) == m;
    CleanMetricsOnly(data, m);
  }

  /** Cleaning a record holding only a non-empty metrics record whose
      entries all survive gives that record back and nothing else. */
  lemma CleanMetricsOnly(data: Fields, m: Fields)
    requires data == [("metrics", Obj(m))] && m != [] && DropEmpty(m) == m
    ensures var c := CleanExtractedData(data);
            && c.Ok?
            && Get(c.value, "metrics") == Some(Obj(m))
            && OnlyMetrics(c.value)
  {
    MetricsCleaned(data, m);
    assert Keys(data) == {"metrics"};
    OnlyMetricsFromClean(data, CleanExtractedData(data).value);
  }

  lemma MetricsCleaned(data: Fields, m: Fields)
    requires data == [("metrics", Obj(m))] && m != [] && DropEmpty(m) == m
    ensures CleanExtractedData(data).Ok?
    ensures Get(CleanExtractedData(data).value, "metrics") == Some(Obj(m))
  {
    GetOne("metrics", Obj(m), "metrics");
    GetOne("metrics", Obj(m), "team_info");
    GetOne("metrics", Obj(m), "funding_info");
    MetricsIsNested();
  }

  lemma MetricsIsNested()
    ensures "metrics" !in BasicFields && "metrics" in NestedFields
  {
  }

  lemma BasicNames()
    ensures "categories" in BasicFields && "stage" in BasicFields && "problem_solved" in BasicFields
    ensures "solution" in BasicFields && "target_market" in BasicFields && "business_model" in BasicFields
  {
  }

  lemma NestedNames()
    ensures "metrics" in NestedFields && "team_info" in NestedFields && "funding_info" in NestedFields
  {
  }

  lemma OnlyMetricsFromClean(data: Fields, e: Fields)
    requires Keys(data) == {"metrics"}
    requires forall f :: Get(e, f) == CleanedField(data, f)
    ensures OnlyMetrics(e)
  {
    forall f | f != "metrics" ensures Get(data, f).None? { }
  }

  /** An extraction naming no merged field other than `metrics`. */
  predicate OnlyMetrics(e: Fields) {
    && Get(e, "categories").None? && Get(e, "stage").None? && Get(e, "problem_solved").None?
    && Get(e, "solution").None? && Get(e, "target_market").None? && Get(e, "business_model").None?
    && Get(e, "team_info").None? && Get(e, "funding_info").None?
  }

  lemma WriteOne(rec: Record, k: string, v: Value)
    requires k in rec
    ensures WriteAttrs(rec, [(k, v)]) == rec[k := v]
  {
    assert [(k, v)][1..] == [];
  }

  /** An extraction holding only a metrics dict changes only the metrics. */
  lemma MergeOnlyMetrics(p: ProjectData, e: Fields, d: Defaults)
    requires p.metrics.Some?
    requires Get(e, "metrics").Some? && Get(e, "metrics").value.Obj?
    requires OnlyMetrics(e)
    ensures !Merge(Some(p), e, d).failed
    ensures Merge(Some(p), e, d).profile == p.(metrics := Some(WriteAttrs(p.metrics.value, Get(e, "metrics").value.fields)))
  {
  }

  /** The tallies of the two profiles in the counterexample above. */
  lemma MetricTallies(m: Record)
    requires m == DefaultMetrics()["revenue" := Str("1M")]
    ensures LibrarianTally(EmptyProject.(metrics := Some(m))).completed > 0.0
    ensures LibrarianTally(EmptyProject.(metrics := Some(m["revenue" := Num(0.0)]))).completed == 0.0
  {
    assert "users" in MetricFields && "growth_rate" in MetricFields;
    assert MetricProbes(m) == [Str("1M"), Null, Null];
    assert NumFilled([Null]) == 0;
    assert NumFilled([Null, Null]) == 0 by { assert [Null, Null][1..] == [Null]; }
    assert NumFilled(MetricProbes(m)) == 1 by { assert [Str("1M"), Null, Null][1..] == [Null, Null]; }
    assert MetricProbes(m["revenue" := Num(0.0)]) == [Num(0.0), Null, Null];
    assert NumFilled(MetricProbes(m["revenue" := Num(0.0)])) == 0 by { assert [Num(0.0), Null, Null][1..] == [Null, Null]; }
  }

  // ---------------------------------------------------------------- relevance

  const RelevanceWeights: seq<(string, real)> := [
    ("categories", 0.2), ("stage", 0.2), ("problem_solved", 0.15), ("solution", 0.15),
    ("target_market", 0.1), ("business_model", 0.1), ("metrics", 0.05), ("team_info", 0.03),
    ("funding_info", 0.02)]

  /** Every relevance weight is positive, and together they make 1. */
  lemma RelevanceWeightsSum()
    ensures forall i :: 0 <= i < |RelevanceWeights| ==> RelevanceWeights[i].1 > 0.0
    ensures TotalWeight(RelevanceWeights) == 1.0
  {
  }

  /** The summed weight of the listed keys present in `e`. */
  function PresentWeight(e: Fields, weights: seq<(string, real)>): real {
    if |weights| == 0 then 0.0
    else (if weights[0].0 in Keys(e) then weights[0].1 else 0.0) + PresentWeight(e, weights[1..])
  }

  function TotalWeight(weights: seq<(string, real)>): real {
    if |weights| == 0 then 0.0 else weights[0].1 + TotalWeight(weights[1..])
  }

  lemma {:induction false} PresentWeightBounds(e: Fields, weights: seq<(string, real)>)
    requires forall i :: 0 <= i < |weights| ==> weights[i].1 >= 0.0
    ensures 0.0 <= PresentWeight(e, weights) <= TotalWeight(weights)
    ensures forall i :: 0 <= i < |weights| && weights[i].0 in Keys(e) ==> PresentWeight(e, weights) >= weights[i].1
  {
    if |weights| > 0 {
      PresentWeightBounds(e, weights[1..]);
      assert forall i :: 1 <= i < |weights| ==> weights[i] == weights[1..][i - 1];
    }
  }

  /** `_calculate_relevance`: nothing extracted scores 0; otherwise the weights
      of the extracted keys. The weights total exactly 1, so the cap at 1.0
      never changes the sum. */
  function CalculateRelevance(e: Fields): (r: real)
    ensures e == [] ==> r == 0.0
    ensures e != [] ==> r == PresentWeight(e, RelevanceWeights)
    ensures 0.0 <= r <= 1.0
  {
    if e == [] then 0.0
    else
      var total := PresentWeight(e, RelevanceWeights);
      RelevanceWeightsSum();
      PresentWeightBounds(e, RelevanceWeights);
      if total < 1.0 then total else 1.0
  }

  /** The position of a cleaned field's weight. */
  function WeightIndex(f: string): (i: nat)
    requires f in BasicFields || f in NestedFields
    ensures i < |RelevanceWeights| && RelevanceWeights[i].0 == f
  {
    if f == "categories" then 0 else if f == "stage" then 1
    else if f == "problem_solved" then 2 else if f == "solution" then 3
    else if f == "target_market" then 4 else if f == "business_model" then 5
    else if f == "metrics" then 6 else if f == "team_info" then 7 else 8
  }

  /** A non-empty cleaned extraction always has positive relevance: every key
      cleaning can produce carries a positive weight. */
  lemma CleanExtractionIsRelevant(data: Fields)
    requires CleanExtractedData(data).Ok? && CleanExtractedData(data).value != []
    ensures CalculateRelevance(CleanExtractedData(data).value) > 0.0
  {
    var e := CleanExtractedData(data).value;
    var f := e[0].0;
    assert f in Keys(e);
    assert CleanedField(data, f).Some?;
    var i := WeightIndex(f);
    RelevanceWeightsSum();
    PresentWeightBounds(e, RelevanceWeights);
    assert PresentWeight(e, RelevanceWeights) >= RelevanceWeights[i].1;
  }

  // ---------------------------------------------------------------- one conversation turn

  /** Both messages are cut to this many characters for storage. */
  const StoredMessageLength: nat := 500

  /** The stored record of one processed turn. */
  datatype LibrarianUpdate = LibrarianUpdate(
    conversationId: string,
    userMessage: string,
    assistantResponse: string,
    contextExtracted: Fields,
    relevanceScore: real,
    success: bool)

  /** What the librarian hands back to the chat route. */
  datatype UpdateResult = UpdateResult(
    projectData: Option<ProjectData>,
    completenessScore: real,
    librarianUpdate: Option<LibrarianUpdate>,
    extractedFields: seq<string>)

  /** The result of a turn that went through: the merged profile, its score,
      the record and the extracted keys. */
  function Completed(conversationId: string, userMessage: string, assistantResponse: string,
                     e: Fields, profile: ProjectData): (r: UpdateResult)
    ensures r.projectData == Some(profile) && r.extractedFields == KeyList(e)
    ensures r.completenessScore == CalculateCompleteness(profile) && 0.0 <= r.completenessScore <= 100.0
    ensures r.librarianUpdate.Some?
    ensures var u := r.librarianUpdate.value;
      && u.conversationId == conversationId && u.success && u.contextExtracted == e
      && |u.userMessage| <= StoredMessageLength && u.userMessage <= userMessage
      && |u.assistantResponse| <= StoredMessageLength && u.assistantResponse <= assistantResponse
      && 0.0 <= u.relevanceScore <= 1.0
    ensures var u := r.librarianUpdate.value;
      && u.userMessage == Take(userMessage, StoredMessageLength)
      && u.assistantResponse == Take(assistantResponse, StoredMessageLength)
      && u.relevanceScore == CalculateRelevance(e)
  {
    UpdateResult(
      Some(profile), CalculateCompleteness(profile),
      Some(LibrarianUpdate(conversationId, Take(userMessage, StoredMessageLength),
                           Take(assistantResponse, StoredMessageLength), e, CalculateRelevance(e), true)),
      KeyList(e))
  }

  /** Whether the turn raised: the merge failed part-way, or the record did
      not validate (`validId` says whether the conversation id parses as a UUID). */
  function TurnFails(current: Option<ProjectData>, e: Fields, validId: bool): (b: bool)
    ensures b <==>
      || !validId
      || (Get(e, "categories").Some? && MergeCategories(current.GetOr(EmptyProject).categories, Get(e, "categories").value).Err?)
      || NotDict(Get(e, "metrics")) || NotDict(Get(e, "team_info")) || NotDict(Get(e, "funding_info"))
  {
    Merge(current, e, ModelDefaults()).failed || !validId
  }

  /** `process_conversation_update` as written. The merge works on the caller's
      profile object itself, so when the turn raises after the merge has begun,
      the "unchanged" profile handed back already holds the partial merge. A
      fresh profile made for an absent one is dropped. */
  function ProcessConversationUpdateAsWritten(conversationId: string, userMessage: string, assistantResponse: string,
                                              current: Option<ProjectData>, reply: string,
                                              decode: string -> Option<Value>, validId: bool): (r: UpdateResult)
    ensures var e := ExtractProjectInfo(reply, decode);
      TurnFails(current, e, validId) ==>
        && r.completenessScore == 0.0 && r.librarianUpdate.None? && r.extractedFields == []
        && (current.None? ==> r.projectData.None?)
        && (current.Some? ==> r.projectData == Some(Merge(current, e, ModelDefaults()).profile))
    ensures var e := ExtractProjectInfo(reply, decode);
      !TurnFails(current, e, validId) ==>
        r == Completed(conversationId, userMessage, assistantResponse, e, Merge(current, e, ModelDefaults()).profile)
  {
    var e := ExtractProjectInfo(reply, decode);
    var m := Merge(current, e, ModelDefaults());
    if !TurnFails(current, e, validId) then Completed(conversationId, userMessage, assistantResponse, e, m.profile)
    else UpdateResult(if current.Some? then Some(m.profile) else None, 0.0, None, [])
  }

  /** `process_conversation_update` with the fallback it intends: a turn that
      raises hands back the profile it was given, untouched, with score 0 and
      no record; a turn that goes through hands back the merged profile, its
      score, a record with both messages cut to 500 characters and the
      extraction's relevance, and the extracted keys. */
  function ProcessConversationUpdate(conversationId: string, userMessage: string, assistantResponse: string,
                                     current: Option<ProjectData>, reply: string,
                                     decode: string -> Option<Value>, validId: bool): (r: UpdateResult)
    ensures var e := ExtractProjectInfo(reply, decode);
      r.librarianUpdate.Some? <==> !TurnFails(current, e, validId)
    ensures r.librarianUpdate.None? ==> r == UpdateResult(current, 0.0, None, [])
    ensures var e := ExtractProjectInfo(reply, decode);
      r.librarianUpdate.Some? ==>
        && r.projectData == Some(Merge(current, e, ModelDefaults()).profile)
        && 0.0 <= r.completenessScore <= 100.0
        && r.completenessScore == CalculateCompleteness(Merge(current, e, ModelDefaults()).profile)
        && r.extractedFields == KeyList(e)
    ensures r.librarianUpdate.Some? ==>
      var u := r.librarianUpdate.value;
        && u.conversationId == conversationId && u.success
        && |u.userMessage| <= StoredMessageLength && u.userMessage <= userMessage
        && |u.assistantResponse| <= StoredMessageLength && u.assistantResponse <= assistantResponse
        && 0.0 <= u.relevanceScore <= 1.0
        && u.contextExtracted == ExtractProjectInfo(reply, decode)
    ensures r.librarianUpdate.Some? ==>
      var u := r.librarianUpdate.value;
        && u.userMessage == Take(userMessage, StoredMessageLength)
        && u.assistantResponse == Take(assistantResponse, StoredMessageLength)
        && u.relevanceScore == CalculateRelevance(ExtractProjectInfo(reply, decode))
  {
    var e := ExtractProjectInfo(reply, decode);
    if TurnFails(current, e, validId) then UpdateResult(current, 0.0, None, [])
    else Completed(conversationId, userMessage, assistantResponse, e, Merge(current, e, ModelDefaults()).profile)
  }

  /** The two versions agree on every turn that goes through, and on every
      failing turn that had no profile to begin with. */
  lemma ProcessAgreesUnlessPartial(conversationId: string, userMessage: string, assistantResponse: string,
                                   current: Option<ProjectData>, reply: string,
                                   decode: string -> Option<Value>, validId: bool)
    ensures var e := ExtractProjectInfo(reply, decode);
      !TurnFails(current, e, validId) || current.None? ==>
        ProcessConversationUpdateAsWritten(conversationId, userMessage, assistantResponse, current, reply, decode, validId)
        == ProcessConversationUpdate(conversationId, userMessage, assistantResponse, current, reply, decode, validId)
  {
  }

  /** A turn that goes through is kept: processing the same reply again on the
      resulting profile leaves the profile as it is. */
  lemma ProcessIdempotent(conversationId: string, userMessage: string, assistantResponse: string,
                          current: Option<ProjectData>, reply: string,
                          decode: string -> Option<Value>, validId: bool)
    ensures var once := ProcessConversationUpdate(conversationId, userMessage, assistantResponse, current, reply, decode, validId);
      once.librarianUpdate.Some? ==>
      ProcessConversationUpdate(conversationId, userMessage, assistantResponse, once.projectData, reply, decode, validId) == once
  {
    var once := ProcessConversationUpdate(conversationId, userMessage, assistantResponse, current, reply, decode, validId);
    if once.librarianUpdate.Some? {
      MergeIdempotent(current, ExtractProjectInfo(reply, decode), ModelDefaults());
    }
  }

  /** The leak, on a concrete turn: the profile says "A"; the model's reply names
      the problem "B" and gives categories as a string, so the merge writes "B"
      and then raises on the categories. The fallback as written hands back "B";
      the intended fallback hands back "A". */
  lemma FallbackLeaksPartialMerge(current: Option<ProjectData>, reply: string, decode: string -> Option<Value>)
    requires current == Some(EmptyProject.(problemSolved := Str("A")))
    requires reply == "{}"
    requires decode(reply) == Some(Obj([("problem_solved", Str("B")), ("categories", Str("fintech"))]))
    ensures ProcessConversationUpdateAsWritten("c", "u", "a", current, reply, decode, true).projectData.Some?
    ensures ProcessConversationUpdateAsWritten("c", "u", "a", current, reply, decode, true).projectData.value.problemSolved
            == Str("B")
    ensures ProcessConversationUpdate("c", "u", "a", current, reply, decode, true).projectData == current
  {
    BraceReplyUnfenced(reply);
    StripFixesTrimmed("B");
    StripFixesTrimmed("fintech");
    LeakyReply(reply, decode, "B", "fintech");
    LeakyMerge(current.value, ExtractProjectInfo(reply, decode), ModelDefaults());
    LeakyTurn(current, reply, decode);
  }

  /** What the extraction makes of a reply like the one above. */
  lemma LeakyReply(reply: string, decode: string -> Option<Value>, problem: string, category: string)
    requires StripFences(reply) == reply
    requires problem != "" && Strip(problem) == problem && category != "" && Strip(category) == category
    requires decode(reply) == Some(Obj([("problem_solved", Str(problem)), ("categories", Str(category))]))
    ensures Get(ExtractProjectInfo(reply, decode), "problem_solved") == Some(Str(problem))
    ensures Get(ExtractProjectInfo(reply, decode), "categories") == Some(Str(category))
  {
    var raw: Fields := [("problem_solved", Str(problem)), ("categories", Str(category))];
    LeakyRaw(raw, problem, category);
    LeakyExtraction(raw, problem, category);
    ExtractDecoded(reply, decode, raw);
  }

  /** A reply the fence stripping leaves alone and that decodes to a
      record which cleans without error gives the cleaned record. */
  lemma ExtractDecoded(reply: string, decode: string -> Option<Value>, raw: Fields)
    requires StripFences(reply) == reply && decode(reply) == Some(Obj(raw)) && CleanExtractedData(raw).Ok?
    ensures ExtractProjectInfo(reply, decode) == CleanExtractedData(raw).value
  {
  }

  lemma LeakyRaw(raw: Fields, problem: string, category: string)
    requires raw == [("problem_solved", Str(problem)), ("categories", Str(category))]
    ensures Get(raw, "problem_solved") == Some(Str(problem)) && Get(raw, "categories") == Some(Str(category))
    ensures Get(raw, "metrics").None? && Get(raw, "team_info").None? && Get(raw, "funding_info").None?
  {
    GetPair("problem_solved", Str(problem), "categories", Str(category), "problem_solved");
    GetPair("problem_solved", Str(problem), "categories", Str(category), "categories");
    GetPair("problem_solved", Str(problem), "categories", Str(category), "metrics");
    GetPair("problem_solved", Str(problem), "categories", Str(category), "team_info");
    GetPair("problem_solved", Str(problem), "categories", Str(category), "funding_info");
  }

  lemma BraceReplyUnfenced(reply: string)
    requires reply == "{}"
    ensures StripFences(reply) == reply
  {
    StripFixesTrimmed(reply);
    assert !StartsWith(reply, "```json");
  }

  /** Any turn whose merge fails: the two fallbacks. */
  lemma LeakyTurn(current: Option<ProjectData>, reply: string, decode: string -> Option<Value>)
    ensures current.Some? && Merge(current, ExtractProjectInfo(reply, decode), ModelDefaults()).failed ==>
      && ProcessConversationUpdateAsWritten("c", "u", "a", current, reply, decode, true).projectData
         == Some(Merge(current, ExtractProjectInfo(reply, decode), ModelDefaults()).profile)
      && ProcessConversationUpdate("c", "u", "a", current, reply, decode, true).projectData == current
  {
  }

  /** Cleaning a reply like the one above keeps both fields. */
  lemma LeakyExtraction(raw: Fields, problem: string, category: string)
    requires Get(raw, "problem_solved") == Some(Str(problem)) && Get(raw, "categories") == Some(Str(category))
    requires Get(raw, "metrics").None? && Get(raw, "team_info").None? && Get(raw, "funding_info").None?
    requires problem != "" && Strip(problem) == problem && category != "" && Strip(category) == category
    ensures CleanExtractedData(raw).Ok?
    ensures Get(CleanExtractedData(raw).value, "problem_solved") == Some(Str(problem))
    ensures Get(CleanExtractedData(raw).value, "categories") == Some(Str(category))
  {
    var c := CleanExtractedData(raw);
    assert Get(c.value, "problem_solved") == CleanedField(raw, "problem_solved");
    assert Get(c.value, "categories") == CleanedField(raw, "categories");
    assert "problem_solved" in BasicFields && "categories" in BasicFields;
  }

  /** Merging it writes the problem, then fails on the categories. */
  lemma LeakyMerge(p: ProjectData, e: Fields, d: Defaults)
    requires p == EmptyProject.(problemSolved := Str("A"))
    requires Get(e, "problem_solved") == Some(Str("B")) && Get(e, "categories") == Some(Str("fintech"))
    ensures Merge(Some(p), e, d).failed
    ensures Merge(Some(p), e, d).profile.problemSolved == Str("B")
  {
  }
}

=== FILE: numbers.dfy ===
/** Python's float arithmetic that several modules share: `int()` of a float
    and the running total of a scoring loop. */
module Numbers {

  /** Python's `int(x)` on a float: truncation toward zero. */
  function Trunc(x: real): (r: int)
    ensures x >= 0.0 ==> r as real <= x < r as real + 1.0
    ensures x < 0.0 ==> r as real - 1.0 < x <= r as real
  {
    if x >= 0.0 then x.Floor else -((-x).Floor)
  }

  /** `total = 0.0` then `total += w` for each `w` in order. */
  function Sum(ws: seq<real>): real {
    if |ws| == 0 then 0.0 else Sum(ws[..|ws| - 1]) + ws[|ws| - 1]
  }

  /** The running total also splits off the first term. */
  lemma {:induction false} SumCons(w: real, ws: seq<real>)
    ensures Sum([w] + ws) == w + Sum(ws)
    decreases |ws|
  {
    if |ws| > 0 {
      var front := ws[..|ws| - 1];
      SumCons(w, front);
      assert ([w] + ws)[..|[w] + ws| - 1] == [w] + front;
    } else {
      assert [w] + ws == [w];
      assert [w][..0] == [];
    }
  }
}

=== FILE: profile.dfy ===
/** The cumulative project profile and the two checks the user models define
    on it: the fifteen-field completeness score and the search-readiness
    validator (app/models/user.py). Field values are JSON values because the
    profile is filled from extracted JSON without conversion. */
module Profile {
  import opened Wrappers
  import opened Json

  /** A metrics, team or funding sub-record: attribute name to value. Its
      domain is always the declared attribute set of its kind. */
  type Record = map<string, Value>

  const MetricFields: set<string> := {
    "revenue", "mrr", "arr", "burn_rate", "runway", "users", "active_users",
    "growth_rate", "churn_rate", "cac", "ltv", "unit_economics" }

  const TeamFields: set<string> := {
    "size", "founders", "key_hires", "advisors", "investors", "founder_experience",
    "previous_companies", "technical_team", "business_team" }

  const FundingFields: set<string> := {
    "funding_stage", "amount_raised", "current_round", "target_amount",
    "previous_funding", "investors", "use_of_funds", "funding_timeline" }

  /** `ProjectMetrics()`: every metric unset. */
  function DefaultMetrics(): (r: Record)
    ensures r.Keys == MetricFields
  {
    map k | k in MetricFields :: Null
  }

  /** `TeamInfo()`: lists empty, flags false, the rest unset. */
  function DefaultTeam(): (r: Record)
    ensures r.Keys == TeamFields
  {
    map[
      "size" := Null, "founders" := Arr([]), "key_hires" := Arr([]), "advisors" := Arr([]),
      "investors" := Arr([]), "founder_experience" := Null, "previous_companies" := Arr([]),
      "technical_team" := Bool(false), "business_team" := Bool(false)]
  }

  /** `FundingInfo()`: lists empty, the rest unset. */
  function DefaultFunding(): (r: Record)
    ensures r.Keys == FundingFields
  {
    map[
      "funding_stage" := Null, "amount_raised" := Null, "current_round" := Null,
      "target_amount" := Null, "previous_funding" := Arr([]), "investors" := Arr([]),
      "use_of_funds" := Null, "funding_timeline" := Null]
  }

  /** `getattr(record, name, None)`. */
  function Attr(r: Record, name: string): Value {
    if name in r then r[name] else Null
  }

  /** The profile fields the core reads or writes; an unset field is `Null`. */
  datatype ProjectData = ProjectData(
    categories: Value,
    stage: Value,
    problemSolved: Value,
    solution: Value,
    targetMarket: Value,
    businessModel: Value,
    competitiveAdvantage: Value,
    metrics: Option<Record>,
    teamInfo: Option<Record>,
    fundingInfo: Option<Record>,
    marketSize: Value,
    goToMarket: Value)

  /** `ProjectData()`: nothing known yet. */
  const EmptyProject := ProjectData(Null, Null, Null, Null, Null, Null, Null, None, None, None, Null, Null)

  /** Sub-records hold exactly their declared attributes. */
  predicate WellFormed(p: ProjectData) {
    && (p.metrics.Some? ==> p.metrics.value.Keys == MetricFields)
    && (p.teamInfo.Some? ==> p.teamInfo.value.Keys == TeamFields)
    && (p.fundingInfo.Some? ==> p.fundingInfo.value.Keys == FundingFields)
  }

  // ---------------------------------------------------------------- completeness

  /** The number of truthy values. */
  function NumFilled(values: seq<Value>): (n: nat)
    ensures n <= |values|
  {
    if |values| == 0 then 0 else (if Truthy(values[0]) then 1 else 0) + NumFilled(values[1..])
  }

  lemma NumFilledAppend(a: seq<Value>, b: seq<Value>)
    ensures NumFilled(a + b) == NumFilled(a) + NumFilled(b)
  {
    if |a| > 0 {
      assert (a + b)[1..] == a[1..] + b;
      NumFilledAppend(a[1..], b);
    } else {
      assert a + b == b;
    }
  }

  /** Counting is monotone in which values are truthy. */
  lemma {:induction false} NumFilledMono(a: seq<Value>, b: seq<Value>)
    requires |a| == |b|
    requires forall i :: 0 <= i < |a| && Truthy(a[i]) ==> Truthy(b[i])
    ensures NumFilled(a) <= NumFilled(b)
  {
    if |a| > 0 {
      NumFilledMono(a[1..], b[1..]);
    }
  }

  /** Running field counts: fields considered and fields found filled. */
  datatype Tally = Tally(total: nat, completed: nat)

  /** One loop of the score: every value counts toward the total, truthy ones
      toward the completed count. */
  function CountFields(t: Tally, values: seq<Value>): (r: Tally)
    ensures r == Tally(t.total + |values|, t.completed + NumFilled(values))
    decreases |values|
  {
    if |values| == 0 then t
    else CountFields(Tally(t.total + 1, t.completed + (if Truthy(values[0]) then 1 else 0)), values[1..])
  }

  /** The fields the score inspects, group by group. */
  function BasicProbes(p: ProjectData): seq<Value> {
    [p.categories, p.stage, p.problemSolved, p.solution, p.targetMarket]
  }

  function BusinessProbes(p: ProjectData): seq<Value> {
    [p.businessModel, p.competitiveAdvantage]
  }

  function TeamProbes(t: Record): seq<Value> {
    [Attr(t, "size"), Attr(t, "founders"), Attr(t, "founder_experience")]
  }

  function MetricProbes(m: Record): seq<Value> {
    [Attr(m, "revenue"), Attr(m, "users"), Attr(m, "growth_rate")]
  }

  function MarketProbes(p: ProjectData): seq<Value> {
    [p.marketSize, p.goToMarket]
  }

  /** The score's tally, group by group: an absent team or metrics record
      adds three fields to the total and none to the completed count. */
  function ScoreTally(p: ProjectData): Tally {
    var basic := CountFields(Tally(0, 0), BasicProbes(p));
    var business := CountFields(basic, BusinessProbes(p));
    var team :=
      match p.teamInfo
      case Some(t) => CountFields(business, TeamProbes(t))
      case None => Tally(business.total + 3, business.completed);
    var metrics :=
      match p.metrics
      case Some(m) => CountFields(team, MetricProbes(m))
      case None => Tally(team.total + 3, team.completed);
    CountFields(metrics, MarketProbes(p))
  }

  /** The fifteen values the score inspects, with `Null` standing for each
      field of an absent team or metrics record. */
  function Probes(p: ProjectData): (r: seq<Value>)
    ensures |r| == 15
  {
    BasicProbes(p) + BusinessProbes(p)
    + (match p.teamInfo case Some(t) => TeamProbes(t) case None => [Null, Null, Null])
    + (match p.metrics case Some(m) => MetricProbes(m) case None => [Null, Null, Null])
    + MarketProbes(p)
  }

  lemma ScoreTallyIsProbes(p: ProjectData)
    ensures ScoreTally(p) == Tally(15, NumFilled(Probes(p)))
  {
    var team := match p.teamInfo case Some(t) => TeamProbes(t) case None => [Null, Null, Null];
    var metrics := match p.metrics case Some(m) => MetricProbes(m) case None => [Null, Null, Null];
    assert NumFilled([Null, Null, Null]) == 0;
    NumFilledAppend(BasicProbes(p), BusinessProbes(p));
    NumFilledAppend(BasicProbes(p) + BusinessProbes(p), team);
    NumFilledAppend(BasicProbes(p) + BusinessProbes(p) + team, metrics);
    NumFilledAppend(BasicProbes(p) + BusinessProbes(p) + team + metrics, MarketProbes(p));
  }

  /** `calculate_completeness_score`: the percentage of the fifteen inspected
      fields that are filled. */
  function CalculateCompletenessScore(p: ProjectData): (r: real)
    ensures r == NumFilled(Probes(p)) as real * 100.0 / 15.0
    ensures 0.0 <= r <= 100.0
  {
    var t := ScoreTally(p);
    ScoreTallyIsProbes(p);
    FifteenthsPercent(t.completed, t.total);
    if t.total > 0 then (t.completed as real / t.total as real) * 100.0 else 0.0
  }

  lemma FifteenthsPercent(c: nat, n: nat)
    requires n == 15 && c <= n
    ensures (c as real / n as real) * 100.0 == c as real * 100.0 / 15.0
    ensures 0.0 <= c as real * 100.0 / 15.0 <= 100.0
  {
  }

  /** An absent team or metrics record scores exactly like a default one:
      absence counts as three unfilled fields, not as fewer fields. */
  lemma AbsentRecordsCountAsEmpty(p: ProjectData)
    ensures CalculateCompletenessScore(p.(teamInfo := None)) == CalculateCompletenessScore(p.(teamInfo := Some(DefaultTeam())))
    ensures CalculateCompletenessScore(p.(metrics := None)) == CalculateCompletenessScore(p.(metrics := Some(DefaultMetrics())))
  {
    DefaultProbesEmpty();
    SameFilledSameScore(p.(teamInfo := None), p.(teamInfo := Some(DefaultTeam())));
    SameFilledSameScore(p.(metrics := None), p.(metrics := Some(DefaultMetrics())));
  }

  /** No inspected field of a default team or metrics record is filled. */
  lemma DefaultProbesEmpty()
    ensures forall i :: 0 <= i < 3 ==> !Truthy(TeamProbes(DefaultTeam())[i])
    ensures forall i :: 0 <= i < 3 ==> !Truthy(MetricProbes(DefaultMetrics())[i])
  {
    assert TeamProbes(DefaultTeam()) == [Null, Arr([]), Null];
    assert MetricProbes(DefaultMetrics()) == [Null, Null, Null];
  }

  /** Two projects whose inspected fields are filled alike score alike. */
  lemma SameFilledSameScore(p: ProjectData, q: ProjectData)
    requires forall i :: 0 <= i < 15 ==> (Truthy(Probes(p)[i]) <==> Truthy(Probes(q)[i]))
    ensures CalculateCompletenessScore(p) == CalculateCompletenessScore(q)
  {
    CompletenessScoreMonotone(p, q);
    CompletenessScoreMonotone(q, p);
  }

  /** Filling more of the inspected fields never lowers the score. */
  lemma CompletenessScoreMonotone(p: ProjectData, q: ProjectData)
    requires forall i :: 0 <= i < 15 && Truthy(Probes(p)[i]) ==> Truthy(Probes(q)[i])
    ensures CalculateCompletenessScore(p) <= CalculateCompletenessScore(q)
  {
    NumFilledMono(Probes(p), Probes(q));
  }

  // ---------------------------------------------------------------- project

  datatype Project = Project(data: ProjectData, completenessScore: real)

  /** `Project.validate_completeness_score`: `None` becomes 0, any other value
      is clamped into [0, 100]. */
  function ValidateCompletenessScore(v: Option<real>): (r: real)
    ensures 0.0 <= r <= 100.0
    ensures v.None? ==> r == 0.0
    ensures v.Some? && 0.0 <= v.value <= 100.0 ==> r == v.value
    ensures v.Some? && v.value < 0.0 ==> r == 0.0
    ensures v.Some? && v.value > 100.0 ==> r == 100.0
  {
    match v
    case None => 0.0
    case Some(x) =>
      var low := if 100.0 < x then 100.0 else x;
      if 0.0 < low then low else 0.0
  }

  /** A validated score validates to itself. */
  lemma ValidateCompletenessScoreIdempotent(v: Option<real>)
    ensures ValidateCompletenessScore(Some(ValidateCompletenessScore(v))) == ValidateCompletenessScore(v)
  {
  }

  // ---------------------------------------------------------------- search readiness

  const CategoriesIssue := "Project categories are required"
  const StageIssue := "Project stage is required"
  const ProblemIssue := "Problem description is required"
  const CompletenessIssue := "Project must be at least 50% complete for investor search"
  const FundingIssue := "Funding information is required for investor search"
  const SolutionIssue := "Solution description is required for company search"

  datatype Readiness = Readiness(ok: bool, issues: seq<string>)

  const AllIssues := [CategoriesIssue, StageIssue, ProblemIssue, CompletenessIssue, FundingIssue, SolutionIssue]

  /** The requirements every search type shares. */
  function BasicIssues(p: ProjectData): (r: seq<string>)
    ensures CategoriesIssue in r <==> !Truthy(p.categories)
    ensures StageIssue in r <==> !Truthy(p.stage)
    ensures ProblemIssue in r <==> !Truthy(p.problemSolved)
    ensures CompletenessIssue !in r && FundingIssue !in r && SolutionIssue !in r
    ensures forall i :: 0 <= i < |r| ==> r[i] in AllIssues
  {
    (if !Truthy(p.categories) then [CategoriesIssue] else [])
    + (if !Truthy(p.stage) then [StageIssue] else [])
    + (if !Truthy(p.problemSolved) then [ProblemIssue] else [])
  }

  /** The requirements of one search type; unknown types add none. */
  function SearchTypeIssues(project: Project, searchType: string): (r: seq<string>)
    ensures CategoriesIssue !in r && StageIssue !in r && ProblemIssue !in r
    ensures CompletenessIssue in r <==> searchType == "investors" && project.completenessScore < 50.0
    ensures FundingIssue in r <==> searchType == "investors" && project.data.fundingInfo.None?
    ensures SolutionIssue in r <==> searchType == "companies" && !Truthy(project.data.solution)
    ensures forall i :: 0 <= i < |r| ==> r[i] in AllIssues
  {
    if searchType == "investors" then
      (if project.completenessScore < 50.0 then [CompletenessIssue] else [])
      + (if project.data.fundingInfo.None? then [FundingIssue] else [])
    else if searchType == "companies" then
      (if !Truthy(project.data.solution) then [SolutionIssue] else [])
    else []
  }

  /** `validate_project_for_search`: the basic requirements for every search,
      then the requirements of the named search type; ready iff no issue. */
  function ValidateProjectForSearch(project: Project, searchType: string): (r: Readiness)
    ensures r.ok <==> r.issues == []
    ensures CategoriesIssue in r.issues <==> !Truthy(project.data.categories)
    ensures StageIssue in r.issues <==> !Truthy(project.data.stage)
    ensures ProblemIssue in r.issues <==> !Truthy(project.data.problemSolved)
    ensures CompletenessIssue in r.issues <==> searchType == "investors" && project.completenessScore < 50.0
    ensures FundingIssue in r.issues <==> searchType == "investors" && project.data.fundingInfo.None?
    ensures SolutionIssue in r.issues <==> searchType == "companies" && !Truthy(project.data.solution)
    ensures forall i :: 0 <= i < |r.issues| ==> r.issues[i] in AllIssues
  {
    var basic := BasicIssues(project.data);
    var specific := SearchTypeIssues(project, searchType);
    var issues := basic + specific;
    assert forall x :: x in issues <==> x in basic || x in specific;
    Readiness(|issues| == 0, issues)
  }
}

=== FILE: ranking.dfy ===
/** Python's stable `list.sort(key=..., reverse=True)` and `[:n]` truncation,
    shared by every ranked result list of the core. */
module Ranking {
  import opened Seqs

  /** A sort key. Python compares tuple keys lexicographically; a one-component
      key `(x,)` is the pair `(x, 0)`, which orders exactly as `x` does. */
  datatype Key = Key(primary: real, secondary: real)

  predicate KeyGe(a: Key, b: Key) {
    a.primary > b.primary || (a.primary == b.primary && a.secondary >= b.secondary)
  }

  predicate SortedDesc<T>(xs: seq<T>, key: T -> Key) {
    forall i, j :: 0 <= i < j < |xs| ==> KeyGe(key(xs[i]), key(xs[j]))
  }

  /** The elements of `xs` whose key is `k`, in their order in `xs`. */
  function WithKey<T>(xs: seq<T>, key: T -> Key, k: Key): seq<T> {
    if |xs| == 0 then []
    else (if key(xs[0]) == k then [xs[0]] else []) + WithKey(xs[1..], key, k)
  }

  lemma WithKeyAppend<T>(xs: seq<T>, ys: seq<T>, key: T -> Key, k: Key)
    ensures WithKey(xs + ys, key, k) == WithKey(xs, key, k) + WithKey(ys, key, k)
  {
    if |xs| > 0 {
      assert (xs + ys)[0] == xs[0];
      assert (xs + ys)[1..] == xs[1..] + ys;
      WithKeyAppend(xs[1..], ys, key, k);
    } else {
      assert xs + ys == ys;
    }
  }

  /** The elements of a prefix with a given key are a prefix of those of the whole. */
  lemma WithKeyPrefix<T>(s: seq<T>, key: T -> Key, m: nat)
    requires m <= |s|
    ensures forall k :: WithKey(s[..m], key, k) <= WithKey(s, key, k)
  {
    assert s == s[..m] + s[m..];
    forall k ensures WithKey(s[..m], key, k) <= WithKey(s, key, k) {
      WithKeyAppend(s[..m], s[m..], key, k);
    }
  }

  lemma WithKeySingle<T>(x: T, key: T -> Key, k: Key)
    ensures WithKey([x], key, k) == if key(x) == k then [x] else []
  {
    assert WithKey([x], key, k) == (if key(x) == k then [x] else []) + WithKey([x][1..], key, k);
  }

  /** Selecting one key commutes with filtering. */
  lemma {:induction false} WithKeyFilter<T>(xs: seq<T>, key: T -> Key, keep: T -> bool, k: Key)
    ensures WithKey(Filter(xs, keep), key, k) == Filter(WithKey(xs, key, k), keep)
    decreases |xs|
  {
    if |xs| > 0 {
      var x, rest := xs[0], xs[1..];
      WithKeyFilter(rest, key, keep, k);
      var fx := if keep(x) then [x] else [];
      var wx := if key(x) == k then [x] else [];
      assert Filter(xs, keep) == fx + Filter(rest, keep);
      WithKeyAppend(fx, Filter(rest, keep), key, k);
      if keep(x) { WithKeySingle(x, key, k); } else { assert WithKey(fx, key, k) == []; }
      assert WithKey(xs, key, k) == wx + WithKey(rest, key, k);
      FilterAppend(wx, WithKey(rest, key, k), keep);
      if key(x) == k { FilterSingle(x, keep); } else { assert Filter(wx, keep) == []; }
    }
  }

  /** Filtering two permutations of each other gives permutations of each other. */
  lemma FilterPermutation<T>(s: seq<T>, xs: seq<T>, keep: T -> bool)
    requires multiset(s) == multiset(xs)
    ensures multiset(Filter(s, keep)) == multiset(Filter(xs, keep))
    ensures |Filter(s, keep)| == |Filter(xs, keep)|
  {
    var a, b := Filter(s, keep), Filter(xs, keep);
    forall y ensures multiset(a)[y] == multiset(b)[y] {
      if !keep(y) {
        assert y !in a && y !in b;
      }
    }
    assert multiset(a) == multiset(b);
    assert |a| == |multiset(a)| && |b| == |multiset(b)|;
  }

  lemma WithKeyNone<T>(xs: seq<T>, key: T -> Key, k: Key)
    requires forall i :: 0 <= i < |xs| ==> key(xs[i]) != k
    ensures WithKey(xs, key, k) == []
  {
  }

  /** Places `x` after every element whose key is at least its own. */
  function Insert<T>(sorted: seq<T>, x: T, key: T -> Key): seq<T> {
    if |sorted| == 0 then [x]
    else if KeyGe(key(sorted[0]), key(x)) then [sorted[0]] + Insert(sorted[1..], x, key)
    else [x] + sorted
  }

  lemma InsertMultiset<T>(sorted: seq<T>, x: T, key: T -> Key)
    ensures multiset(Insert(sorted, x, key)) == multiset(sorted) + multiset{x}
  {
    if |sorted| > 0 && KeyGe(key(sorted[0]), key(x)) {
      InsertMultiset(sorted[1..], x, key);
      assert sorted == [sorted[0]] + sorted[1..];
    }
  }

  lemma {:induction false} InsertSorted<T>(sorted: seq<T>, x: T, key: T -> Key)
    requires SortedDesc(sorted, key)
    ensures SortedDesc(Insert(sorted, x, key), key)
  {
    if |sorted| > 0 && KeyGe(key(sorted[0]), key(x)) {
      var rest := Insert(sorted[1..], x, key);
      InsertSorted(sorted[1..], x, key);
      InsertMultiset(sorted[1..], x, key);
      forall i | 0 <= i < |rest|
        ensures KeyGe(key(sorted[0]), key(rest[i]))
      {
        assert rest[i] in multiset(rest);
        assert rest[i] in multiset(sorted[1..]) || rest[i] == x;
      }
    }
  }

  lemma {:induction false} InsertWithKey<T>(sorted: seq<T>, x: T, key: T -> Key, k: Key)
    requires SortedDesc(sorted, key)
    ensures WithKey(Insert(sorted, x, key), key, k) == WithKey(sorted, key, k) + (if key(x) == k then [x] else [])
  {
    if |sorted| == 0 {
      assert WithKey([x], key, k) == (if key(x) == k then [x] else []) + WithKey([], key, k);
    } else if KeyGe(key(sorted[0]), key(x)) {
      InsertWithKey(sorted[1..], x, key, k);
      InsertWithKeyBehind(sorted, x, key, k);
    } else {
      InsertWithKeyFront(sorted, x, key, k);
    }
  }

  /** The step of `InsertWithKey` where `x` goes behind the first element. */
  lemma InsertWithKeyBehind<T>(sorted: seq<T>, x: T, key: T -> Key, k: Key)
    requires |sorted| > 0 && KeyGe(key(sorted[0]), key(x))
    requires WithKey(Insert(sorted[1..], x, key), key, k) == WithKey(sorted[1..], key, k) + (if key(x) == k then [x] else [])
    ensures WithKey(Insert(sorted, x, key), key, k) == WithKey(sorted, key, k) + (if key(x) == k then [x] else [])
  {
    WithKeyAppend([sorted[0]], Insert(sorted[1..], x, key), key, k);
    WithKeyAppend([sorted[0]], sorted[1..], key, k);
    assert sorted == [sorted[0]] + sorted[1..];
  }

  /** The step of `InsertWithKey` where `x` goes in front: every key in the
      list is larger than `x`'s. */
  lemma InsertWithKeyFront<T>(sorted: seq<T>, x: T, key: T -> Key, k: Key)
    requires SortedDesc(sorted, key)
    requires |sorted| > 0 && !KeyGe(key(sorted[0]), key(x))
    ensures WithKey(Insert(sorted, x, key), key, k) == WithKey(sorted, key, k) + (if key(x) == k then [x] else [])
  {
    forall i | 0 <= i < |sorted| ensures key(sorted[i]) != key(x) {
      if i > 0 { assert KeyGe(key(sorted[0]), key(sorted[i])); }
    }
    WithKeyAppend([x], sorted, key, k);
    assert WithKey([x], key, k) == (if key(x) == k then [x] else []) + WithKey([], key, k);
    if key(x) == k { WithKeyNone(sorted, key, k); }
  }

  /** Python's stable descending sort: the result is a permutation of the
      input, ordered by non-increasing key, and elements with equal keys keep
      their original relative order. */
  function SortDesc<T>(xs: seq<T>, key: T -> Key): (r: seq<T>)
    ensures multiset(r) == multiset(xs)
    ensures |r| == |xs|
    ensures SortedDesc(r, key)
    ensures forall k :: WithKey(r, key, k) == WithKey(xs, key, k)
  {
    if |xs| == 0 then []
    else
      var init, last := xs[..|xs| - 1], xs[|xs| - 1];
      var sortedInit := SortDesc(init, key);
      var r := Insert(sortedInit, last, key);
      assert xs == init + [last];
      InsertMultiset(sortedInit, last, key);
      InsertSorted(sortedInit, last, key);
      forall k ensures WithKey(r, key, k) == WithKey(xs, key, k) {
        InsertWithKey(sortedInit, last, key, k);
        WithKeyAppend(init, [last], key, k);
        assert WithKey([last], key, k) == (if key(last) == k then [last] else []) + WithKey([], key, k);
      }
      assert |r| == |multiset(r)|;
      r
  }

  /** The first `n` elements of a sorted list are sorted. */
  lemma TakeSorted<T>(xs: seq<T>, key: T -> Key, n: nat)
    requires SortedDesc(xs, key)
    requires n <= |xs|
    ensures SortedDesc(xs[..n], key)
  {
  }

  /** `sorted(xs, reverse=True)[:n]`: the `n` best elements (all of them when
      there are fewer), best first; whatever is left out ranks no higher than
      anything kept. */
  function TopK<T>(xs: seq<T>, key: T -> Key, n: nat): (r: seq<T>)
    ensures |r| == if n < |xs| then n else |xs|
    ensures SortedDesc(r, key)
    ensures multiset(r) <= multiset(xs)
    ensures forall i, y :: 0 <= i < |r| && y in multiset(xs) - multiset(r) ==> KeyGe(key(r[i]), key(y))
    ensures forall k :: WithKey(r, key, k) <= WithKey(xs, key, k)
  {
    var s := SortDesc(xs, key);
    var m := if n < |s| then n else |s|;
    SplitMultiset(s, m);
    SortedHeadDominates(s, key, m);
    WithKeyPrefix(s, key, m);
    s[..m]
  }

  lemma SplitMultiset<T>(s: seq<T>, m: nat)
    requires m <= |s|
    ensures multiset(s) - multiset(s[..m]) == multiset(s[m..])
    ensures multiset(s[..m]) <= multiset(s)
  {
    assert s == s[..m] + s[m..];
  }

  /** In a sorted list every element of the head ranks at least as high as
      every element of the tail. */
  lemma SortedHeadDominates<T>(s: seq<T>, key: T -> Key, m: nat)
    requires SortedDesc(s, key) && m <= |s|
    ensures forall i, y :: 0 <= i < m && y in multiset(s[m..]) ==> KeyGe(key(s[i]), key(y))
  {
    forall i, y | 0 <= i < m && y in multiset(s[m..])
      ensures KeyGe(key(s[i]), key(y))
    {
      var j :| 0 <= j < |s[m..]| && s[m..][j] == y;
      assert s[m + j] == y;
    }
  }

  /** Filtering a sorted list keeps it sorted. */
  lemma {:induction false} FilterSorted<T>(xs: seq<T>, key: T -> Key, keep: T -> bool)
    requires SortedDesc(xs, key)
    ensures SortedDesc(Filter(xs, keep), key)
    decreases |xs|
  {
    if |xs| > 0 {
      FilterSorted(xs[1..], key, keep);
      var rest := Filter(xs[1..], keep);
      forall j | 0 <= j < |rest| ensures KeyGe(key(xs[0]), key(rest[j])) {
        assert rest[j] in multiset(rest);
        assert multiset(xs[1..])[rest[j]] > 0;
        assert rest[j] in xs[1..];
      }
    }
  }

  /** `[x for x in sorted(xs, reverse=True) if keep(x)][:n]`: the first `n`
      kept elements (all of them when there are fewer), best first, equal keys
      in their input order, and no kept element left out ranks above one
      taken. */
  function RankFiltered<T>(xs: seq<T>, key: T -> Key, keep: T -> bool, n: nat): (r: seq<T>)
    ensures |r| == if n < |Filter(xs, keep)| then n else |Filter(xs, keep)|
    ensures SortedDesc(r, key)
    ensures forall i :: 0 <= i < |r| ==> keep(r[i])
    ensures multiset(r) <= multiset(xs)
    ensures forall i, y :: 0 <= i < |r| && y in multiset(xs) - multiset(r) && keep(y) ==> KeyGe(key(r[i]), key(y))
    ensures forall k :: WithKey(r, key, k) <= WithKey(Filter(xs, keep), key, k)
  {
    var s := SortDesc(xs, key);
    var f := Filter(s, keep);
    var r := f[..if n < |f| then n else |f|];
    RankFilteredOrder(xs, key, keep, s, f, r);
    RankFilteredChosen(xs, key, keep, s, f, r);
    RankFilteredCount(xs, key, keep, n, s, f, r);
    r
  }

  lemma RankFilteredOrder<T>(xs: seq<T>, key: T -> Key, keep: T -> bool, s: seq<T>, f: seq<T>, r: seq<T>)
    requires s == SortDesc(xs, key) && f == Filter(s, keep) && r <= f
    ensures SortedDesc(r, key)
    ensures forall i :: 0 <= i < |r| ==> keep(r[i])
  {
    FilterSorted(s, key, keep);
    forall i, j | 0 <= i < j < |r| ensures KeyGe(key(r[i]), key(r[j])) {
      assert r[i] == f[i] && r[j] == f[j];
    }
    forall i | 0 <= i < |r| ensures keep(r[i]) {
      assert r[i] == f[i];
    }
  }

  lemma RankFilteredChosen<T>(xs: seq<T>, key: T -> Key, keep: T -> bool, s: seq<T>, f: seq<T>, r: seq<T>)
    requires s == SortDesc(xs, key) && f == Filter(s, keep) && r <= f
    ensures multiset(r) <= multiset(xs)
    ensures forall i, y :: 0 <= i < |r| && y in multiset(xs) - multiset(r) && keep(y) ==> KeyGe(key(r[i]), key(y))
  {
    var m := |r|;
    assert r == f[..m];
    FilterSorted(s, key, keep);
    SplitMultiset(f, m);
    SortedHeadDominates(f, key, m);
    LeftOutKeptInTail(xs, s, f, keep, m);
  }

  lemma RankFilteredCount<T>(xs: seq<T>, key: T -> Key, keep: T -> bool, n: nat, s: seq<T>, f: seq<T>, r: seq<T>)
    requires s == SortDesc(xs, key) && f == Filter(s, keep) && r == f[..if n < |f| then n else |f|]
    ensures |r| == if n < |Filter(xs, keep)| then n else |Filter(xs, keep)|
    ensures forall k :: WithKey(r, key, k) <= WithKey(Filter(xs, keep), key, k)
  {
    FilterPermutation(s, xs, keep);
    RankFilteredStable(xs, s, f, key, keep, |r|);
  }

  lemma RankFilteredStable<T>(xs: seq<T>, s: seq<T>, f: seq<T>, key: T -> Key, keep: T -> bool, m: nat)
    requires s == SortDesc(xs, key) && f == Filter(s, keep) && m <= |f|
    ensures forall k :: WithKey(f[..m], key, k) <= WithKey(Filter(xs, keep), key, k)
  {
    WithKeyPrefix(f, key, m);
    forall k ensures WithKey(f, key, k) == WithKey(Filter(xs, keep), key, k) {
      WithKeyFilter(s, key, keep, k);
      WithKeyFilter(xs, key, keep, k);
    }
  }

  /** A kept element of `xs` not among the first `m` of its filtered sort is in the tail. */
  lemma LeftOutKeptInTail<T>(xs: seq<T>, s: seq<T>, f: seq<T>, keep: T -> bool, m: nat)
    requires multiset(s) == multiset(xs) && f == Filter(s, keep) && m <= |f|
    ensures forall y :: y in multiset(xs) - multiset(f[..m]) && keep(y) ==> y in multiset(f[m..])
  {
    SplitMultiset(f, m);
    forall y | y in multiset(xs) - multiset(f[..m]) && keep(y) ensures y in multiset(f[m..]) {
      assert multiset(f)[y] == multiset(xs)[y];
      assert y in multiset(f) - multiset(f[..m]);
    }
  }
}

=== FILE: rate_limit.dfy ===
/** The sliding-window rate limiter (app/api/middleware/rate_limit.py): each
    client keeps the times of its accepted requests; a request is refused
    when the last minute or the last hour already holds its limit. Times are
    seconds as reals; the clock and the JWT decoder are inputs. */
module RateLimit {
  import opened Wrappers
  import opened Text
  import opened Numbers

  /** Recorded request times per client id, oldest first. */
  type Clients = map<string, seq<real>>

  datatype Limits = Limits(perMinute: int, perHour: int)

  /** The configured defaults (app/core/config.py:59-60). */
  const DefaultLimits: Limits := Limits(60, 1000)

  const MinuteWindow: real := 60.0
  const HourWindow: real := 3600.0

  const ExemptPaths: set<string> := {"/health", "/health/live", "/health/ready", "/", "/status"}

  const MinuteDetail: string := "Rate limit exceeded: too many requests per minute"
  const HourDetail: string := "Rate limit exceeded: too many requests per hour"

  function Times(clients: Clients, id: string): seq<real> {
    if id in clients then clients[id] else []
  }

  // ---------------------------------------------------------------- windows

  /** `sum(1 for ts in timestamps if ts > cutoff)`. */
  function CountAfter(ts: seq<real>, cutoff: real): (n: nat)
    ensures n <= |ts|
    ensures n == 0 <==> forall i :: 0 <= i < |ts| ==> ts[i] <= cutoff
    ensures n == |ts| <==> forall i :: 0 <= i < |ts| ==> ts[i] > cutoff
  {
    if |ts| == 0 then 0
    else
      var rest := CountAfter(ts[1..], cutoff);
      assert forall i :: 1 <= i < |ts| ==> ts[1..][i - 1] == ts[i];
      (if ts[0] > cutoff then 1 else 0) + rest
  }

  lemma {:induction false} CountAfterAppend(ts: seq<real>, t: real, cutoff: real)
    ensures CountAfter(ts + [t], cutoff) == CountAfter(ts, cutoff) + (if t > cutoff then 1 else 0)
  {
    if |ts| > 0 {
      assert (ts + [t])[1..] == ts[1..] + [t];
      CountAfterAppend(ts[1..], t, cutoff);
    }
  }

  /** A wider window never holds fewer requests. */
  lemma {:induction false} CountAfterAntitone(ts: seq<real>, lo: real, hi: real)
    requires lo <= hi
    ensures CountAfter(ts, hi) <= CountAfter(ts, lo)
  {
    if |ts| > 0 {
      CountAfterAntitone(ts[1..], lo, hi);
    }
  }

  // ---------------------------------------------------------------- decision

  /** `_check_rate_limits`: `None` lets the request through, otherwise the
      detail of the 429 raised; the minute window is checked first. */
  function CheckLimits(ts: seq<real>, now: real, limits: Limits): (r: Option<string>)
    ensures r.None? <==> CountAfter(ts, now - MinuteWindow) < limits.perMinute
                         && CountAfter(ts, now - HourWindow) < limits.perHour
    ensures r == Some(MinuteDetail) <==> CountAfter(ts, now - MinuteWindow) >= limits.perMinute
    ensures r == Some(HourDetail) <==> CountAfter(ts, now - MinuteWindow) < limits.perMinute
                                       && CountAfter(ts, now - HourWindow) >= limits.perHour
  {
    if CountAfter(ts, now - MinuteWindow) >= limits.perMinute then Some(MinuteDetail)
    else if CountAfter(ts, now - HourWindow) >= limits.perHour then Some(HourDetail)
    else None
  }

  /** Once a request is accepted and recorded, neither window holds more than its limit. */
  lemma AcceptedStaysWithinLimits(ts: seq<real>, now: real, limits: Limits)
    requires CheckLimits(ts, now, limits).None?
    ensures CountAfter(ts + [now], now - MinuteWindow) <= limits.perMinute
    ensures CountAfter(ts + [now], now - HourWindow) <= limits.perHour
  {
    CountAfterAppend(ts, now, now - MinuteWindow);
    CountAfterAppend(ts, now, now - HourWindow);
  }

  /** The minute window never holds more requests than the hour window. */
  lemma MinuteBelowHour(ts: seq<real>, now: real)
    ensures CountAfter(ts, now - MinuteWindow) <= CountAfter(ts, now - HourWindow)
  {
    CountAfterAntitone(ts, now - HourWindow, now - MinuteWindow);
  }

  // ---------------------------------------------------------------- headers

  datatype Headers = Headers(limitMinute: int, remainingMinute: nat, limitHour: int, remainingHour: nat, reset: int)

  function Remaining(limit: int, used: nat): (r: nat)
    ensures r >= limit - used && (r == 0 || r == limit - used)
  {
    if limit - used > 0 then limit - used else 0
  }

  /** `_add_rate_limit_headers` on the times as recorded after the request. */
  function RateHeaders(ts: seq<real>, now: real, limits: Limits): (h: Headers)
    ensures h.remainingMinute == Remaining(limits.perMinute, CountAfter(ts, now - MinuteWindow))
    ensures h.remainingHour == Remaining(limits.perHour, CountAfter(ts, now - HourWindow))
    ensures h.limitMinute == limits.perMinute && h.limitHour == limits.perHour
    ensures h.reset == Trunc(now) + 60
  {
    Headers(limits.perMinute, Remaining(limits.perMinute, CountAfter(ts, now - MinuteWindow)),
            limits.perHour, Remaining(limits.perHour, CountAfter(ts, now - HourWindow)),
            Trunc(now) + 60)
  }

  // ---------------------------------------------------------------- client id

  /** The part of `s` before the first `sep`: `s.split(sep)[0]`. */
  function FirstPiece(s: string, sep: char): (r: string)
    ensures sep !in r && r <= s
    ensures |r| < |s| ==> s[|r|] == sep
  {
    if |s| == 0 || s[0] == sep then "" else [s[0]] + FirstPiece(s[1..], sep)
  }

  lemma {:induction false} FirstPieceIsSplitHead(s: string, sep: char)
    ensures FirstPiece(s, sep) == SplitOn(s, sep)[0]
  {
    if |s| > 0 && s[0] != sep {
      FirstPieceIsSplitHead(s[1..], sep);
    }
  }

  /** What the handler sees of a request; header names are lower-case. */
  datatype Request = Request(path: string, headers: map<string, string>, clientHost: Option<string>)

  /** A header that is present and non-empty. */
  function Header(req: Request, name: string): (r: Option<string>)
    ensures r.Some? <==> name in req.headers && req.headers[name] != ""
  {
    if name in req.headers && req.headers[name] != "" then Some(req.headers[name]) else None
  }

  /** `_get_client_ip`: the first entry of X-Forwarded-For, else X-Real-IP,
      else the socket's host, else "unknown". */
  function ClientIp(req: Request): (r: string)
    ensures Header(req, "x-forwarded-for").Some? ==>
      r == Strip(SplitOn(req.headers["x-forwarded-for"], ',')[0]) && ',' !in r
    ensures Header(req, "x-forwarded-for").None? && Header(req, "x-real-ip").Some? ==>
      r == req.headers["x-real-ip"]
    ensures Header(req, "x-forwarded-for").None? && Header(req, "x-real-ip").None? ==>
      r == req.clientHost.GetOr("unknown")
  {
    match Header(req, "x-forwarded-for")
    case Some(ff) =>
      FirstPieceIsSplitHead(ff, ',');
      Strip(FirstPiece(ff, ','))
    case None =>
      match Header(req, "x-real-ip")
      case Some(ip) => ip
      case None => req.clientHost.GetOr("unknown")
  }

  /** The token after "Bearer ": the second piece of the header split on
      spaces, which exists because the prefix holds a space. */
  function BearerToken(auth: string): (r: Option<string>)
    ensures r.Some? <==> StartsWith(auth, "Bearer ")
    ensures r.Some? ==> ' ' !in r.value
    ensures r.Some? ==> |SplitOn(auth, ' ')| >= 2 && r.value == SplitOn(auth, ' ')[1]
    ensures r.Some? ==> r.value <= auth[7..] && (|r.value| < |auth| - 7 ==> auth[7 + |r.value|] == ' ')
  {
    if StartsWith(auth, "Bearer ") then
      assert auth[..7][6] == ' ';
      SplitAtLeastTwo(auth, ' ');
      BearerTokenFollowsPrefix(auth);
      Some(SplitOn(auth, ' ')[1])
    else None
  }

  /** After "Bearer ", the second piece runs up to the next space. */
  lemma BearerTokenFollowsPrefix(auth: string)
    requires StartsWith(auth, "Bearer ")
    ensures |SplitOn(auth, ' ')| >= 2 && SplitOn(auth, ' ')[1] == FirstPiece(auth[7..], ' ')
  {
    assert auth == "Bearer" + [' '] + auth[7..];
    SplitOnHead("Bearer", ' ', auth[7..]);
    FirstPieceIsSplitHead(auth[7..], ' ');
  }

  /** A text holding the separator splits into at least two pieces. */
  lemma SplitAtLeastTwo(s: string, sep: char)
    requires sep in s
    ensures |SplitOn(s, sep)| >= 2
  {
  }

  /** `_get_client_id`. `userIdOf(token)` is what decoding the token yields:
      the text of a truthy `user_id` claim, or `None` when decoding fails or
      the claim is missing or falsy. Authenticated clients are keyed by user,
      the rest by address, and the two kinds of key never coincide. */
  function ClientId(req: Request, userIdOf: string -> Option<string>): (r: string)
    ensures (exists u :: r == "user:" + u) != (exists ip :: r == "ip:" + ip)
    ensures (exists u :: r == "user:" + u) <==>
      Header(req, "authorization").Some? && BearerToken(req.headers["authorization"]).Some?
      && userIdOf(BearerToken(req.headers["authorization"]).value).Some?
    ensures (exists ip :: r == "ip:" + ip) ==> r == "ip:" + ClientIp(req)
    ensures Header(req, "authorization").Some? && BearerToken(req.headers["authorization"]).Some? ==>
      var user := userIdOf(BearerToken(req.headers["authorization"]).value);
      user.Some? ==> r == "user:" + user.value
  {
    var user :=
      match Header(req, "authorization")
      case Some(auth) =>
        (match BearerToken(auth)
         case Some(token) => userIdOf(token)
         case None => None)
      case None => None;
    match user
    case Some(u) =>
      assert ("user:" + u)[0] == 'u';
      "user:" + u
    case None =>
      var r := "ip:" + ClientIp(req);
      assert r[0] == 'i';
      assert forall u :: r != "user:" + u by {
        forall u ensures r != "user:" + u {
          assert ("user:" + u)[0] == 'u';
        }
      }
      r
  }

  // ---------------------------------------------------------------- dispatch

  datatype Reply = Exempt | Refused(detail: string) | Served(headers: Headers)

  datatype Step = Step(clients: Clients, reply: Reply)

  /** `dispatch`: exempt paths pass untouched; otherwise the request is
      refused with the 429 detail, or recorded and served with headers.
      Looking a client up creates its entry, empty, when there was none. */
  function Dispatch(clients: Clients, req: Request, now: real, limits: Limits, userIdOf: string -> Option<string>): (r: Step)
    ensures req.path in ExemptPaths ==> r == Step(clients, Exempt)
    ensures req.path !in ExemptPaths ==>
      var id := ClientId(req, userIdOf);
      var ts := Times(clients, id);
      && (r.reply.Refused? <==> CheckLimits(ts, now, limits).Some?)
      && (r.reply.Refused? ==> r.reply.detail == CheckLimits(ts, now, limits).value && Times(r.clients, id) == ts)
      && (r.reply.Served? ==> (Times(r.clients, id) == ts + [now]
                               && r.reply.headers == RateHeaders(ts + [now], now, limits)))
      && (forall other :: other != id ==> (other in r.clients <==> other in clients) && Times(r.clients, other) == Times(clients, other))
  {
    if req.path in ExemptPaths then Step(clients, Exempt)
    else
      var id := ClientId(req, userIdOf);
      var ts := Times(clients, id);
      match CheckLimits(ts, now, limits)
      case Some(detail) => Step(clients[id := ts], Refused(detail))
      case None => Step(clients[id := ts + [now]], Served(RateHeaders(ts + [now], now, limits)))
  }

  /** A served request's headers report exactly what is left of each limit. */
  lemma ServedHeadersExact(clients: Clients, req: Request, now: real, limits: Limits, userIdOf: string -> Option<string>)
    requires Dispatch(clients, req, now, limits, userIdOf).reply.Served?
    ensures var h := Dispatch(clients, req, now, limits, userIdOf).reply.headers;
      var ts := Dispatch(clients, req, now, limits, userIdOf).clients[ClientId(req, userIdOf)];
      && h.remainingMinute as int == limits.perMinute - CountAfter(ts, now - MinuteWindow)
      && h.remainingHour as int == limits.perHour - CountAfter(ts, now - HourWindow)
  {
    var ts := Times(clients, ClientId(req, userIdOf));
    AcceptedStaysWithinLimits(ts, now, limits);
  }

  // ---------------------------------------------------------------- pruning

  /** The leading times older than `cutoff` dropped: the inner loop of
      `_cleanup_old_entries`. */
  function DropOlder(ts: seq<real>, cutoff: real): (r: seq<real>)
    ensures |r| <= |ts| && r == ts[|ts| - |r|..]
    ensures forall i :: 0 <= i < |ts| - |r| ==> ts[i] < cutoff
    ensures r != [] ==> r[0] >= cutoff
  {
    if |ts| > 0 && ts[0] < cutoff then DropOlder(ts[1..], cutoff) else ts
  }

  /** One pass of `_cleanup_old_entries` at time `now`. */
  function Prune(clients: Clients, now: real): (r: Clients)
    ensures forall id :: id in r <==> id in clients && DropOlder(clients[id], now - HourWindow) != []
    ensures forall id :: id in r ==> r[id] == DropOlder(clients[id], now - HourWindow)
  {
    map id | id in clients && DropOlder(clients[id], now - HourWindow) != [] :: DropOlder(clients[id], now - HourWindow)
  }

  /** Dropping times older than a cutoff leaves every window at or after it unchanged. */
  lemma {:induction false} DropOlderKeepsCounts(ts: seq<real>, cutoff: real, c: real)
    requires cutoff <= c
    ensures CountAfter(DropOlder(ts, cutoff), c) == CountAfter(ts, c)
  {
    if |ts| > 0 && ts[0] < cutoff {
      DropOlderKeepsCounts(ts[1..], cutoff, c);
    }
  }

  /** Pruning leaves every window that starts at or after the pruning cutoff unchanged. */
  lemma PrunedCounts(clients: Clients, now: real, id: string, c: real)
    requires now - HourWindow <= c
    ensures CountAfter(Times(Prune(clients, now), id), c) == CountAfter(Times(clients, id), c)
  {
    if id in clients {
      DropOlderKeepsCounts(clients[id], now - HourWindow, c);
    }
  }

  /** Pruning never changes a later decision, for any client. */
  lemma PruneKeepsDecisions(clients: Clients, now: real, later: real, id: string, limits: Limits)
    requires now <= later
    ensures CheckLimits(Times(Prune(clients, now), id), later, limits) == CheckLimits(Times(clients, id), later, limits)
  {
    PrunedCounts(clients, now, id, later - MinuteWindow);
    PrunedCounts(clients, now, id, later - HourWindow);
  }
}

=== FILE: seqs.dfy ===
/** Order-preserving de-duplication: the `seen = set(); for x in xs: if key(x)
    not in seen: ...` loop that the keyword extractors use, and the
    `list(set(xs))` idiom whose order Python leaves unspecified. */
module Seqs {

  function KeySet<T, K>(xs: seq<T>, key: T -> K): set<K> {
    set i | 0 <= i < |xs| :: key(xs[i])
  }

  predicate DistinctKeys<T, K(==)>(xs: seq<T>, key: T -> K) {
    forall i, j :: 0 <= i < j < |xs| ==> key(xs[i]) != key(xs[j])
  }

  lemma KeySetAppend<T, K>(xs: seq<T>, ys: seq<T>, key: T -> K)
    ensures KeySet(xs + ys, key) == KeySet(xs, key) + KeySet(ys, key)
  {
    var l, r := KeySet(xs + ys, key), KeySet(xs, key) + KeySet(ys, key);
    forall k | k in l ensures k in r {
      var i :| 0 <= i < |xs + ys| && key((xs + ys)[i]) == k;
      if i >= |xs| { assert key(ys[i - |xs|]) == k; }
    }
    forall k | k in r ensures k in l {
      if k in KeySet(xs, key) {
        var i :| 0 <= i < |xs| && key(xs[i]) == k;
        assert (xs + ys)[i] == xs[i];
      } else {
        var i :| 0 <= i < |ys| && key(ys[i]) == k;
        assert (xs + ys)[|xs| + i] == ys[i];
      }
    }
  }

  /** The elements of `xs` that are the first of their key, in their original order. */
  function FirstByKey<T, K(==)>(xs: seq<T>, key: T -> K): (r: seq<T>)
    ensures KeySet(r, key) == KeySet(xs, key)
    ensures DistinctKeys(r, key)
    ensures |r| <= |xs|
    ensures forall i :: 0 <= i < |r| ==> r[i] in xs
    decreases |xs|
  {
    if |xs| == 0 then []
    else
      var init, last := xs[..|xs| - 1], xs[|xs| - 1];
      var prefix := FirstByKey(init, key);
      assert xs == init + [last];
      KeySetAppend(init, [last], key);
      if key(last) in KeySet(init, key) then prefix
      else
        KeySetAppend(prefix, [last], key);
        prefix + [last]
  }

  /** A sequence whose keys are already distinct is its own de-duplication. */
  lemma {:induction false} FirstByKeyOfDistinct<T, K>(xs: seq<T>, key: T -> K)
    requires DistinctKeys(xs, key)
    ensures FirstByKey(xs, key) == xs
    decreases |xs|
  {
    if |xs| > 0 {
      var init, last := xs[..|xs| - 1], xs[|xs| - 1];
      FirstByKeyOfDistinct(init, key);
      assert key(last) !in KeySet(init, key);
    }
  }

  /** De-duplicating twice is de-duplicating once. */
  lemma FirstByKeyIdempotent<T, K>(xs: seq<T>, key: T -> K)
    ensures FirstByKey(FirstByKey(xs, key), key) == FirstByKey(xs, key)
  {
    FirstByKeyOfDistinct(FirstByKey(xs, key), key);
  }

  /** Appending elements whose keys are already present changes nothing. */
  lemma {:induction false} FirstByKeyAppendCovered<T, K>(xs: seq<T>, ys: seq<T>, key: T -> K)
    requires KeySet(ys, key) <= KeySet(xs, key)
    ensures FirstByKey(xs + ys, key) == FirstByKey(xs, key)
    decreases |ys|
  {
    if |ys| > 0 {
      var init, last := ys[..|ys| - 1], ys[|ys| - 1];
      SnocSplit(ys);
      KeySetAppend(init, [last], key);
      FirstByKeyAppendCovered(xs, init, key);
      AppendSnoc(xs, ys);
      KeySetAppend(xs, init, key);
      FirstByKeySnoc(xs + ys, key);
    } else {
      assert xs + ys == xs;
    }
  }

  /** Every element of `xs` has its key represented among the kept ones `r`. */
  lemma FirstByKeyCovers<T, K>(xs: seq<T>, key: T -> K, r: seq<T>)
    requires r == FirstByKey(xs, key)
    ensures forall j :: 0 <= j < |xs| ==> exists i :: 0 <= i < |r| && key(r[i]) == key(xs[j])
  {
    forall j | 0 <= j < |xs| ensures exists i :: 0 <= i < |r| && key(r[i]) == key(xs[j]) {
      assert key(xs[j]) in KeySet(xs, key);
    }
  }

  /** Each kept element is the first element of `xs` with its key. */
  lemma {:induction false} FirstByKeyKeepsFirst<T, K>(xs: seq<T>, key: T -> K)
    ensures forall i :: 0 <= i < |FirstByKey(xs, key)| ==>
      exists j :: 0 <= j < |xs| && xs[j] == FirstByKey(xs, key)[i] && key(xs[j]) !in KeySet(xs[..j], key)
    decreases |xs|
  {
    if |xs| > 0 {
      var init, last := xs[..|xs| - 1], xs[|xs| - 1];
      FirstByKeyKeepsFirst(init, key);
      FirstByKeySnoc(xs, key);
      var p, r := FirstByKey(init, key), FirstByKey(xs, key);
      forall i | 0 <= i < |r|
        ensures exists j :: 0 <= j < |xs| && xs[j] == r[i] && key(xs[j]) !in KeySet(xs[..j], key)
      {
        if i < |p| {
          var j :| 0 <= j < |init| && init[j] == p[i] && key(init[j]) !in KeySet(init[..j], key);
          assert xs[..j] == init[..j];
          assert xs[j] == r[i];
        } else {
          assert r[i] == last && xs[..|xs| - 1] == init;
        }
      }
    } else {
      assert FirstByKey(xs, key) == [];
    }
  }

  /** One step of `FirstByKey`: the last element is kept when its key is new. */
  lemma FirstByKeySnoc<T, K>(xs: seq<T>, key: T -> K)
    requires |xs| > 0
    ensures var init, last := xs[..|xs| - 1], xs[|xs| - 1];
      FirstByKey(xs, key) == if key(last) in KeySet(init, key) then FirstByKey(init, key) else FirstByKey(init, key) + [last]
  {
  }

  /** The front and last element of `xs + ys` when `ys` is not empty. */
  lemma AppendSnoc<T>(xs: seq<T>, ys: seq<T>)
    requires |ys| > 0
    ensures (xs + ys)[..|xs + ys| - 1] == xs + ys[..|ys| - 1]
    ensures (xs + ys)[|xs + ys| - 1] == ys[|ys| - 1]
  {
  }

  /** Python's de-duplication loop: scan left to right, keep an element when
      its key has not been seen, and remember the key. */
  method KeepFirstByKey<T, K(==)>(xs: seq<T>, key: T -> K) returns (r: seq<T>)
    ensures r == FirstByKey(xs, key)
  {
    r := [];
    var seen: set<K> := {};
    for i := 0 to |xs|
      invariant r == FirstByKey(xs[..i], key)
      invariant seen == KeySet(xs[..i], key)
    {
      assert xs[..i + 1][..i] == xs[..i];
      KeySetAppend(xs[..i], [xs[i]], key);
      assert xs[..i + 1] == xs[..i] + [xs[i]];
      if key(xs[i]) !in seen {
        r := r + [xs[i]];
        seen := seen + {key(xs[i])};
      }
    }
    assert xs[..|xs|] == xs;
  }

  function Identity<T>(x: T): T { x }

  /** One ordering of Python's `list(set(xs))`: each distinct element once.
      Python leaves the order unspecified; the model keeps first occurrences. */
  function Distinct<T(==,!new)>(xs: seq<T>): (r: seq<T>)
    ensures forall x :: x in r <==> x in xs
    ensures forall i, j :: 0 <= i < j < |r| ==> r[i] != r[j]
    ensures |r| <= |xs|
  {
    var r := FirstByKey(xs, Identity);
    forall x | x in xs ensures x in r {
      var i :| 0 <= i < |xs| && xs[i] == x;
      assert Identity(x) in KeySet(xs, Identity);
      var j :| 0 <= j < |r| && Identity(r[j]) == Identity(x);
    }
    r
  }

  /** Re-adding elements that are already present leaves the de-duplication unchanged. */
  lemma DistinctAbsorbs<T(!new)>(xs: seq<T>, ys: seq<T>)
    requires forall y :: y in ys ==> y in xs
    ensures Distinct(Distinct(xs) + ys) == Distinct(xs)
  {
    var d := Distinct(xs);
    assert d == FirstByKey(xs, Identity);
    forall k | k in KeySet(ys, Identity) ensures k in KeySet(d, Identity) {
      var i :| 0 <= i < |ys| && Identity(ys[i]) == k;
      assert ys[i] in xs;
      var j :| 0 <= j < |d| && d[j] == ys[i];
      assert Identity(d[j]) == k;
    }
    FirstByKeyAppendCovered(d, ys, Identity);
    FirstByKeyOfDistinct(d, Identity);
  }

  /** De-duplicating a longer list keeps the de-duplication of its prefix as a prefix. */
  lemma {:induction false} FirstByKeyPrefix<T, K>(xs: seq<T>, ys: seq<T>, key: T -> K)
    ensures FirstByKey(xs, key) <= FirstByKey(xs + ys, key)
    decreases |ys|
  {
    if |ys| == 0 {
      assert xs + ys == xs;
    } else {
      var init := ys[..|ys| - 1];
      FirstByKeyPrefix(xs, init, key);
      AppendSnoc(xs, ys);
      FirstByKeySnoc(xs + ys, key);
    }
  }

  /** `[f(x) for x in xs]`. */
  function Map<T, U>(xs: seq<T>, f: T -> U): (r: seq<U>)
    ensures |r| == |xs| && forall i :: 0 <= i < |xs| ==> r[i] == f(xs[i])
  {
    seq(|xs|, i requires 0 <= i < |xs| => f(xs[i]))
  }

  /** Mapping a list is mapping its head, then its tail. */
  lemma MapCons<T, U>(xs: seq<T>, f: T -> U)
    requires |xs| > 0
    ensures Map(xs, f) == [f(xs[0])] + Map(xs[1..], f)
  {
  }

  /** `[x for x in xs if keep(x)]`. */
  function Filter<T>(xs: seq<T>, keep: T -> bool): (r: seq<T>)
    ensures |r| <= |xs|
    ensures forall i :: 0 <= i < |r| ==> keep(r[i])
    ensures multiset(r) <= multiset(xs)
    ensures forall y :: y in multiset(xs) && keep(y) ==> multiset(r)[y] == multiset(xs)[y]
  {
    if |xs| == 0 then []
    else
      var rest := Filter(xs[1..], keep);
      assert xs == [xs[0]] + xs[1..];
      (if keep(xs[0]) then [xs[0]] else []) + rest
  }

  lemma {:induction false} FilterAppend<T>(xs: seq<T>, ys: seq<T>, keep: T -> bool)
    ensures Filter(xs + ys, keep) == Filter(xs, keep) + Filter(ys, keep)
    decreases |xs|
  {
    if |xs| == 0 {
      assert xs + ys == ys;
    } else {
      assert (xs + ys)[0] == xs[0];
      assert (xs + ys)[1..] == xs[1..] + ys;
      FilterAppend(xs[1..], ys, keep);
    }
  }

  /** The loop that skips unwanted elements without remembering their key,
      and otherwise keeps an element whose key has not been kept before. */
  method KeepFirstByKeyWhere<T, K(==)>(xs: seq<T>, keep: T -> bool, key: T -> K) returns (r: seq<T>)
    ensures r == FirstByKey(Filter(xs, keep), key)
  {
    r := [];
    var seen: set<K> := {};
    for i := 0 to |xs|
      invariant r == Kept(xs[..i], keep, key)
      invariant seen == KeySet(r, key)
    {
      var x := xs[i];
      PrefixSnoc(xs, i);
      if keep(x) && key(x) !in seen {
        KeySetAppend(r, [x], key);
        r := r + [x];
        seen := seen + {key(x)};
      }
    }
    assert xs[..|xs|] == xs;
    KeptIsFirstOfFiltered(xs, keep, key);
  }

  /** What that loop has kept after scanning `xs`. */
  function Kept<T, K(==)>(xs: seq<T>, keep: T -> bool, key: T -> K): seq<T>
    decreases |xs|
  {
    if |xs| == 0 then []
    else
      var p := Kept(xs[..|xs| - 1], keep, key);
      var x := xs[|xs| - 1];
      if keep(x) && key(x) !in KeySet(p, key) then p + [x] else p
  }

  /** Skipping while de-duplicating is filtering, then de-duplicating. */
  lemma {:induction false} KeptIsFirstOfFiltered<T, K>(xs: seq<T>, keep: T -> bool, key: T -> K)
    ensures Kept(xs, keep, key) == FirstByKey(Filter(xs, keep), key)
    decreases |xs|
  {
    if |xs| > 0 {
      var init := xs[..|xs| - 1];
      KeptIsFirstOfFiltered(init, keep, key);
      PrefixSnoc(xs, |xs| - 1);
      assert xs[..|xs|] == xs;
      FilterFirstByKeyStep(init, xs[|xs| - 1], keep, key, Kept(init, keep, key));
    }
  }

  /** One turn of that loop. */
  lemma FilterFirstByKeyStep<T, K>(prefix: seq<T>, x: T, keep: T -> bool, key: T -> K, r: seq<T>)
    requires r == FirstByKey(Filter(prefix, keep), key)
    ensures FirstByKey(Filter(prefix + [x], keep), key) == if keep(x) && key(x) !in KeySet(r, key) then r + [x] else r
  {
    var f := Filter(prefix, keep);
    FilterAppend(prefix, [x], keep);
    FilterSingle(x, keep);
    if keep(x) {
      AppendSnoc(f, [x]);
      FirstByKeySnoc(f + [x], key);
    } else {
      assert f + [] == f;
    }
  }

  /** Filtering a list is filtering all but its last element, then the last. */
  lemma FilterSnoc<T>(xs: seq<T>, keep: T -> bool)
    requires |xs| > 0
    ensures Filter(xs, keep) == Filter(xs[..|xs| - 1], keep) + (if keep(xs[|xs| - 1]) then [xs[|xs| - 1]] else [])
  {
    var front, last := xs[..|xs| - 1], xs[|xs| - 1];
    SnocSplit(xs);
    FilterAppend(front, [last], keep);
    FilterSingle(last, keep);
  }

  /** What occurs in a permutation of `ys` occurs in `ys`. */
  lemma PermutationMember<T>(xs: seq<T>, ys: seq<T>, x: T)
    requires multiset(xs) == multiset(ys) && x in xs
    ensures x in ys
  {
    assert x in multiset(xs);
  }

  lemma SnocSplit<T>(xs: seq<T>)
    requires |xs| > 0
    ensures xs[..|xs| - 1] + [xs[|xs| - 1]] == xs
  {
  }

  lemma FilterSingle<T>(x: T, keep: T -> bool)
    ensures Filter([x], keep) == if keep(x) then [x] else []
  {
    assert [x][1..] == [];
    assert Filter([x][1..], keep) == [];
  }

  lemma PrefixSnoc<T>(xs: seq<T>, i: nat)
    requires i < |xs|
    ensures xs[..i + 1] == xs[..i] + [xs[i]]
  {
  }

  /** Any prefix of a filtered de-duplication holds wanted elements of the
      input with distinct keys. */
  lemma FirstOfFilteredPrefix<T, K>(xs: seq<T>, keep: T -> bool, key: T -> K, r: seq<T>)
    requires r <= FirstByKey(Filter(xs, keep), key)
    ensures DistinctKeys(r, key)
    ensures forall i :: 0 <= i < |r| ==> keep(r[i]) && r[i] in xs
  {
    var u := FirstByKey(Filter(xs, keep), key);
    forall i | 0 <= i < |r| ensures keep(r[i]) && r[i] in xs {
      assert r[i] == u[i];
      assert r[i] in Filter(xs, keep);
      assert r[i] in multiset(Filter(xs, keep));
    }
  }
}

=== FILE: text.dfy ===
/** The Python string built-ins the core relies on: `lower`, `strip`, `split`,
    `join`, `startswith`, the substring test `in`, `replace(pat, "")` and slicing. */
module Text {

  /** Python's `str.isspace()`: ASCII whitespace, the separator controls
      0x1C-0x1F, NEL, and the Unicode space separators. */
  predicate IsSpace(c: char) {
    || c == ' ' || c == '\t' || c == '\n' || c == '\r' || c == '\U{000B}' || c == '\U{000C}'
    || ('\U{001C}' <= c <= '\U{001F}')
    || c == '\U{0085}' || c == '\U{00A0}' || c == '\U{1680}'
    || ('\U{2000}' <= c <= '\U{200A}')
    || c == '\U{2028}' || c == '\U{2029}' || c == '\U{202F}' || c == '\U{205F}' || c == '\U{3000}'
  }

  predicate AllSpace(s: string) {
    forall i :: 0 <= i < |s| ==> IsSpace(s[i])
  }

  predicate IsUpper(c: char) {
    ('A' <= c <= 'Z') || ('\U{00C0}' <= c <= '\U{00DE}' && c != '\U{00D7}')
  }

  /** `str.lower()` on one character: ASCII and Latin-1 capitals map to their small letters. */
  function LowerChar(c: char): (r: char)
    ensures !IsUpper(r)
    ensures !IsUpper(c) ==> r == c
    ensures r == c || 'a' <= r <= 'z' || '\U{00E0}' <= r <= '\U{00FE}'
    ensures IsSpace(r) <==> IsSpace(c)
  {
    if IsUpper(c) then (c as int + 32) as char else c
  }

  function Lower(s: string): (r: string)
    ensures |r| == |s|
    ensures forall i :: 0 <= i < |s| ==> r[i] == LowerChar(s[i])
  {
    if |s| == 0 then "" else [LowerChar(s[0])] + Lower(s[1..])
  }

  lemma {:induction false} LowerIdempotent(s: string)
    ensures Lower(Lower(s)) == Lower(s)
  {
    var l := Lower(s);
    assert forall i :: 0 <= i < |l| ==> LowerChar(l[i]) == l[i];
  }

  /** A string of characters lower-casing leaves alone is its own lower case. */
  lemma LowerFixed(s: string)
    requires forall i :: 0 <= i < |s| ==> LowerChar(s[i]) == s[i]
    ensures Lower(s) == s
  {
  }

  lemma LowerAppend(a: string, b: string)
    ensures Lower(a + b) == Lower(a) + Lower(b)
  {
    assert forall i :: 0 <= i < |a + b| ==> Lower(a + b)[i] == (Lower(a) + Lower(b))[i];
  }

  /** A small letter that has an ASCII or Latin-1 capital. */
  predicate HasUpper(c: char) {
    ('a' <= c <= 'z') || ('\U{00E0}' <= c <= '\U{00FE}' && c != '\U{00F7}')
  }

  /** `str.upper()` on one character, for the letters `HasUpper` admits. */
  function UpperChar(c: char): (r: char)
    ensures LowerChar(r) == LowerChar(c)
    ensures HasUpper(c) ==> IsUpper(r)
    ensures !HasUpper(c) ==> r == c
  {
    if HasUpper(c) then (c as int - 32) as char else c
  }

  /** A letter with case: Python's `title()` starts a word after any other character. */
  predicate Cased(c: char) {
    IsUpper(c) || HasUpper(c)
  }

  /** `str.title()`: a cased character that follows an uncased one is made a
      capital, every other character is made small. */
  function Title(s: string): (r: string)
    ensures |r| == |s|
    ensures forall i :: 0 <= i < |s| ==> r[i] == if i > 0 && Cased(s[i - 1]) then LowerChar(s[i]) else UpperChar(s[i])
  {
    TitleAfter(s, false)
  }

  function TitleAfter(s: string, afterCased: bool): (r: string)
    ensures |r| == |s|
    ensures forall i :: 0 <= i < |s| ==> r[i] == if (if i == 0 then afterCased else Cased(s[i - 1])) then LowerChar(s[i]) else UpperChar(s[i])
  {
    if |s| == 0 then ""
    else
      var rest := TitleAfter(s[1..], Cased(s[0]));
      [if afterCased then LowerChar(s[0]) else UpperChar(s[0])] + rest
  }

  /** Title case changes only the case of letters. */
  lemma TitleLower(s: string)
    ensures Lower(Title(s)) == Lower(s)
  {
    var r := Title(s);
    forall i | 0 <= i < |s| ensures LowerChar(r[i]) == LowerChar(s[i]) {
      if i > 0 && Cased(s[i - 1]) {
        assert r[i] == LowerChar(s[i]);
        LowerCharIdempotent(s[i]);
      } else {
        assert r[i] == UpperChar(s[i]);
      }
    }
  }

  lemma LowerCharIdempotent(c: char)
    ensures LowerChar(LowerChar(c)) == LowerChar(c)
  {
  }

  // ---------------------------------------------------------------- strip

  /** The number of leading whitespace characters of `s`. */
  function StripStart(s: string): (k: nat)
    ensures k <= |s| && AllSpace(s[..k])
    ensures k < |s| ==> !IsSpace(s[k])
    ensures k == |s| <==> AllSpace(s)
  {
    if |s| > 0 && IsSpace(s[0]) then
      var k := StripStart(s[1..]);
      assert s[..k + 1] == [s[0]] + s[1..][..k];
      k + 1
    else 0
  }

  /** The length of `s` without its trailing whitespace. */
  function StripEnd(s: string): (k: nat)
    ensures k <= |s| && AllSpace(s[k..])
    ensures k > 0 ==> !IsSpace(s[k - 1])
  {
    if |s| > 0 && IsSpace(s[|s| - 1]) then
      var k := StripEnd(s[..|s| - 1]);
      assert s[k..] == s[..|s| - 1][k..] + [s[|s| - 1]];
      k
    else |s|
  }

  /** Python's `str.strip()`: the text between the leading and the trailing whitespace. */
  function Strip(s: string): (r: string)
    ensures |r| <= |s|
    ensures |r| > 0 ==> !IsSpace(r[0]) && !IsSpace(r[|r| - 1])
    ensures r == "" <==> AllSpace(s)
    ensures exists i, j :: 0 <= i <= j <= |s| && r == s[i..j] && AllSpace(s[..i]) && AllSpace(s[j..])
  {
    var i := StripStart(s);
    var j := StripEnd(s);
    if j <= i then
      assert s[i..] == s[j..][i - j..];
      assert s[..i] + s[i..] == s;
      s[i..i]
    else
      s[i..j]
  }

  lemma StripFixesTrimmed(s: string)
    requires |s| > 0 ==> !IsSpace(s[0]) && !IsSpace(s[|s| - 1])
    ensures Strip(s) == s
  {
  }

  /** Stripping twice is stripping once. */
  lemma StripIdempotent(s: string)
    ensures Strip(Strip(s)) == Strip(s)
  {
    StripFixesTrimmed(Strip(s));
  }

  // ---------------------------------------------------------------- split / join

  /** Python's `sep.join(parts)`. */
  function Join(parts: seq<string>, sep: string): string {
    if |parts| == 0 then ""
    else if |parts| == 1 then parts[0]
    else parts[0] + sep + Join(parts[1..], sep)
  }

  /** Python's `s.split(sep)` for a one-character separator: the pieces between
      separators, at least one of them, empty pieces included. */
  function SplitOn(s: string, sep: char): (r: seq<string>)
    ensures |r| >= 1
    ensures forall i :: 0 <= i < |r| ==> sep !in r[i]
    ensures Join(r, [sep]) == s
  {
    if |s| == 0 then [""]
    else
      var rest := SplitOn(s[1..], sep);
      if s[0] == sep then
        assert s == [sep] + s[1..];
        [""] + rest
      else
        var r := [[s[0]] + rest[0]] + rest[1..];
        assert r[1..] == rest[1..];
        r
  }

  /** A text without the separator is one piece. */
  lemma {:induction false} SplitOnNone(c: string, sep: char)
    requires sep !in c
    ensures SplitOn(c, sep) == [c]
  {
    if |c| > 0 {
      SplitOnNone(c[1..], sep);
      assert c == [c[0]] + c[1..];
    }
  }

  /** Splitting after a separator-free head: the head, then the pieces of the rest. */
  lemma {:induction false} SplitOnHead(a: string, sep: char, b: string)
    requires sep !in a
    ensures SplitOn(a + [sep] + b, sep) == [a] + SplitOn(b, sep)
  {
    var s := a + [sep] + b;
    if |a| == 0 {
      assert s[1..] == b;
    } else {
      assert s[1..] == a[1..] + [sep] + b;
      SplitOnHead(a[1..], sep, b);
      assert a == [a[0]] + a[1..];
    }
  }

  /** Splitting before a separator-free tail: the pieces of the front, then the tail. */
  lemma {:induction false} SplitOnTail(x: string, sep: char, c: string)
    requires sep !in c
    ensures SplitOn(x + [sep] + c, sep) == SplitOn(x, sep) + [c]
  {
    var s := x + [sep] + c;
    if |x| == 0 {
      assert s[1..] == c;
      SplitOnNone(c, sep);
    } else {
      assert s[1..] == x[1..] + [sep] + c;
      SplitOnTail(x[1..], sep, c);
    }
  }

  /** `s.split(sep)[-1]`: the text after the last separator, or all of `s`
      when it holds none. */
  function LastPiece(s: string, sep: char): (r: string)
    ensures sep !in r
    ensures |r| <= |s| && r == s[|s| - |r|..]
    ensures sep in s ==> |r| < |s| && s[|s| - |r| - 1] == sep
    ensures sep !in s ==> r == s
  {
    var parts := SplitOn(s, sep);
    LastPieceSuffix(s, sep);
    parts[|parts| - 1]
  }

  lemma {:induction false} LastPieceSuffix(s: string, sep: char)
    ensures var parts := SplitOn(s, sep); var last := parts[|parts| - 1];
      && |last| <= |s| && last == s[|s| - |last|..]
      && (|last| < |s| ==> s[|s| - |last| - 1] == sep)
      && (|parts| > 1 ==> |last| < |s|)
    decreases |s|
  {
    if |s| > 0 {
      var rest := SplitOn(s[1..], sep);
      LastPieceSuffix(s[1..], sep);
      SplitOnStep(s, sep);
      var last := rest[|rest| - 1];
      assert s[1..][|s| - 1 - |last|..] == s[|s| - |last|..];
    }
  }

  /** How the pieces of `s` relate to those of its tail: a leading separator
      adds an empty first piece; otherwise the first character joins the
      first piece. Either way the last piece is the tail's, unless the tail
      is a single piece joined by that character. */
  lemma SplitOnStep(s: string, sep: char)
    requires |s| > 0
    ensures var parts, rest := SplitOn(s, sep), SplitOn(s[1..], sep);
      && |parts| == |rest| + (if s[0] == sep then 1 else 0)
      && (s[0] == sep || |rest| > 1 ==> parts[|parts| - 1] == rest[|rest| - 1])
      && (s[0] != sep && |rest| == 1 ==> parts == [s])
  {
    if s[0] != sep && |SplitOn(s[1..], sep)| == 1 {
      SplitOnOnePiece(s, sep);
    }
  }

  /** When the tail of `s` is one piece and `s` does not start with the
      separator, all of `s` is one piece. */
  lemma SplitOnOnePiece(s: string, sep: char)
    requires |s| > 0 && s[0] != sep && |SplitOn(s[1..], sep)| == 1
    ensures SplitOn(s, sep) == [s]
  {
    var rest := SplitOn(s[1..], sep);
    assert Join(rest, [sep]) == rest[0];
    assert s == [s[0]] + s[1..];
  }

  /** The pieces of `s.split(sep)`, each stripped, with the blank ones dropped:
      the `[k.strip() for k in s.split(sep) if k.strip()]` idiom. */
  function SplitTrimmed(s: string, sep: char): (r: seq<string>)
    ensures forall i :: 0 <= i < |r| ==> r[i] != "" && Strip(r[i]) == r[i]
  {
    StripAll(SplitOn(s, sep))
  }

  function StripAll(pieces: seq<string>): (r: seq<string>)
    ensures |r| <= |pieces|
    ensures forall i :: 0 <= i < |r| ==> r[i] != "" && Strip(r[i]) == r[i]
  {
    if |pieces| == 0 then []
    else
      var head := Strip(pieces[0]);
      var rest := StripAll(pieces[1..]);
      StripIdempotent(pieces[0]);
      if head == "" then rest else [head] + rest
  }

  /** Python's `s.split()`: the maximal runs of non-whitespace characters. */
  function SplitWords(s: string): (r: seq<string>)
    ensures forall i :: 0 <= i < |r| ==> r[i] != "" && forall j :: 0 <= j < |r[i]| ==> !IsSpace(r[i][j])
  {
    WordsFrom(s, "")
  }

  function WordsFrom(s: string, cur: string): (r: seq<string>)
    requires forall j :: 0 <= j < |cur| ==> !IsSpace(cur[j])
    ensures forall i :: 0 <= i < |r| ==> r[i] != "" && forall j :: 0 <= j < |r[i]| ==> !IsSpace(r[i][j])
    decreases |s|
  {
    if |s| == 0 then (if cur == "" then [] else [cur])
    else if IsSpace(s[0]) then (if cur == "" then WordsFrom(s[1..], "") else [cur] + WordsFrom(s[1..], ""))
    else WordsFrom(s[1..], cur + [s[0]])
  }

  // ---------------------------------------------------------------- substring tests

  predicate StartsWith(s: string, prefix: string) {
    |prefix| <= |s| && s[..|prefix|] == prefix
  }

  /** Python's `needle in hay` on strings. */
  predicate Contains(hay: string, needle: string)
    decreases |hay|
  {
    StartsWith(hay, needle) || (|hay| > 0 && Contains(hay[1..], needle))
  }

  predicate OccursAt(hay: string, needle: string, i: nat) {
    i + |needle| <= |hay| && hay[i..i + |needle|] == needle
  }

  /** The substring test holds exactly when the needle occurs at some position. */
  lemma ContainsAt(hay: string, needle: string)
    ensures Contains(hay, needle) <==> exists i: nat :: OccursAt(hay, needle, i)
    decreases |hay|
  {
    if StartsWith(hay, needle) {
      assert OccursAt(hay, needle, 0);
    }
    if |hay| > 0 {
      ContainsAt(hay[1..], needle);
      if Contains(hay[1..], needle) {
        var i: nat :| OccursAt(hay[1..], needle, i);
        assert OccursAt(hay, needle, i + 1);
      }
      if exists i: nat :: OccursAt(hay, needle, i) {
        var i: nat :| OccursAt(hay, needle, i);
        if i > 0 { assert OccursAt(hay[1..], needle, i - 1); }
      }
    } else {
      if exists i: nat :: OccursAt(hay, needle, i) {
        var i: nat :| OccursAt(hay, needle, i);
        assert i == 0 && StartsWith(hay, needle);
      }
    }
  }

  lemma EmptyContained(hay: string)
    ensures Contains(hay, "")
  {
  }

  /** Whether any of `words` occurs in `text`: Python's `any(w in text for w in words)`. */
  predicate AnyContained(text: string, words: seq<string>) {
    exists i :: 0 <= i < |words| && Contains(text, words[i])
  }

  /** How many of `words` occur in `text`: `sum(1 for w in words if w in text)`. */
  function CountContained(text: string, words: seq<string>): (n: nat)
    ensures n <= |words|
    ensures n > 0 <==> AnyContained(text, words)
  {
    if |words| == 0 then 0
    else
      var rest := CountContained(text, words[1..]);
      assert AnyContained(text, words[1..]) ==> AnyContained(text, words);
      assert AnyContained(text, words) && !Contains(text, words[0]) ==> AnyContained(text, words[1..]) by {
        if AnyContained(text, words) && !Contains(text, words[0]) {
          var i :| 0 <= i < |words| && Contains(text, words[i]);
          assert words[1..][i - 1] == words[i];
        }
      }
      (if Contains(text, words[0]) then 1 else 0) + rest
  }

  /** Python's `s.replace(pat, "")` for a non-empty pattern: every
      non-overlapping occurrence, scanned left to right, removed. */
  function RemoveAll(s: string, pat: string): (r: string)
    requires pat != ""
    ensures |r| <= |s|
    decreases |s|
  {
    if |s| < |pat| then s
    else if s[..|pat|] == pat then RemoveAll(s[|pat|..], pat)
    else [s[0]] + RemoveAll(s[1..], pat)
  }

  /** A front that never holds the pattern's first character passes through
      the removal untouched. */
  lemma {:induction false} RemoveAllFreeFront(a: string, b: string, pat: string)
    requires pat != "" && pat[0] !in a
    ensures RemoveAll(a + b, pat) == a + RemoveAll(b, pat)
    decreases |a|
  {
    if |a| > 0 {
      var s := a + b;
      assert s[0] == a[0] != pat[0];
      if |s| >= |pat| {
        assert s[..|pat|] != pat by { assert s[..|pat|][0] == a[0]; }
        assert s[1..] == a[1..] + b;
        RemoveAllFreeFront(a[1..], b, pat);
      } else {
        RemoveAllFreeFront(a[1..], b, pat);
        assert RemoveAll(a[1..] + b, pat) == a[1..] + b;
        assert |b| < |pat|;
      }
    } else {
      assert a + b == b;
    }
  }

  // ---------------------------------------------------------------- slicing

  /** Python's `s[:n]` for `n >= 0`. */
  function Take<T>(s: seq<T>, n: nat): (r: seq<T>)
    ensures |r| == if n < |s| then n else |s|
    ensures r == s[..|r|]
  {
    if n < |s| then s[..n] else s
  }

  /** Python's `s[-n:]` for `n > 0`. */
  function TakeLast<T>(s: seq<T>, n: nat): (r: seq<T>)
    ensures |r| == if n < |s| then n else |s|
    ensures r == s[|s| - |r|..]
  {
    if n < |s| then s[|s| - n..] else s
  }

  /** Python's `xs[:n]` for any integer `n`: a negative `n` drops that many
      elements from the end. */
  function SliceTo<T>(xs: seq<T>, n: int): (r: seq<T>)
    ensures n >= 0 ==> r == Take(xs, n as nat)
    ensures n < 0 ==> |r| == (if |xs| + n > 0 then |xs| + n else 0) && r == xs[..|r|]
  {
    if n >= 0 then Take(xs, n as nat)
    else if |xs| + n > 0 then xs[..|xs| + n] else []
  }
}

=== FILE: upselling.dfy ===
/** The upsell decision table (app/ai_systems/upselling_system.py): free users
    asking for investors are offered Pro, Pro users are offered Outreach. */
module Upselling {
  import opened Wrappers
  import opened BaseModels

  datatype Opportunity = Opportunity(
    shouldUpsell: bool, kind: string, confidence: real, message: Option<string>, targetPlan: string)

  const FreeToProEs: string := "💡 Con el Plan Pro podrías buscar inversores específicos para tu startup y obtener acceso a nuestra base de datos completa de +10,000 inversores."
  const FreeToProEn: string := "💡 With the Pro Plan you could search for specific investors for your startup and get access to our complete database of +10,000 investors."
  const ProToOutreachEs: string := "🚀 Con el Plan Outreach puedes automatizar el contacto con estos inversores a través de LinkedIn y enviar mensajes personalizados a escala."
  const ProToOutreachEn: string := "🚀 With the Outreach Plan you can automate contact with these investors through LinkedIn and send personalized messages at scale."

  /** The outcome when the analysis raises. */
  const ErrorOpportunity: Opportunity := Opportunity(false, "error", 0.0, None, "none")

  /** `analyze_opportunity`. `plan` is the user context's plan, `None` when
      there is no user context to read it from (reading it then raises);
      `hasExtracted` is whether the decision carries an `extracted_data`
      attribute. */
  function AnalyzeOpportunity(plan: Option<string>, decision: string, hasExtracted: bool, language: Language): (r: Opportunity)
    ensures plan.None? ==> r == ErrorOpportunity
    ensures plan == Some("free") && decision == "search_investors" ==>
      r.shouldUpsell && r.kind == "free_to_pro" && r.confidence == 0.8 && r.targetPlan == "pro"
      && r.message == Some(if language == Spanish then FreeToProEs else FreeToProEn)
    ensures plan == Some("pro") && decision == "search_investors" && hasExtracted ==>
      r.shouldUpsell && r.kind == "pro_to_outreach" && r.confidence == 0.7 && r.targetPlan == "outreach"
      && r.message == Some(if language == Spanish then ProToOutreachEs else ProToOutreachEn)
    ensures plan.Some? && !(decision == "search_investors" && (plan.value == "free" || (plan.value == "pro" && hasExtracted))) ==>
      r == Opportunity(false, "none", 0.0, None, "outreach")
  {
    match plan
    case None => ErrorOpportunity
    case Some(p) =>
      var spanish := language == Spanish;
      if p == "free" && decision == "search_investors" then
        Opportunity(true, "free_to_pro", 0.8, Some(if spanish then FreeToProEs else FreeToProEn), "pro")
      else if p == "pro" && decision == "search_investors" && hasExtracted then
        Opportunity(true, "pro_to_outreach", 0.7, Some(if spanish then ProToOutreachEs else ProToOutreachEn), "outreach")
      else
        Opportunity(false, "none", 0.0, None, "outreach")
  }

  /** An upsell always carries a message; the target is "pro" exactly for
      the free-to-pro offer and "outreach" otherwise, even when nothing is
      offered, unless the analysis failed. */
  lemma UpsellShape(plan: Option<string>, decision: string, hasExtracted: bool, language: Language)
    ensures var r := AnalyzeOpportunity(plan, decision, hasExtracted, language);
      && (r.shouldUpsell <==> r.message.Some?)
      && (r.targetPlan == "pro" <==> r.kind == "free_to_pro")
      && (r.kind != "error" ==> r.targetPlan in {"pro", "outreach"})
  {
  }

  /** Outreach users are never upsold, and nothing but an investor search
      leads to an upsell. */
  lemma NoUpsellBeyondTable(plan: Option<string>, decision: string, hasExtracted: bool, language: Language)
    requires plan == Some("outreach") || decision != "search_investors"
    ensures !AnalyzeOpportunity(plan, decision, hasExtracted, language).shouldUpsell
  {
  }
}

=== FILE: wrappers.dfy ===
/** Failure-carrying result types shared by every module of the model.
    Python raises exceptions where this model returns `Err`. */
module Wrappers {

  datatype Option<+T> = None | Some(value: T) {
    function GetOr(default: T): T {
      match this
      case Some(v) => v
      case None => default
    }
  }

  /** `Err` carries the message of the exception the source raises. */
  datatype Result<+T> = Ok(value: T) | Err(message: string)

  /** A Python loop that builds one output per input and lets the first
      exception escape: every output in order, or the first error. */
  function MapAll<A, B>(xs: seq<A>, f: A -> Result<B>): (r: Result<seq<B>>)
    ensures r.Ok? <==> forall i :: 0 <= i < |xs| ==> f(xs[i]).Ok?
    ensures r.Ok? ==> |r.value| == |xs| && forall i :: 0 <= i < |xs| ==> r.value[i] == f(xs[i]).value
    ensures r.Err? ==> exists i :: 0 <= i < |xs| && f(xs[i]) == Err(r.message)
  {
    if |xs| == 0 then Ok([])
    else
      var head := f(xs[0]);
      var rest := MapAll(xs[1..], f);
      assert forall i :: 1 <= i < |xs| ==> xs[1..][i - 1] == xs[i];
      if head.Err? then Err(head.message)
      else if rest.Err? then
        var i :| 0 <= i < |xs[1..]| && f(xs[1..][i]) == Err(rest.message);
        assert xs[1..][i] == xs[i + 1];
        rest
      else Ok([head.value] + rest.value)
  }

  /** The index of the first input whose output is an error. */
  function FirstErr<A, B>(xs: seq<A>, f: A -> Result<B>): (r: Option<nat>)
    ensures r.None? <==> forall i :: 0 <= i < |xs| ==> f(xs[i]).Ok?
    ensures r.Some? ==> r.value < |xs| && f(xs[r.value]).Err? && forall i :: 0 <= i < r.value ==> f(xs[i]).Ok?
  {
    if |xs| == 0 then None
    else if f(xs[0]).Err? then Some(0)
    else
      var rest := FirstErr(xs[1..], f);
      assert forall i :: 1 <= i < |xs| ==> xs[1..][i - 1] == xs[i];
      if rest.None? then None else Some(rest.value + 1)
  }
}
